=== FILE: README.md ===
# Heart-disease MLOps scripts: a Dafny model

This project models the decision logic and the bookkeeping of a small MLOps
repository, and proves properties about them. The repository trains a heart-disease
classifier, tracks it in MLflow, registers it and serves it over HTTP. Five parts are
modelled:

- **Run migration** (`src/utils/migrate_mlflow_runs.py`). Every run of every experiment
  of a source tracking store is copied into a target:
  - its params, metrics and non-`mlflow.` tags, plus three provenance tags;
  - its artifacts, when asked.

  Each run is tallied as success, failed or skipped. The tallies are summed and turned
  into an exit code. The migrator is a class holding two stores. Each copy is written
  into the "active run" of a third store, `writer`: the fluent logging API writes to
  the process-wide tracking store, which the script never points at the target.
- **Tracking configuration** (`src/config/mlflow_config.py`). This covers:
  - environment selection;
  - the tracking URI, artifact location and backend store of each environment;
  - artifact-location priority with scheme prefixing;
  - database URI construction.

  It is all pure functions over an environment map.
- **Prediction API** (`src/api/app.py`). This covers:
  - risk banding;
  - payload validation and response building of `/predict` and `/batch_predict`;
  - the `/health` status;
  - the fallback order in which the model file is looked for.
- **Model registration** (`src/utils/register_models.py`). The loop over the latest
  training runs does four things:
  - it skips runs without a model artifact;
  - it derives the registered-model name;
  - it picks Production or Staging by test ROC-AUC;
  - it counts the registrations.
- **Training pipeline** (`src/models/train.py`). This covers:
  - what each training run logs (`best_` params, the merged metric dictionary);
  - the winner-selection rule;
  - the files `save_best_model` writes;
  - the comparison table, which `log_table` writes into a run of its own because no
    run is active when it is called;
  - the final three saves.

The tracking store is the class `TrackingStore.Store`. It holds experiments, runs
(status, params, metrics, tags) and artifact files per run. Any request may raise:

- A store's fixed fault oracle `fails` decides which requests raise.
- Callers' contracts cover both outcomes.
- An exception nobody catches is `Crashed` in `Wrappers.Outcome`.

The model registry and the model directory are classes of the same kind.

## Model

| member | source | states |
|---|---|---|
| TrackingStore.FindByName | src/utils/migrate_mlflow_runs.py:66 | a name lookup returns an experiment of that name from the store, or nothing exactly when no experiment has it |
| TrackingStore.RunsIn | src/utils/migrate_mlflow_runs.py:54-56 | a run search returns exactly the store's runs of that experiment, no more of them than the store has |
| TrackingStore.ActiveOnlyExactly | src/utils/migrate_mlflow_runs.py:50-52 | the default experiment search lists an experiment iff the store has it and it is active, and never lists more than the store holds |
| TrackingStore.FreshIdentifierExists | src/utils/migrate_mlflow_runs.py:74 | a store can always hand out an id it has not used |
| TrackingStore.Store.GetExperimentByName | src/utils/migrate_mlflow_runs.py:66 | the lookup raises exactly when the oracle says so, and otherwise returns the first experiment with that name |
| TrackingStore.Store.SearchExperiments | src/utils/migrate_mlflow_runs.py:50-52 | the listing raises exactly when the oracle says so, and otherwise returns the active experiments in store order; deleted ones are not listed |
| TrackingStore.Store.SearchRuns | src/utils/migrate_mlflow_runs.py:54-56 | the search raises exactly when the oracle says so, and otherwise returns the experiment's runs in store order |
| TrackingStore.Store.CreateExperiment | src/utils/migrate_mlflow_runs.py:74 | it succeeds exactly when the oracle allows it and no experiment has the name; then one active experiment with a fresh id is appended; on failure nothing changes |
| TrackingStore.Store.StartRun | src/utils/migrate_mlflow_runs.py:91-94 | it succeeds exactly when the oracle allows it and the experiment exists and is active (MLflow refuses a run in a deleted experiment); then one empty Running run with a fresh id is appended and becomes the active run; on failure nothing is opened |
| TrackingStore.Store.LogParam | src/utils/migrate_mlflow_runs.py:97-98 | it succeeds exactly when the oracle allows it and the key is new or keeps its value; then the active run gets exactly that param; on failure nothing changes |
| TrackingStore.Store.LogMetric | src/utils/migrate_mlflow_runs.py:101-102 | it succeeds exactly when the oracle allows it; then the active run gets exactly that metric value; on failure nothing changes |
| TrackingStore.Store.SetTag | src/utils/migrate_mlflow_runs.py:105-113 | it succeeds exactly when the oracle allows it; then the active run gets exactly that tag; on failure nothing changes |
| TrackingStore.Store.LogArtifacts | src/utils/migrate_mlflow_runs.py:131 | it succeeds exactly when the oracle allows it; then the uploaded files are added to the active run's artifacts; on failure nothing changes |
| TrackingStore.Store.EndRun | src/utils/migrate_mlflow_runs.py:91-119 | leaving the `with` block closes the active run with the given status, and changes nothing else |
| TrackingStore.Store.ListArtifacts | src/utils/register_models.py:68 | the listing raises exactly when the oracle says so, and otherwise returns exactly the run's top-level artifact entries (a directory such as `model` is one entry) |
| TrackingStore.Store.DownloadArtifacts | src/utils/migrate_mlflow_runs.py:125-127 | the download raises exactly when the oracle says so, and otherwise holds exactly the run's artifact files; the local directory is always the run's scratch path |
| MigrateRuns.RunName | src/utils/migrate_mlflow_runs.py:91-94 | the new run is named after the source run when that name is non-empty, and otherwise "migrated_" followed by the first 8 characters of the source id (all of it when shorter); the name is never empty |
| MigrateRuns.UserTags | src/utils/migrate_mlflow_runs.py:104-108 | a source tag is copied iff its key does not start with "mlflow.", and keeps its value |
| MigrateRuns.ProvenanceKeysAreSystemKeys | src/utils/migrate_mlflow_runs.py:111-113 | the three provenance keys start with "mlflow." |
| MigrateRuns.CopiedTagsExactly | src/utils/migrate_mlflow_runs.py:104-113 | a finished copy's tags are exactly the non-"mlflow." source tags with their values, plus source run id, timestamp and source URI |
| MigrateRuns.RemigrationRecordsOnlyImmediateSource | src/utils/migrate_mlflow_runs.py:105-113 | copying a copy gives the same tags as copying the original: the earlier provenance is dropped and only the immediate source is recorded |
| MigrateRuns.UserTagsWithinCopied | src/utils/migrate_mlflow_runs.py:105-113 | any part of the user tags already written agrees with the tags of a complete copy |
| MigrateRuns.TallyTotal | src/utils/migrate_mlflow_runs.py:168-187 | success + failed + skipped equals the number of runs seen |
| MigrateRuns.TallyCountsKinds | src/utils/migrate_mlflow_runs.py:173-186 | the failed counter counts the failed copies and the skipped counter counts the skipped runs |
| MigrateRuns.AggregateExperiments | src/utils/migrate_mlflow_runs.py:223 | `experiments` counts every migrated experiment, even one with a zero tally |
| MigrateRuns.AggregateTotal | src/utils/migrate_mlflow_runs.py:223-226 | the overall run total (success + failed + skipped) is the sum of the per-experiment totals |
| MigrateRuns.AggregateFailed | src/utils/migrate_mlflow_runs.py:223-226 | the overall failed count is positive iff some experiment had a failed copy |
| MigrateRuns.FailedIffCopyFailed | src/utils/migrate_mlflow_runs.py:179-186 | the overall failed count is positive iff some copy of some experiment raised |
| MigrateRuns.CountPositive | src/utils/migrate_mlflow_runs.py:173-186 | a counter is positive iff some run had that outcome |
| MigrateRuns.MigratedExperimentsExactly | src/utils/migrate_mlflow_runs.py:212-215 | whole-store mode migrates exactly the listed experiments other than a deleted "Default" one; with none of those, it migrates all of them |
| MigrateRuns.MigratedExperimentsSnoc | src/utils/migrate_mlflow_runs.py:212-217 | one more listed experiment adds itself to the migrated list unless it is the deleted "Default" |
| MigrateRuns.DeletedDefaultNeverListed | src/utils/migrate_mlflow_runs.py:207-215 | since the listing holds only active experiments, the deleted-"Default" check never drops one of them |
| MigrateRuns.ExitCode | src/utils/migrate_mlflow_runs.py:326-330 | the exit status is 0 or 1, and it is 0 iff the migration finished without an uncaught exception and with no failed copy |
| MigrateRuns.SkipsDoNotAffectExit | src/utils/migrate_mlflow_runs.py:326-330 | skipped runs never change the exit status |
| MigrateRuns.ResolveTarget | src/utils/migrate_mlflow_runs.py:288-297 | `--use-config` wins and takes the configured tracking URI, or the configuration's error; otherwise a non-empty `--target` is used; with neither, the target is `NoTarget` |
| MigrateRuns.FindByNameAppend | src/utils/migrate_mlflow_runs.py:74-76 | after creating a new experiment, a lookup of its name finds it |
| MigrateRuns.LogParams | src/utils/migrate_mlflow_runs.py:97-98 | each source param goes into the open run with the same value; when a write raises, what was written is a part of the params; with no faults other than in artifact uploads all are written |
| MigrateRuns.LogMetrics | src/utils/migrate_mlflow_runs.py:101-102 | each source metric's latest value goes into the open run under the same key; when a write raises, what was written is a part of the metrics; with no faults other than in artifact uploads all are written |
| MigrateRuns.SetUserTags | src/utils/migrate_mlflow_runs.py:104-108 | the open run gets exactly the user tags; when a write raises, it holds a part of them; with no faults other than in artifact uploads all are written |
| MigrateRuns.SetProvenanceTags | src/utils/migrate_mlflow_runs.py:110-113 | the three provenance tags are set after the user tags, and what is written always lies within the tags of a complete copy; with no faults other than in artifact uploads all three are written |
| MigrateRuns.Migrator.constructor | src/utils/migrate_mlflow_runs.py:37-48 | the migrator keeps the two URIs and the two stores |
| MigrateRuns.Migrator.CreateExperimentIfNotExists | src/utils/migrate_mlflow_runs.py:58-76 | an existing target experiment is reused unchanged; otherwise one is created when the lookup finds nothing or raises; the id returned is the experiment's under that name; with no faults other than in artifact uploads the experiment is always found or created; its id is one of the target's active experiments unless the name belongs to a deleted target experiment, which is reused as it is; a target without deleted experiments keeps none |
| MigrateRuns.Migrator.CopyArtifacts | src/utils/migrate_mlflow_runs.py:121-134 | never raises; the source run's artifacts are added to the open run exactly when the download goes through, its local directory exists and the upload goes through; otherwise nothing changes; no run changes either way |
| MigrateRuns.Migrator.LogRunData | src/utils/migrate_mlflow_runs.py:96-113 | params, then metrics, then user tags, then provenance; the run then holds exactly the source params, metrics and copied tags; if a write raised, it holds a part of each; with no faults other than in artifact uploads every write goes through |
| MigrateRuns.Migrator.FillAndEnd | src/utils/migrate_mlflow_runs.py:91-119 | the opened run is closed as the finished copy of the source run, or as a failed partial copy with no artifacts added; a finished copy holds the source run's artifacts exactly when they were asked for and downloaded, found and uploaded, and none otherwise; with no faults but perhaps in the upload, it is always the finished copy, so a failed upload still gives a finished copy |
| MigrateRuns.Migrator.CopyRun | src/utils/migrate_mlflow_runs.py:78-119 | a completed copy appends exactly one run with a fresh id: the source's params, metrics and copied tags, status Finished, under the given experiment id. A copy that raised leaves at most one failed partial run, and no other run changes. With no faults but perhaps in the artifact upload, and an active target experiment, the copy completes; a completed copy holds the source run's artifacts exactly when they were asked for and downloaded, found and uploaded; an unknown or deleted target experiment makes it fail with nothing written |
| MigrateRuns.Migrator.CopyRunTwice | src/utils/migrate_mlflow_runs.py:78-119 | copying the same run twice leaves two distinct target runs with the same data: nothing checks whether a source run was already migrated |
| MigrateRuns.Migrator.CopyOrSkip | src/utils/migrate_mlflow_runs.py:173-185 | a run is skipped iff skipping is on and its status is not FINISHED, and a skipped run writes nothing; a successful copy appends exactly its migrated form and nothing else; a failed copy adds at most one run; with no faults but perhaps in artifact uploads, and an active target experiment, no copy fails; an unknown or deleted target experiment lets no copy through and writes no run |
| MigrateRuns.Migrator.CopyListedRuns | src/utils/migrate_mlflow_runs.py:168-187 | one outcome per listed run, skipped iff the skip rule says so; the counters are the tally of those outcomes; a failure never stops the loop; the writer gains one run per success, at most one per failure and none per skip; every successful copy is in the writer's store; with no faults but perhaps in artifact uploads, and an active target, nothing fails; with an unknown or deleted target nothing succeeds and no run is written |
| MigrateRuns.Migrator.MigrateExperiment | src/utils/migrate_mlflow_runs.py:136-187 | a missing source experiment gives a zero tally and no writes; otherwise the target experiment of that name is found or created, the listed runs are exactly the source experiment's runs, the tally is theirs under the skip rule, the writer grows as the tally says, and every successful copy is in the writer's store under the target id; with no faults in the source and none in the target but perhaps in artifact uploads, the runs written into the target, and no deleted target experiment under that name, it completes with no failed copy; when the target experiment it resolves to is deleted, no copy succeeds |
| MigrateRuns.Migrator.MigrateListed | src/utils/migrate_mlflow_runs.py:217-221 | migrating a listed experiment tallies the runs the source stores for the experiment its name resolves to, and leaves a separate source store as it was; with no faults in the source and none in the target but perhaps in artifact uploads, the runs written into the target, and no deleted target experiment under that name, no copy fails |
| MigrateRuns.Migrator.MigrateNext | src/utils/migrate_mlflow_runs.py:211-226 | a deleted "Default" is passed over with nothing written and the counters unchanged; the experiments migrated so far are the listed ones up to this one, less a deleted "Default"; one more migrated experiment adds its own tally to the overall counters and its own run list, and the writer grows within the counters' bounds; with no faults in the source and none in the target but perhaps in artifact uploads, the runs written into the target, and no deleted experiment in the target, the failed count does not grow and the target still has no deleted experiment |
| MigrateRuns.Migrator.MigrateAll | src/utils/migrate_mlflow_runs.py:189-228 | every listed (active) experiment but a deleted "Default" is migrated in order; each has its own tally of its own runs under the skip rule; the summary is the aggregate of those tallies, with `experiments` equal to their number; the writer grows by at least the successes and at most successes plus failures; with a separate source store, each tally covers exactly that experiment's stored runs; with no faults in the source and none in the target but perhaps in artifact uploads, the runs written into the target, and no deleted experiment in the target, it completes with no failed copy |
| MigrateRuns.RunMigration | src/utils/migrate_mlflow_runs.py:288-330 | without a usable target the exit status is 1 before any store is touched; otherwise the exit status follows the failures, and a completed migration exits with 1 iff some run failed to copy; single-experiment mode reports one experiment, whole-store mode the number of active experiments; with a usable target, no faults in the source, none in the target but perhaps in artifact uploads, the runs written into the target, and no deleted experiment in the target, the exit status is 0 |
| MlflowConfig.GetEnvironment | src/config/mlflow_config.py:28-35 | the environment is "development" when `MLFLOW_ENV` is unset, and otherwise a lower-case string as long as the variable |
| MlflowConfig.EnvironmentIgnoresCase | src/config/mlflow_config.py:28-35 | two values of `MLFLOW_ENV` that differ only in case select the same environment |
| MlflowConfig.EnvironmentKeepsLowerCase | src/config/mlflow_config.py:28-35 | a lower-case value of `MLFLOW_ENV` is the selected environment, unchanged |
| MlflowConfig.LowerIdempotent | src/config/mlflow_config.py:35 | lower-casing twice is lower-casing once |
| MlflowConfig.WithScheme | src/config/mlflow_config.py:153-155 | the scheme is prepended exactly when the value does not already start with it |
| MlflowConfig.ArtifactLocation | src/config/mlflow_config.py:142-169 | the S3 bucket wins (with "s3://" ensured), then the Azure container as is, then the GCS bucket (with "gs://" ensured), then the local mlruns directory; an empty variable counts as unset |
| MlflowConfig.S3LocationIsStable | src/config/mlflow_config.py:153-155 | an already-prefixed S3 location is returned unchanged: the scheme is added at most once |
| MlflowConfig.GetMlflowConfig | src/config/mlflow_config.py:58-74 | the configuration carries the selected environment and `MLFLOW_EXPERIMENT_NAME` or "heart-disease-prediction"; it raises iff production has neither a tracking URI nor a database URI |
| MlflowConfig.OtherEnvironmentsAreDevelopment | src/config/mlflow_config.py:67-83 | any environment other than production and staging gets the local file store, the local artifact directory and no backend store |
| MlflowConfig.StagingWithoutServer | src/config/mlflow_config.py:103-110 | staging without a tracking URI tracks into `MLFLOW_DB_URI` (default the project's SQLite file), uses it as backend store, and keeps artifacts locally |
| MlflowConfig.StagingWithServer | src/config/mlflow_config.py:94-102 | staging with a tracking URI uses it, the prioritised artifact location and `MLFLOW_DB_URI` as backend store |
| MlflowConfig.ProductionChoice | src/config/mlflow_config.py:121-139 | production tracks into `MLFLOW_TRACKING_URI`, else `MLFLOW_DB_URI`; the backend store is always `MLFLOW_DB_URI`, set or not |
| MlflowConfig.GetDatabaseUri | src/config/mlflow_config.py:172-206 | an empty password raises before the type is looked at; otherwise only "postgresql" and "mysql" are accepted, with their URI schemes |
| MlflowConfig.DatabaseUriParts | src/config/mlflow_config.py:189-204 | the URI is user:encoded-password@host:port/name behind its scheme; each part comes from its variable or default; the default port is 5432 for PostgreSQL and 3306 for MySQL |
| MlflowConfig.OnlyPasswordSet | src/config/mlflow_config.py:189-193 | with only a password set, host, port, database and user take their defaults |
| MlflowConfig.PostgresUriDefaults | src/config/mlflow_config.py:189-202 | with only a password set, the PostgreSQL URI is `postgresql://mlflow:<enc>@localhost:5432/mlflow` |
| MlflowConfig.MysqlUriDefaults | src/config/mlflow_config.py:189-204 | with only a password set, the MySQL URI is `mysql+pymysql://mlflow:<enc>@localhost:3306/mlflow` |
| PredictionApi.RiskLevel | src/api/app.py:404-413 | below 0.3 Low, below 0.6 Medium, below 0.8 High, else Very High; each band is exactly its interval |
| PredictionApi.RiskLevelMonotone | src/api/app.py:404-413 | a higher disease probability never gives a lower band |
| PredictionApi.PredictionResult | src/api/app.py:242 | the counter label is "positive" iff the prediction is 1 |
| PredictionApi.PredictionLabel | src/api/app.py:254 | the label is "Heart Disease" iff the prediction is 1 |
| PredictionApi.Member | src/api/app.py:325 | Python's `in` works on objects, arrays and strings, and raises on any other value |
| PredictionApi.Subscript | src/api/app.py:332 | indexing by name succeeds iff the value is an object with that key |
| PredictionApi.Absent | src/api/app.py:223 | the names not in the payload, in their given order, and only those |
| PredictionApi.MissingFeatures | src/api/app.py:217-223 | exactly the required features absent from the payload, in the fixed 13-name order; empty iff all 13 are present; raises on a non-container payload |
| PredictionApi.Features | src/api/app.py:235 | the feature row is the payload's 13 values in the required order; only an object can be indexed this way |
| PredictionApi.Score | src/api/app.py:238-239 | the label call comes first, then the probabilities; either may raise, and so may reading the disease probability |
| PredictionApi.Raised | src/api/app.py:275-289 | a ValueError gives 400 with its message, and any other exception gives 500 |
| PredictionApi.Predict | src/api/app.py:174-289 | the first failing check decides: no model 503, not JSON 400, then missing features 400 with their list; 200 exactly for a complete object that the classifier scores, and the body is built from those scores |
| PredictionApi.PredictionConsistent | src/api/app.py:252-262 | a 200 response's label agrees with its prediction, its band with its disease probability, and its version is "1.0.0" |
| PredictionApi.SampleEntry | src/api/app.py:345-380 | one sample's entry carries its index, the missing features or the prediction; a prediction entry's band and label agree with its scores; a non-container sample raises |
| PredictionApi.SuccessfulBounds | src/api/app.py:387 | `successful_predictions` never exceeds the entry count, and equals it iff every entry holds a prediction |
| PredictionApi.BatchPredict | src/api/app.py:293-401 | 503 without a model, 400 when not JSON, 400 "Invalid batch format" when `samples` is absent or not an array, 400 for an empty one; on 200, one entry per sample, in order, with `total_samples` = number of samples and the success count bounded by it; 200 iff every sample is a container |
| PredictionApi.ScoreSamples | src/api/app.py:344-380 | the loop produces one entry per sample, in input order, each as `SampleEntry` gives it; it stops with an error exactly when some sample is not a container |
| PredictionApi.HealthCheck | src/api/app.py:159-170 | 200 iff a model is loaded, else 503; the body reports "healthy", the version and whether a model is loaded |
| PredictionApi.FirstLoadable | src/api/app.py:96-108 | the first listed path that loads, with every earlier one failing; none exactly when all fail |
| PredictionApi.FirstLoadableIsFirst | src/api/app.py:96-106 | the loop's first success is the path `FirstLoadable` names |
| PredictionApi.Service.constructor | src/api/app.py:68 | the service starts with no model |
| PredictionApi.Service.LoadModel | src/api/app.py:73-121 | the primary path is tried first; only when its file is not found are the alternatives tried, in listed order, and the first that loads wins; the gauge is 1 on success and 0 on failure |
| RegisterModels.ParamCell | src/utils/register_models.py:61 | the `params.model_type` cell is absent when no listed run has the param, missing when this run lacks it (`None` for a param), and otherwise its value |
| RegisterModels.MetricCell | src/utils/register_models.py:62 | the `metrics.test_roc_auc` cell is absent when no listed run has the metric, missing when this run lacks it (NaN for a metric), and otherwise its value |
| RegisterModels.Frame | src/utils/register_models.py:44-48 | one row per listed run, in order, with its id and its two cells |
| RegisterModels.ModelTypeOf | src/utils/register_models.py:61 | the model type defaults to "unknown" only when the column is absent; a missing (`None`) cell makes the later lower-casing raise |
| RegisterModels.RocText | src/utils/register_models.py:99 | the ROC-AUC tag text is "0" for the default, "nan" for a missing value, else the float's text |
| RegisterModels.ModelName | src/utils/register_models.py:75-81 | LogisticRegression and RandomForest map to their fixed names; any other type maps to "heart-disease-" plus the lower-cased type |
| RegisterModels.ModelNameNotInjective | src/utils/register_models.py:75-81 | the type "logistic-regression" lands in the same registered model as "LogisticRegression" |
| RegisterModels.StageFor | src/utils/register_models.py:107-123 | Production iff the test ROC-AUC is present and strictly above 0.95, otherwise Staging |
| RegisterModels.ModelUri | src/utils/register_models.py:84 | the URI is "runs:/" + run id + "/model", and the run id is exactly what lies between that prefix and that suffix |
| RegisterModels.Registry.RegisterModel | src/utils/register_models.py:94-102 | a successful registration appends one version, numbered one past the existing ones; a failed one changes nothing |
| RegisterModels.Registry.TransitionStage | src/utils/register_models.py:108-123 | the transition succeeds exactly when the oracle allows it and the named version exists; only that version changes stage, and other versions are never archived; a failed transition changes nothing |
| RegisterModels.RegistrationsBound | src/utils/register_models.py:57-130 | the count never exceeds the number of runs, and is positive when some run was registered |
| RegisterModels.RegisterVersion | src/utils/register_models.py:94-123 | registering and staging a version go through exactly when neither request raises; then the model gains one version, numbered one past the existing ones, with the row's URI, tags and stage; whatever happens, no existing version is removed or changed in place |
| RegisterModels.RegisterRow | src/utils/register_models.py:59-130 | a run is skipped iff its artifacts were listed and none contains "model"; a registered run has the expected name, URI, tags and stage, and the next version number; any exception leaves the row unregistered and the registry extended at most; the row is an error exactly when listing its artifacts raises, or it has a model artifact and its type is missing or registering or staging its version raises; with no faults it is registered iff it has a model artifact and a known type |
| RegisterModels.RegisterRows | src/utils/register_models.py:57-130 | the count is the number of registered rows and at most the number of rows; each row ends as `RegisterRow` describes, with its version still in the registry; with no faults the count is the number of rows with a model artifact and a known type |
| RegisterModels.RegisterAll | src/utils/register_models.py:18-135 | the script crashes exactly when the experiment lookup or the run search raises; it stops with no experiment exactly when the lookup finds none, and with no runs exactly when the experiment has none; neither registers anything; otherwise at most the 10 latest runs are processed row by row and counted, and with no faults the count is the number of those rows with a model artifact and a known type |
| Train.EvaluationMetrics | src/models/train.py:161-175 | the evaluation dictionary has exactly the ten train_* and test_* keys |
| Train.CrossValidationMetrics | src/models/train.py:200-206 | the cross-validation dictionary has exactly the five cv_* keys |
| Train.KeysDisjoint | src/models/train.py:161-206 | no evaluation key is a cross-validation key |
| Train.MetricsKeys | src/models/train.py:303 | after `update` the metrics hold the union of the two key sets |
| Train.MetricsMerge | src/models/train.py:299-303 | the merge overwrites nothing: 15 keys, each with its own dictionary's value, and test ROC-AUC as evaluated |
| Train.TestRocAuc | src/models/train.py:303 | the merged dictionary keeps the evaluation's test ROC-AUC |
| Train.LoggedMetricsKeepBestScore | src/models/train.py:295-307 | the best CV score is logged beside the 15 metrics under a key none of them has |
| Train.BestParamName | src/models/train.py:294 | the logged name is "best_" followed by the hyperparameter name |
| Train.BestParamNameInjective | src/models/train.py:293-294 | different hyperparameters are logged under different names |
| Train.BestParamMapEntries | src/models/train.py:293-294 | every best hyperparameter is logged under its "best_" name with its value unchanged, and nothing else is |
| Train.LoggedParamsExactly | src/models/train.py:239-294 | a run's params are model_type, the best_ params and, for the forest, the top features, none overwriting another |
| Train.LogBestParams | src/models/train.py:293-294 | the loop adds exactly the best_ params to the open run, or stops at the write that raised; with no faults and none of those names already used, it goes through |
| Train.LogMetricMap | src/models/train.py:306-307 | the loop adds exactly the merged metrics to the open run, or stops at the write that raised; with no faults it goes through |
| Train.LogOneParam | src/models/train.py:239 | one param write into the open run, or no change; it succeeds exactly when the store accepts the write |
| Train.LogOneMetric | src/models/train.py:295 | one metric write into the open run, or no change; it succeeds exactly when the store accepts the write |
| Train.LogSearchParams | src/models/train.py:239-294 | the run's params become model_type plus the best_ params; with no faults it goes through |
| Train.LogScores | src/models/train.py:295-307 | the run's metrics become best_cv_score plus the merged metrics; with no faults it goes through |
| Train.LogFeaturesAndModel | src/models/train.py:492-524 | the forest's top features become one more param when there are some, then the model artifact is uploaded; with no faults both go through |
| Train.TopFeaturesUnused | src/models/train.py:239-497 | "top_10_features" is never one of the names logged before it, so that write cannot conflict |
| Train.LogTraining | src/models/train.py:237-358 | a run that goes through holds exactly the logged params and metrics, and gains the model artifact; with no faults it always goes through |
| Train.LogAndEnd | src/models/train.py:237-358 | the run is closed as Finished holding exactly the logged params and metrics and the model artifact, or as Failed when a write raised; with no faults it is always Finished |
| Train.TrainingRun | src/models/train.py:237-358 | a training function that returns leaves exactly one new finished run with its logged data; it returns the model, the merged metrics and the best params; a crash leaves at most one failed run; with no faults and an active experiment it returns |
| Train.TrainBoth | src/models/train.py:655-663 | the regression is trained before the forest, each in a run of its own name, and both return their models, metrics and params; with no faults and an active experiment both return |
| Train.FirstMissing | src/models/train.py:596-614 | the first metric key the comparison table reads that a dictionary lacks; none iff all are present |
| Train.CompareModels | src/models/train.py:566-638 | "random_forest" iff its test ROC-AUC is strictly greater, so a tie goes to "logistic_regression"; the result is always one of the two; a missing key raises |
| Train.CompareTrainedModels | src/models/train.py:626-635 | on the metrics the training functions produce the comparison never raises, and the forest wins iff its test ROC-AUC is strictly higher |
| Train.LogComparisonTable | src/models/train.py:618-623 | with no run active, `log_table` opens a run of its own; it opens exactly when the experiment exists and is active and the store accepts it; the script puts no params, metrics or tags on that run, only the table file (the system tags MLflow adds itself are left out); a failed upload is swallowed, and the run ends Finished |
| Train.ComparedKeysPresent | src/models/train.py:596-614 | a full metrics dictionary has every key the comparison table reads |
| Train.SavedPathsDistinct | src/models/train.py:547-559 | a model file and a metadata file never share a name, and different model names give different files |
| Train.PipelineNamesDistinct | src/models/train.py:669-676 | the three names the pipeline saves under are distinct |
| Train.AfterSaveSaved | src/models/train.py:547-561 | a complete save leaves its two files and keeps the two files of every other name |
| Train.ModelDir.SaveBestModel | src/models/train.py:529-561 | writes `name.pkl` with the model, then `name_metadata.json` with model_name, metrics, parameters and timestamp; a failing write raises, possibly after the pickle is written |
| Train.SaveModels | src/models/train.py:668-676 | the three saves all go through iff none of their six files is unwritable; then both models are saved under their own names, and "best_model" holds exactly the winner's model, metrics and params |
| Train.RunTraining | src/models/train.py:641-676 | a completed pipeline made the two training runs, regression first, and at most the comparison table's run after them; its result is the comparison's winner, and the three saves hold the right models; with no faults, an active experiment, comparable metrics and writable files it completes with three runs |

## Left out

- Model fitting, grid search, cross-validation, metric computation, scaling, the train/test split and the top-feature ranking are library numerics. They enter as a `Fitted` value per model. `load_data` and `setup_mlflow` are not part of this model.
- Dataset logging (`log_input`) and the two tables logged inside a training run (`evaluation_metrics.json`, `feature_importance.json`) are left out. Each is wrapped in an exception handler, so it never decides whether a run finishes, but when it succeeds the run holds more artifacts and inputs than the model says. The comparison table, which opens a run of its own, is modelled by `Train.LogComparisonTable`.
- Console output is not modelled: `print`, `print_summary`'s text and the script banners. `print_summary`'s total is what `MigrateRuns.SummaryTotal` and `MigrateRuns.AggregateTotal` state.
- Logging in the API is left out: Prometheus counters, gauges and histograms (except the `model_info` value), `before_request`/`after_request`, and the `/model_info`, `/metrics` and index routes. The Flask and werkzeug request and response layer is also left out.
- Clocks are inputs: `datetime.now().isoformat()`, `time.time()` and the rounded processing time. The migration stamp is `clock(experiment name, run position)`.
- Password URL-encoding (`quote_plus`) is a parameter `quote`. Python's float-to-text conversion (`str(roc_auc)`) is the parameter `floatText`. `os.path.exists` is the parameter `pathExists`. Opening and unpickling a model file is the parameter `open`.
- The store's internals are left out: search ordering beyond store order, page sizes, run start times, and the `start_time DESC` order of the registration search. Runs are listed in store order, and the registration takes the first 10.
- `get_registered_model` in `register_models.py` only chooses which message to print, so it is left out. So is the listing of registered models after the loop.
- `Strings.Lower` lower-cases ASCII letters only; Python's `str.lower()` covers all of Unicode.
- Params are kept as text. The training functions' `best_params_` values and the top-feature list enter already rendered as the text the store keeps.
- Dictionary iteration order is left open. The loops over params, metrics, tags and `best_params_` pick any remaining key, so the contracts hold for every order.
- Concurrency is not modelled. The lookup-then-create race on target experiments is one example.
- The scripts' `__main__` guards are left out, as is argparse parsing; `Args` is the parsed result.
- MigrateRuns.Migrator.CopyRun: a partial copy's tags are only known to lie within the tags of a complete copy. Which prefix of the writes went through is not stated.
- TrackingStore.Store.LogParam: MLflow's other rejections (key and value length limits, invalid characters) are not modelled. Only the fault oracle and a conflicting re-log make it fail.
- Train.ModelDir.SaveBestModel: the metadata file is modelled as its four fields, not as JSON text. `default=str` rendering and the indentation are left out.
- TrackingStore.Store.DownloadArtifacts: MLflow downloads into a temporary directory of its choosing; the model names it by the run id (`ScratchPath`), and whether it exists afterwards is the parameter `pathExists`, since the file system is not modelled.
- TrackingStore.Store.StartRun: no tag in the `mlflow.` namespace that MLflow sets by itself is modelled: not those of a new run (`mlflow.runName`, `mlflow.user`, `mlflow.source.*`), not `mlflow.log-model.history` from logging a scikit-learn model, and not `mlflow.loggedArtifacts` from `log_table`. A run opens with no tags and the model's logging calls add none, so the training runs and the comparison run carry only the tags the scripts set (none). The migration filters every `mlflow.` tag, so the copied tags do not depend on them.
- TrackingStore.Store.EndRun: closing a run never raises in the model. In the migration an exception from leaving the `with` block would count the run as failed; in training it would crash the pipeline.
- MigrateRuns.Migrator.CopyListedRuns: a copy that raised may leave zero or one run behind, so "one new run per non-skipped run" is stated only when no request fails.
- MigrateRuns.Migrator.MigrateAll: the presence of each successful copy in the writer is stated per experiment by `MigrateExperiment`, not carried through the whole loop. That each tally covers the experiment's stored runs is stated only when the source is a store of its own, since the writer or the target may be the source and grow meanwhile.
- Metric values, scores and probabilities are modelled as mathematical reals: there is no NaN, no infinity and no floating-point rounding. The next two lines name where this changes an answer.
- PredictionApi.RiskLevel: a NaN probability fails every comparison in the source and is banded "Very High"; the model's bands are stated for real probabilities only.
- Train.CompareModels: a NaN test ROC-AUC makes `rf_score > lr_score` false in the source, so the logistic regression wins whatever the other score is; the model's "strictly greater" rule is stated for real scores only.
- Train.LogComparisonTable: the run `log_table` opens is left active and is closed when the process exits; the model closes it as Finished right away, which is what the exit handler records.
- Runs carry no lifecycle stage. Deleted runs, which `search_runs` leaves out by default, are not modelled; every stored run of an experiment is listed.

=== FILE: api.dfy ===
/**
 * The prediction service's decision logic: risk banding, validation of a
 * request's JSON payload, the responses of the single and batch prediction
 * endpoints and of the health check, and the fallback order in which the
 * model file is looked for at start-up.
 *
 * The classifier itself is opaque: `Classifier` holds its two calls, each of
 * which may raise. Timestamps and the measured processing time are inputs.
 */
module PredictionApi {
  import opened Wrappers
  import Strings

  const ModelVersion := "1.0.0"

  const RequiredFeatures: seq<string> := [
    "age", "sex", "cp", "trestbps", "chol", "fbs",
    "restecg", "thalach", "exang", "oldpeak", "slope", "ca", "thal"
  ]

  /** A decoded JSON value. */
  datatype Json =
    | JNull
    | JBool(b: bool)
    | JNum(n: real)
    | JStr(s: string)
    | JArr(items: seq<Json>)
    | JObj(fields: map<string, Json>)

  /** An exception: the single-prediction endpoint tells ValueError apart from all others. */
  datatype Exn = ValueError(message: string) | OtherError(message: string)

  // Messages of the exceptions Python itself raises on a payload of the wrong shape.
  const NotIterable := "argument of type is not iterable"
  const ListIndexedByString := "list indices must be integers or slices, not str"
  const StringIndexedByString := "string indices must be integers"
  const NotSubscriptable := "object is not subscriptable"
  const IndexOutOfRange := "index out of range"

  /** The loaded model: a class label and the class probabilities of one feature row. */
  datatype Classifier = Classifier(
    predict: seq<Json> -> Result<int, Exn>,
    predictProba: seq<Json> -> Result<seq<real>, Exn>)

  /** An incoming request: whether its content type is JSON, and its body as decoded or the decoder's error. */
  datatype Request = Request(isJson: bool, payload: Result<Json, string>)

  datatype Response<B> = Response(status: int, body: B)

  // ---------------------------------------------------------------------
  // Risk bands and labels
  // ---------------------------------------------------------------------

  /** The risk band of a disease probability. */
  function RiskLevel(p: real): (r: string)
    ensures r == "Low" <==> p < 0.3
    ensures r == "Medium" <==> 0.3 <= p < 0.6
    ensures r == "High" <==> 0.6 <= p < 0.8
    ensures r == "Very High" <==> 0.8 <= p
  {
    if p < 0.3 then "Low"
    else if p < 0.6 then "Medium"
    else if p < 0.8 then "High"
    else "Very High"
  }

  /** The position of a band in the order Low < Medium < High < Very High. */
  function RiskRank(level: string): nat {
    if level == "Low" then 0
    else if level == "Medium" then 1
    else if level == "High" then 2
    else 3
  }

  /** A higher probability never gives a lower band. */
  lemma RiskLevelMonotone(p: real, q: real)
    requires p <= q
    ensures RiskRank(RiskLevel(p)) <= RiskRank(RiskLevel(q))
  {
  }

  /** The prediction counter's label. */
  function PredictionResult(prediction: int): (r: string)
    ensures r == "positive" <==> prediction == 1
    ensures r == "negative" <==> prediction != 1
  {
    if prediction == 1 then "positive" else "negative"
  }

  /** The human-readable label of a prediction. */
  function PredictionLabel(prediction: int): (r: string)
    ensures r == "Heart Disease" <==> prediction == 1
    ensures r == "No Heart Disease" <==> prediction != 1
  {
    if prediction == 1 then "Heart Disease" else "No Heart Disease"
  }

  // ---------------------------------------------------------------------
  // Payload validation
  // ---------------------------------------------------------------------

  /** The JSON values on which Python's `in` works: objects, arrays and strings. */
  predicate IsContainer(data: Json) {
    data.JObj? || data.JArr? || data.JStr?
  }

  /** Python's `key in data`: a key of an object, an element of an array, a substring of a string. */
  predicate In(key: string, data: Json)
    requires IsContainer(data)
  {
    if data.JObj? then key in data.fields
    else if data.JArr? then JStr(key) in data.items
    else Strings.Contains(data.s, key)
  }

  /** Python's `key in data` on any value: a non-container raises. */
  function Member(key: string, data: Json): (r: Result<bool, Exn>)
    ensures r.Ok? <==> IsContainer(data)
    ensures r.Ok? ==> (r.value <==> In(key, data))
  {
    if IsContainer(data) then Ok(In(key, data)) else Err(OtherError(NotIterable))
  }

  /** Python's `data[key]` with a string key. */
  function Subscript(data: Json, key: string): (r: Result<Json, Exn>)
    ensures r.Ok? <==> data.JObj? && key in data.fields
    ensures r.Ok? ==> r.value == data.fields[key]
  {
    match data
    case JObj(fields) => if key in fields then Ok(fields[key]) else Err(OtherError("'" + key + "'"))
    case JArr(_) => Err(OtherError(ListIndexedByString))
    case JStr(_) => Err(OtherError(StringIndexedByString))
    case _ => Err(OtherError(NotSubscriptable))
  }

  /** `a` is `b` with some elements left out, the rest kept in order. */
  predicate Subsequence(a: seq<string>, b: seq<string>)
    decreases |b|
  {
    a == [] || (b != [] && ((a[0] == b[0] && Subsequence(a[1..], b[1..])) || Subsequence(a, b[1..])))
  }

  /** The names, in their given order, that are not in `data`. */
  function Absent(data: Json, names: seq<string>): (r: seq<string>)
    requires IsContainer(data)
    ensures forall f :: f in r <==> f in names && !In(f, data)
    ensures Subsequence(r, names)
    ensures |r| <= |names|
  {
    if names == [] then []
    else
      var rest := Absent(data, names[1..]);
      if In(names[0], data) then rest else [names[0]] + rest
  }

  /** The required features missing from a payload, in the required order; raises on a non-container. */
  function MissingFeatures(data: Json): (r: Result<seq<string>, Exn>)
    ensures r.Ok? <==> IsContainer(data)
    ensures r.Ok? ==> forall f :: f in r.value <==> f in RequiredFeatures && !In(f, data)
    ensures r.Ok? ==> Subsequence(r.value, RequiredFeatures)
    ensures r.Ok? ==> (r.value == [] <==> forall f :: f in RequiredFeatures ==> In(f, data))
  {
    if IsContainer(data) then
      var missing := Absent(data, RequiredFeatures);
      assert missing != [] ==> missing[0] in missing;
      Ok(missing)
    else Err(OtherError(NotIterable))
  }

  /**
   * The feature row: the payload's values in the required order. Only an
   * object can be indexed by name; an array or string holding every name raises.
   */
  function Features(data: Json): (r: Result<seq<Json>, Exn>)
    requires MissingFeatures(data) == Ok([])
    ensures r.Ok? <==> data.JObj?
    ensures r.Ok? ==> |r.value| == |RequiredFeatures|
    ensures r.Ok? ==> forall i :: 0 <= i < |RequiredFeatures| ==>
                        RequiredFeatures[i] in data.fields && r.value[i] == data.fields[RequiredFeatures[i]]
  {
    if data.JObj? then
      assert forall i :: 0 <= i < |RequiredFeatures| ==> RequiredFeatures[i] in RequiredFeatures;
      Ok(seq(|RequiredFeatures|, i requires 0 <= i < |RequiredFeatures| => data.fields[RequiredFeatures[i]]))
    else if data.JArr? then Err(OtherError(ListIndexedByString))
    else Err(OtherError(StringIndexedByString))
  }

  /** What the classifier says about one row. */
  datatype Scored = Scored(prediction: int, noDisease: real, disease: real)

  /** Label first, then probabilities; either call may raise, and so may reading the second probability. */
  function Score(model: Classifier, row: seq<Json>): (r: Result<Scored, Exn>)
    ensures r.Ok? <==> model.predict(row).Ok? && model.predictProba(row).Ok?
                       && |model.predictProba(row).value| >= 2
    ensures r.Ok? ==> r.value.prediction == model.predict(row).value
                      && r.value.noDisease == model.predictProba(row).value[0]
                      && r.value.disease == model.predictProba(row).value[1]
    ensures model.predict(row).Err? ==> r == Err(model.predict(row).error)
  {
    match model.predict(row)
    case Err(e) => Err(e)
    case Ok(p) =>
      match model.predictProba(row)
      case Err(e) => Err(e)
      case Ok(proba) => if |proba| < 2 then Err(OtherError(IndexOutOfRange)) else Ok(Scored(p, proba[0], proba[1]))
  }

  // ---------------------------------------------------------------------
  // Single prediction
  // ---------------------------------------------------------------------

  datatype PredictBody =
    | Failure(error: string, message: string)
    | MissingFeaturesBody(error: string, missingFeatures: seq<string>)
    | PredictionBody(
        prediction: int, predictionLabel: string, noDisease: real, disease: real,
        riskLevel: string, modelVersion: string, timestamp: string, processingTimeMs: real)

  const ModelNotLoaded := Failure("Model not loaded", "Prediction model is not available")
  const InvalidContentType := Failure("Invalid content type", "Content-Type must be application/json")

  /** How the prediction endpoint reports an exception: 400 for ValueError, 500 for anything else. */
  function Raised(e: Exn): (r: Response<PredictBody>)
    ensures e.ValueError? ==> r == Response(400, Failure("Invalid input values", e.message))
    ensures e.OtherError? ==> r.status == 500 && r.body.Failure?
  {
    match e
    case ValueError(m) => Response(400, Failure("Invalid input values", m))
    case OtherError(_) =>
      Response(500, Failure("Internal server error", "An unexpected error occurred during prediction"))
  }

  /** The response to a successful scoring. */
  function Scoring(s: Scored, timestamp: string, processingTimeMs: real): Response<PredictBody> {
    Response(200, PredictionBody(s.prediction, PredictionLabel(s.prediction), s.noDisease, s.disease,
                                 RiskLevel(s.disease), ModelVersion, timestamp, processingTimeMs))
  }

  /** Whether a payload passes validation: an object holding every required feature. */
  predicate Complete(request: Request) {
    request.isJson && request.payload.Ok? && MissingFeatures(request.payload.value) == Ok([])
  }

  /** The `/predict` endpoint. */
  function Predict(model: Option<Classifier>, request: Request, timestamp: string,
                   processingTimeMs: real): (r: Response<PredictBody>)
    // the first failing check decides: model, then content type, then features
    ensures r.status == 503 <==> model.None?
    ensures r.status == 503 ==> r.body == ModelNotLoaded
    ensures model.Some? && !request.isJson ==> r == Response(400, InvalidContentType)
    ensures r.body.MissingFeaturesBody? <==>
              model.Some? && request.isJson && request.payload.Ok?
              && MissingFeatures(request.payload.value).Ok? && MissingFeatures(request.payload.value).value != []
    ensures r.body.MissingFeaturesBody? ==>
              r.status == 400 && r.body.missingFeatures == MissingFeatures(request.payload.value).value
    // a prediction is made only for a complete object that the classifier scores
    ensures r.status == 200 <==>
              model.Some? && Complete(request) && request.payload.value.JObj?
              && Score(model.value, Features(request.payload.value).value).Ok?
    ensures r.status == 200 ==>
              var s := Score(model.value, Features(request.payload.value).value).value;
              r == Scoring(s, timestamp, processingTimeMs)
    ensures r.status in {200, 400, 500, 503}
  {
    if model.None? then Response(503, ModelNotLoaded)
    else if !request.isJson then Response(400, InvalidContentType)
    else
      match request.payload
      case Err(_) => Raised(OtherError("bad request"))
      case Ok(data) =>
        match MissingFeatures(data)
        case Err(e) => Raised(e)
        case Ok(missing) =>
          if missing != [] then Response(400, MissingFeaturesBody("Missing required features", missing))
          else
            match Features(data)
            case Err(e) => Raised(e)
            case Ok(row) =>
              match Score(model.value, row)
              case Err(e) => Raised(e)
              case Ok(s) => Scoring(s, timestamp, processingTimeMs)
  }

  /** A successful response is internally consistent: label, band and version agree with the scores. */
  lemma PredictionConsistent(model: Option<Classifier>, request: Request, timestamp: string,
                             processingTimeMs: real)
    requires Predict(model, request, timestamp, processingTimeMs).status == 200
    ensures var b := Predict(model, request, timestamp, processingTimeMs).body;
      && b.PredictionBody?
      && (b.predictionLabel == "Heart Disease" <==> b.prediction == 1)
      && b.riskLevel == RiskLevel(b.disease)
      && b.modelVersion == ModelVersion
  {
  }

  // ---------------------------------------------------------------------
  // Batch prediction
  // ---------------------------------------------------------------------

  datatype Entry =
    | MissingEntry(sampleIndex: nat, error: string, missingFeatures: seq<string>)
    | PredictionEntry(
        sampleIndex: nat, prediction: int, predictionLabel: string, noDisease: real, disease: real,
        riskLevel: string)
    | ErrorEntry(sampleIndex: nat, error: string)

  datatype BatchBody =
    | BatchFailure(error: string, message: string)
    | BatchResult(
        predictions: seq<Entry>, totalSamples: nat, successfulPredictions: nat,
        modelVersion: string, timestamp: string, processingTimeMs: real)

  /**
   * The entry for one sample at position `index`. The missing-feature check
   * is outside the per-sample exception handler, so when it raises (a sample
   * that is not a container) the whole batch fails: that is the `Err` case.
   */
  function SampleEntry(model: Classifier, sample: Json, index: nat): (r: Result<Entry, Exn>)
    ensures r.Ok? <==> IsContainer(sample)
    ensures r.Ok? ==> r.value.sampleIndex == index
    ensures r.Ok? && r.value.PredictionEntry? ==>
              r.value.riskLevel == RiskLevel(r.value.disease)
              && (r.value.predictionLabel == "Heart Disease" <==> r.value.prediction == 1)
    ensures r.Ok? ==> (r.value.MissingEntry? <==> MissingFeatures(sample).value != [])
  {
    match MissingFeatures(sample)
    case Err(e) => Err(e)
    case Ok(missing) =>
      if missing != [] then Ok(MissingEntry(index, "Missing features", missing))
      else
        match Features(sample)
        case Err(e) => Ok(ErrorEntry(index, e.message))
        case Ok(row) =>
          match Score(model, row)
          case Err(e) => Ok(ErrorEntry(index, e.message))
          case Ok(s) =>
            Ok(PredictionEntry(index, s.prediction, PredictionLabel(s.prediction), s.noDisease, s.disease,
                               RiskLevel(s.disease)))
  }

  /** How many entries hold a prediction. */
  function Successful(entries: seq<Entry>): nat {
    if entries == [] then 0
    else Successful(entries[..|entries| - 1]) + (if entries[|entries| - 1].PredictionEntry? then 1 else 0)
  }

  /** At most every entry succeeds, and exactly all of them do when none is an error. */
  lemma {:induction false} SuccessfulBounds(entries: seq<Entry>)
    ensures Successful(entries) <= |entries|
    ensures Successful(entries) == |entries| <==> forall i :: 0 <= i < |entries| ==> entries[i].PredictionEntry?
  {
    if entries != [] {
      var init := entries[..|entries| - 1];
      SuccessfulBounds(init);
      if Successful(entries) == |entries| {
        forall i | 0 <= i < |entries| ensures entries[i].PredictionEntry? {
          if i < |init| {
            assert entries[i] == init[i];
          }
        }
      }
    }
  }

  function BatchError(message: string): Response<BatchBody> {
    Response(500, BatchFailure("Batch prediction failed", message))
  }

  /** The `/batch_predict` endpoint. */
  method BatchPredict(model: Option<Classifier>, request: Request, timestamp: string,
                      processingTimeMs: real) returns (r: Response<BatchBody>)
    ensures model.None? <==> r.status == 503
    ensures model.Some? && !request.isJson ==>
              r == Response(400, BatchFailure("Invalid content type", "Content-Type must be application/json"))
    // a payload without a non-empty `samples` array is rejected before any prediction
    ensures model.Some? && request.isJson && request.payload.Ok?
            && Member("samples", request.payload.value) == Ok(false) ==>
              r == Response(400, BatchFailure("Invalid batch format", "Request must contain \"samples\" array"))
    ensures model.Some? && request.isJson && request.payload.Ok?
            && Subscript(request.payload.value, "samples").Ok?
            && !Subscript(request.payload.value, "samples").value.JArr? ==>
              r == Response(400, BatchFailure("Invalid batch format", "Request must contain \"samples\" array"))
    ensures model.Some? && request.isJson && request.payload.Ok?
            && Subscript(request.payload.value, "samples") == Ok(JArr([])) ==>
              r == Response(400, BatchFailure("Empty batch", "No samples provided"))
    // one entry per sample, in order, each as `SampleEntry` gives it
    ensures r.status == 200 ==>
              && model.Some? && request.isJson && request.payload.Ok?
              && Subscript(request.payload.value, "samples").Ok?
              && var samples := Subscript(request.payload.value, "samples").value;
              && samples.JArr? && |samples.items| > 0
              && r.body.BatchResult?
              && |r.body.predictions| == |samples.items| == r.body.totalSamples
              && (forall i :: 0 <= i < |samples.items| ==>
                    SampleEntry(model.value, samples.items[i], i) == Ok(r.body.predictions[i]))
              && r.body.successfulPredictions == Successful(r.body.predictions)
              && r.body.successfulPredictions <= r.body.totalSamples
              && r.body.modelVersion == ModelVersion
    // the batch fails as a whole only when some sample is not a container
    ensures model.Some? && request.isJson && request.payload.Ok?
            && Subscript(request.payload.value, "samples").Ok?
            && Subscript(request.payload.value, "samples").value.JArr?
            && |Subscript(request.payload.value, "samples").value.items| > 0 ==>
              var samples := Subscript(request.payload.value, "samples").value.items;
              (r.status == 200 <==> forall i :: 0 <= i < |samples| ==> IsContainer(samples[i]))
    ensures r.status in {200, 400, 500, 503}
  {
    if model.None? {
      return Response(503, BatchFailure("Model not loaded", "Prediction model is not available"));
    }
    if !request.isJson {
      return Response(400, BatchFailure("Invalid content type", "Content-Type must be application/json"));
    }
    if request.payload.Err? {
      return BatchError(request.payload.error);
    }
    var data := request.payload.value;
    var hasSamples := Member("samples", data);
    if hasSamples.Err? {
      return BatchError(hasSamples.error.message);
    }
    if !hasSamples.value {
      return Response(400, BatchFailure("Invalid batch format", "Request must contain \"samples\" array"));
    }
    var field := Subscript(data, "samples");
    if field.Err? {
      return BatchError(field.error.message);
    }
    if !field.value.JArr? {
      return Response(400, BatchFailure("Invalid batch format", "Request must contain \"samples\" array"));
    }
    var samples := field.value.items;
    if |samples| == 0 {
      return Response(400, BatchFailure("Empty batch", "No samples provided"));
    }
    var scored := ScoreSamples(model.value, samples);
    if scored.Err? {
      return BatchError(scored.error.message);
    }
    var predictions := scored.value;
    SuccessfulBounds(predictions);
    r := Response(200, BatchResult(predictions, |samples|, Successful(predictions), ModelVersion,
                                   timestamp, processingTimeMs));
  }

  /**
   * The loop over the samples: one entry per sample, in order; the first
   * sample that is not a container stops the loop with its exception.
   */
  method ScoreSamples(model: Classifier, samples: seq<Json>) returns (r: Result<seq<Entry>, Exn>)
    ensures r.Ok? <==> forall i :: 0 <= i < |samples| ==> IsContainer(samples[i])
    ensures r.Ok? ==> |r.value| == |samples|
    ensures r.Ok? ==> forall i :: 0 <= i < |samples| ==> SampleEntry(model, samples[i], i) == Ok(r.value[i])
  {
    var predictions: seq<Entry> := [];
    var idx := 0;
    while idx < |samples|
      invariant 0 <= idx <= |samples| && |predictions| == idx
      invariant EntriesFor(model, samples, predictions)
    {
      var entry := SampleEntry(model, samples[idx], idx);
      if entry.Err? {
        return Err(entry.error);
      }
      EntriesForSnoc(model, samples, predictions, entry.value);
      predictions := predictions + [entry.value];
      idx := idx + 1;
    }
    r := Ok(predictions);
  }

  /** Each of `entries` is what `SampleEntry` gives for the sample at its position. */
  ghost predicate EntriesFor(model: Classifier, samples: seq<Json>, entries: seq<Entry>) {
    && |entries| <= |samples|
    && forall i :: 0 <= i < |entries| ==> SampleEntry(model, samples[i], i) == Ok(entries[i])
  }

  lemma EntriesForSnoc(model: Classifier, samples: seq<Json>, entries: seq<Entry>, e: Entry)
    requires EntriesFor(model, samples, entries) && |entries| < |samples|
    requires SampleEntry(model, samples[|entries|], |entries|) == Ok(e)
    ensures EntriesFor(model, samples, entries + [e])
  {
    var longer := entries + [e];
    forall i | 0 <= i < |longer|
      ensures SampleEntry(model, samples[i], i) == Ok(longer[i])
    {
      if i < |entries| {
        assert longer[i] == entries[i];
      }
    }
  }

  // ---------------------------------------------------------------------
  // Health check and model loading
  // ---------------------------------------------------------------------

  datatype HealthBody = HealthBody(status: string, timestamp: string, service: string, version: string,
                                   modelLoaded: bool)

  /** `/health`: 200 iff a model is loaded; the body says "healthy" either way. */
  function HealthCheck(model: Option<Classifier>, timestamp: string): (r: Response<HealthBody>)
    ensures r.status == 200 <==> model.Some?
    ensures r.status == 503 <==> model.None?
    ensures r.body.modelLoaded <==> model.Some?
    ensures r.body.status == "healthy" && r.body.version == ModelVersion
  {
    Response(if model.Some? then 200 else 503,
             HealthBody("healthy", timestamp, "heart-disease-prediction", ModelVersion, model.Some?))
  }

  const DefaultModelPath := "models/best_model.pkl"
  const AlternativeModelPaths: seq<string> := [
    "models/random_forest.pkl",
    "models/logistic_regression.pkl",
    "/app/models/best_model.pkl",
    "/app/models/random_forest.pkl"
  ]

  /** Why opening and unpickling a model file failed. */
  datatype LoadError = FileNotFound | Unreadable

  /** The model in the first of `paths` that loads, with its position. */
  function FirstLoadable(open: string -> Result<Classifier, LoadError>, paths: seq<string>): (r: Option<nat>)
    ensures r.Some? ==> r.value < |paths| && open(paths[r.value]).Ok?
    ensures r.Some? ==> forall j :: 0 <= j < r.value ==> open(paths[j]).Err?
    ensures r.None? ==> forall j :: 0 <= j < |paths| ==> open(paths[j]).Err?
  {
    if paths == [] then None
    else if open(paths[0]).Ok? then Some(0)
    else
      match FirstLoadable(open, paths[1..])
      case None => None
      case Some(k) => Some(k + 1)
  }

  /** The process-wide state of the service: the loaded model and the model-info gauge. */
  class Service {
    var model: Option<Classifier>
    /** The `model_info` gauge; `None` until a load attempt sets it. */
    var modelInfo: Option<int>

    constructor ()
      ensures model.None? && modelInfo.None?
    {
      model := None;
      modelInfo := None;
    }

    /**
     * Loads the model from `path`; only when that file does not exist are the
     * alternatives tried, in order, and the first that loads wins. The gauge
     * is set to 1 on success and 0 on failure; a failed attempt leaves the
     * previous model in place.
     */
    method LoadModel(open: string -> Result<Classifier, LoadError>, path: string) returns (ok: bool)
      modifies this
      ensures ok <==> open(path).Ok?
                      || (open(path) == Err(FileNotFound) && FirstLoadable(open, AlternativeModelPaths).Some?)
      ensures open(path).Ok? ==> model.Some? && model.value == open(path).value
      ensures !open(path).Ok? && ok ==>
                model.Some? && model.value == open(AlternativeModelPaths[FirstLoadable(open, AlternativeModelPaths).value]).value
      ensures !ok ==> model == old(model)
      ensures modelInfo == Some(if ok then 1 else 0)
    {
      var primary := open(path);
      if primary.Ok? {
        model := Some(primary.value);
        modelInfo := Some(1);
        return true;
      }
      if primary.error != FileNotFound {
        modelInfo := Some(0);
        return false;
      }
      var i := 0;
      while i < |AlternativeModelPaths|
        invariant 0 <= i <= |AlternativeModelPaths|
        invariant forall j :: 0 <= j < i ==> open(AlternativeModelPaths[j]).Err?
        invariant model == old(model) && modelInfo == old(modelInfo)
      {
        var attempt := open(AlternativeModelPaths[i]);
        if attempt.Ok? {
          FirstLoadableIsFirst(open, AlternativeModelPaths, i);
          model := Some(attempt.value);
          modelInfo := Some(1);
          return true;
        }
        i := i + 1;
      }
      modelInfo := Some(0);
      ok := false;
    }
  }

  /** The first path that loads is the one `FirstLoadable` names. */
  lemma {:induction false} FirstLoadableIsFirst(open: string -> Result<Classifier, LoadError>,
                                                 paths: seq<string>, i: nat)
    requires i < |paths| && open(paths[i]).Ok?
    requires forall j :: 0 <= j < i ==> open(paths[j]).Err?
    ensures FirstLoadable(open, paths) == Some(i)
  {
    if i > 0 {
      FirstLoadableIsFirst(open, paths[1..], i - 1);
    }
  }
}

=== FILE: migrate_runs.dfy ===
/**
 * The run-migration workflow: copy every run of every experiment of a source
 * tracking store into a target, tallying each run as success, failed or
 * skipped, and turn the tallies into a process exit code.
 *
 * Three stores take part. `source` and `target` are the two clients the
 * migrator owns. The new runs, however, are written through the fluent
 * logging API, which talks to the process-wide tracking store and not to
 * `target`; that store is the separate parameter `writer` below. It may be
 * the same object as `target` (then the migration does what it intends), or
 * `source`, or another store; the experiment id the runs are opened under
 * always comes from `target`.
 */
module MigrateRuns {
  import opened Wrappers
  import opened Strings
  import opened TrackingStore
  import MlflowConfig

  const SystemPrefix := "mlflow."
  const SourceRunIdTag := "mlflow.migration.source_run_id"
  const TimestampTag := "mlflow.migration.timestamp"
  const SourceUriTag := "mlflow.migration.source_uri"
  const FallbackPrefix := "migrated_"

  /** The outcome counters of one experiment. */
  datatype Stats = Stats(success: nat, failed: nat, skipped: nat)

  /** The outcome counters of a whole invocation. */
  datatype Summary = Summary(experiments: nat, success: nat, failed: nat, skipped: nat)

  /** What happened to one source run. */
  datatype RunOutcome = Copied(newId: string) | CopyFailed | Skipped

  // ---------------------------------------------------------------------
  // Run copier: what a copied run looks like
  // ---------------------------------------------------------------------

  /** The name the copy is opened under: the source's name, else a fallback from its id. */
  function RunName(run: Run): (name: string)
    ensures name != ""
    ensures run.name != "" ==> name == run.name
    ensures run.name == "" ==> StartsWith(name, FallbackPrefix)
    ensures run.name == "" ==> |name| == |FallbackPrefix| + (if |run.id| < 8 then |run.id| else 8)
    ensures run.name == "" ==> StartsWith(run.id, name[|FallbackPrefix|..])
  {
    if run.name != "" then run.name
    else
      StartsWithAppend(FallbackPrefix, Take(run.id, 8));
      assert (FallbackPrefix + Take(run.id, 8))[|FallbackPrefix|..] == Take(run.id, 8);
      FallbackPrefix + Take(run.id, 8)
  }

  predicate IsSystemKey(key: string) {
    StartsWith(key, SystemPrefix)
  }

  /** The source tags the copier writes: every tag outside the reserved namespace. */
  function UserTags(tags: map<string, string>): (r: map<string, string>)
    ensures forall k :: k in r <==> k in tags && !IsSystemKey(k)
    ensures forall k :: k in r ==> r[k] == tags[k]
  {
    map k | k in tags && !IsSystemKey(k) :: tags[k]
  }

  function ProvenanceTags(sourceRunId: string, stamp: string, sourceUri: string): map<string, string> {
    map[SourceRunIdTag := sourceRunId, TimestampTag := stamp, SourceUriTag := sourceUri]
  }

  /** The tags of a completed copy: user tags, then the three provenance tags. */
  function CopiedTags(tags: map<string, string>, sourceRunId: string, sourceUri: string,
                      stamp: string): map<string, string>
  {
    UserTags(tags)[SourceRunIdTag := sourceRunId][TimestampTag := stamp][SourceUriTag := sourceUri]
  }

  /** The three provenance keys lie in the reserved namespace. */
  lemma ProvenanceKeysAreSystemKeys()
    ensures IsSystemKey(SourceRunIdTag) && IsSystemKey(TimestampTag) && IsSystemKey(SourceUriTag)
  {
    assert SourceRunIdTag[..7] == SystemPrefix;
    assert TimestampTag[..7] == SystemPrefix;
    assert SourceUriTag[..7] == SystemPrefix;
  }

  /**
   * A copy's tags are exactly the non-reserved source tags with their values,
   * plus the three provenance tags naming the source run, the time and the
   * source store.
   */
  lemma CopiedTagsExactly(tags: map<string, string>, sourceRunId: string, sourceUri: string,
                          stamp: string)
    ensures var r := CopiedTags(tags, sourceRunId, sourceUri, stamp);
      && (forall k :: k in r <==> (k in tags && !IsSystemKey(k))
                                  || k == SourceRunIdTag || k == TimestampTag || k == SourceUriTag)
      && (forall k :: k in tags && !IsSystemKey(k) ==> r[k] == tags[k])
      && r[SourceRunIdTag] == sourceRunId && r[TimestampTag] == stamp && r[SourceUriTag] == sourceUri
  {
    ProvenanceKeysAreSystemKeys();
  }

  /**
   * Migrating a migrated run again drops the earlier provenance: the result
   * records only the immediate source.
   */
  lemma RemigrationRecordsOnlyImmediateSource(tags: map<string, string>,
                                              firstId: string, firstUri: string, firstStamp: string,
                                              secondId: string, secondUri: string, secondStamp: string)
    ensures CopiedTags(CopiedTags(tags, firstId, firstUri, firstStamp), secondId, secondUri, secondStamp)
         == CopiedTags(tags, secondId, secondUri, secondStamp)
  {
    ProvenanceKeysAreSystemKeys();
    var once := CopiedTags(tags, firstId, firstUri, firstStamp);
    assert UserTags(once) == UserTags(tags);
  }

  /** The run a copy that completes leaves in the store it was written to. */
  function MigratedRun(run: Run, newId: string, experimentId: string, sourceUri: string,
                       stamp: string): Run
  {
    Run(newId, experimentId, RunName(run), Finished, run.params, run.metrics,
        CopiedTags(run.tags, run.id, sourceUri, stamp))
  }

  ghost predicate SubMap<K, V>(a: map<K, V>, b: map<K, V>) {
    forall k :: k in a ==> k in b && a[k] == b[k]
  }

  /** The run a copy that raised leaves behind: a prefix of the writes, closed as failed. */
  ghost predicate PartialCopy(r: Run, run: Run, experimentId: string, sourceUri: string,
                              stamp: string)
  {
    && r.experimentId == experimentId && r.name == RunName(run) && r.status == Failed
    && SubMap(r.params, run.params) && SubMap(r.metrics, run.metrics)
    && SubMap(r.tags, CopiedTags(run.tags, run.id, sourceUri, stamp))
  }

  // ---------------------------------------------------------------------
  // Tallies
  // ---------------------------------------------------------------------

  function Total(s: Stats): nat {
    s.success + s.failed + s.skipped
  }

  function AddOutcome(s: Stats, o: RunOutcome): Stats {
    match o
    case Copied(_) => s.(success := s.success + 1)
    case CopyFailed => s.(failed := s.failed + 1)
    case Skipped => s.(skipped := s.skipped + 1)
  }

  /** The counters after the given outcomes, starting from zero. */
  function Tally(outcomes: seq<RunOutcome>): Stats {
    if outcomes == [] then Stats(0, 0, 0)
    else AddOutcome(Tally(outcomes[..|outcomes| - 1]), outcomes[|outcomes| - 1])
  }

  lemma TallySnoc(outcomes: seq<RunOutcome>, o: RunOutcome)
    ensures Tally(outcomes + [o]) == AddOutcome(Tally(outcomes), o)
  {
    assert (outcomes + [o])[..|outcomes|] == outcomes;
  }

  /** Every outcome is counted exactly once. */
  lemma {:induction false} TallyTotal(outcomes: seq<RunOutcome>)
    ensures Total(Tally(outcomes)) == |outcomes|
  {
    if outcomes != [] {
      TallyTotal(outcomes[..|outcomes| - 1]);
    }
  }

  function Count(outcomes: seq<RunOutcome>, o: RunOutcome): nat {
    if outcomes == [] then 0
    else Count(outcomes[..|outcomes| - 1], o) + (if outcomes[|outcomes| - 1] == o then 1 else 0)
  }

  /** Each counter counts the outcomes of its kind. */
  lemma {:induction false} TallyCountsKinds(outcomes: seq<RunOutcome>)
    ensures Tally(outcomes).failed == Count(outcomes, CopyFailed)
    ensures Tally(outcomes).skipped == Count(outcomes, Skipped)
  {
    if outcomes != [] {
      var init, last := outcomes[..|outcomes| - 1], outcomes[|outcomes| - 1];
      TallyCountsKinds(init);
      assert Tally(outcomes) == AddOutcome(Tally(init), last);
      assert Count(outcomes, CopyFailed) == Count(init, CopyFailed) + (if last == CopyFailed then 1 else 0);
      assert Count(outcomes, Skipped) == Count(init, Skipped) + (if last == Skipped then 1 else 0);
    }
  }

  /**
   * What the per-run loop promises about one experiment: one outcome per
   * listed run, a run skipped exactly when skipping is on and it did not
   * finish, and the tally counts those outcomes.
   */
  ghost predicate TalliedRuns(t: Stats, listed: seq<Run>, outcomes: seq<RunOutcome>, skipFailed: bool) {
    && |outcomes| == |listed|
    && t == Tally(outcomes)
    && forall k :: 0 <= k < |listed| ==> (outcomes[k] == Skipped <==> skipFailed && listed[k].status != Finished)
  }

  lemma TalliedRunsStep(t: Stats, listed: seq<Run>, outcomes: seq<RunOutcome>, skipFailed: bool,
                        run: Run, o: RunOutcome)
    requires TalliedRuns(t, listed, outcomes, skipFailed)
    requires o == Skipped <==> skipFailed && run.status != Finished
    ensures TalliedRuns(AddOutcome(t, o), listed + [run], outcomes + [o], skipFailed)
  {
    TallySnoc(outcomes, o);
  }

  /** `TalliedRuns` for every migrated experiment. */
  ghost predicate TalliedExperiments(tallies: seq<Stats>, listed: seq<seq<Run>>,
                                     outcomes: seq<seq<RunOutcome>>, skipFailed: bool) {
    && |listed| == |tallies|
    && |outcomes| == |tallies|
    && forall j :: 0 <= j < |tallies| ==> TalliedRuns(tallies[j], listed[j], outcomes[j], skipFailed)
  }

  lemma TalliedExperimentsStep(tallies: seq<Stats>, listed: seq<seq<Run>>, outcomes: seq<seq<RunOutcome>>,
                               skipFailed: bool, t: Stats, l: seq<Run>, o: seq<RunOutcome>)
    requires TalliedExperiments(tallies, listed, outcomes, skipFailed) && TalliedRuns(t, l, o, skipFailed)
    ensures TalliedExperiments(tallies + [t], listed + [l], outcomes + [o], skipFailed)
  {
  }

  /**
   * What the experiment loop has established once `migrated` are done: a
   * tally, a listing and outcomes per experiment, the summary aggregating
   * the tallies, and `grown` new runs in the writer, within the counts.
   */
  ghost predicate MigratedSoFar(overall: Summary, migrated: seq<Experiment>, tallies: seq<Stats>,
                                listed: seq<seq<Run>>, outcomes: seq<seq<RunOutcome>>, skipFailed: bool,
                                grown: int) {
    && |tallies| == |migrated|
    && overall == Aggregate(tallies)
    && TalliedExperiments(tallies, listed, outcomes, skipFailed)
    && overall.success <= grown <= overall.success + overall.failed
  }

  lemma MigratedSoFarStep(overall: Summary, migrated: seq<Experiment>, tallies: seq<Stats>,
                          listed: seq<seq<Run>>, outcomes: seq<seq<RunOutcome>>, skipFailed: bool, grown: int,
                          e: Experiment, t: Stats, l: seq<Run>, o: seq<RunOutcome>, more: int)
    requires MigratedSoFar(overall, migrated, tallies, listed, outcomes, skipFailed, grown)
    requires TalliedRuns(t, l, o, skipFailed) && t.success <= more <= t.success + t.failed
    ensures MigratedSoFar(AddStats(overall, t), migrated + [e], tallies + [t], listed + [l], outcomes + [o],
                          skipFailed, grown + more)
  {
    AggregateSnoc(tallies, t);
    TalliedExperimentsStep(tallies, listed, outcomes, skipFailed, t, l, o);
  }

  /**
   * A name lookup in the target does not land on a deleted experiment: the
   * name is free, or its first experiment is active. `get_experiment_by_name`
   * also returns deleted experiments, and a run cannot be started in one.
   */
  ghost predicate NameOpen(experiments: seq<Experiment>, name: string) {
    FindByName(experiments, name).None? || FindByName(experiments, name).value.stage == Active
  }

  /** The store holds no deleted experiment, so every name is open. */
  ghost predicate NoneDeleted(experiments: seq<Experiment>) {
    forall e :: e in experiments ==> e.stage == Active
  }

  /** Some run of some experiment raised while being copied. */
  ghost predicate AnyCopyFailed(outcomes: seq<seq<RunOutcome>>) {
    exists j, k :: 0 <= j < |outcomes| && 0 <= k < |outcomes[j]| && outcomes[j][k] == CopyFailed
  }

  lemma {:induction false} CountPositive(outcomes: seq<RunOutcome>, o: RunOutcome)
    ensures Count(outcomes, o) > 0 <==> exists k :: 0 <= k < |outcomes| && outcomes[k] == o
  {
    if outcomes != [] {
      var init := outcomes[..|outcomes| - 1];
      CountPositive(init, o);
      if exists k :: 0 <= k < |init| && init[k] == o {
        var k :| 0 <= k < |init| && init[k] == o;
        assert outcomes[k] == o;
      }
      if exists k :: 0 <= k < |outcomes| && outcomes[k] == o {
        var k :| 0 <= k < |outcomes| && outcomes[k] == o;
        if k < |init| {
          assert init[k] == o;
        }
      }
    }
  }

  function AddStats(s: Summary, t: Stats): Summary {
    Summary(s.experiments + 1, s.success + t.success, s.failed + t.failed, s.skipped + t.skipped)
  }

  /** The invocation summary after the given per-experiment tallies. */
  function Aggregate(tallies: seq<Stats>): Summary {
    if tallies == [] then Summary(0, 0, 0, 0)
    else AddStats(Aggregate(tallies[..|tallies| - 1]), tallies[|tallies| - 1])
  }

  lemma AggregateSnoc(tallies: seq<Stats>, t: Stats)
    ensures Aggregate(tallies + [t]) == AddStats(Aggregate(tallies), t)
  {
    assert (tallies + [t])[..|tallies|] == tallies;
  }

  /** Every migrated experiment is counted once. */
  lemma {:induction false} AggregateExperiments(tallies: seq<Stats>)
    ensures Aggregate(tallies).experiments == |tallies|
  {
    if tallies != [] {
      AggregateExperiments(tallies[..|tallies| - 1]);
    }
  }

  function SummaryTotal(s: Summary): nat {
    s.success + s.failed + s.skipped
  }

  function SumTotals(tallies: seq<Stats>): nat {
    if tallies == [] then 0 else SumTotals(tallies[..|tallies| - 1]) + Total(tallies[|tallies| - 1])
  }

  /** The invocation's run total is the sum of the experiments' run totals. */
  lemma {:induction false} AggregateTotal(tallies: seq<Stats>)
    ensures SummaryTotal(Aggregate(tallies)) == SumTotals(tallies)
  {
    if tallies != [] {
      AggregateTotal(tallies[..|tallies| - 1]);
    }
  }

  /** The aggregate has a failure iff some experiment has one. */
  lemma {:induction false} AggregateFailed(tallies: seq<Stats>)
    ensures Aggregate(tallies).failed > 0 <==> exists j :: 0 <= j < |tallies| && tallies[j].failed > 0
  {
    if tallies != [] {
      var init := tallies[..|tallies| - 1];
      AggregateFailed(init);
      if exists j :: 0 <= j < |init| && init[j].failed > 0 {
        var j :| 0 <= j < |init| && init[j].failed > 0;
        assert tallies[j] == init[j];
      }
    }
  }

  /** The aggregate counts a failure iff some run of some experiment failed to copy. */
  lemma {:induction false} FailedIffCopyFailed(tallies: seq<Stats>, outcomes: seq<seq<RunOutcome>>)
    requires |outcomes| == |tallies|
    requires forall j :: 0 <= j < |tallies| ==> tallies[j] == Tally(outcomes[j])
    ensures Aggregate(tallies).failed > 0 <==> AnyCopyFailed(outcomes)
  {
    AggregateFailed(tallies);
    forall j | 0 <= j < |tallies|
      ensures tallies[j].failed > 0 <==> exists k :: 0 <= k < |outcomes[j]| && outcomes[j][k] == CopyFailed
    {
      TallyCountsKinds(outcomes[j]);
      CountPositive(outcomes[j], CopyFailed);
    }
  }

  // ---------------------------------------------------------------------
  // Driver decisions
  // ---------------------------------------------------------------------

  /** The single experiment the whole-registry mode leaves out. */
  predicate IsDeletedDefault(e: Experiment) {
    e.name == "Default" && e.stage == Deleted
  }

  /** The experiments the whole-registry mode migrates, in listing order. */
  function MigratedExperiments(experiments: seq<Experiment>): seq<Experiment> {
    if experiments == [] then []
    else
      var rest := MigratedExperiments(experiments[1..]);
      if IsDeletedDefault(experiments[0]) then rest else [experiments[0]] + rest
  }

  /**
   * The whole-registry mode migrates exactly the listed experiments other
   * than a deleted "Default" one, and with none of those, all of them.
   */
  lemma {:induction false} MigratedExperimentsExactly(experiments: seq<Experiment>)
    ensures forall e :: e in MigratedExperiments(experiments) <==> e in experiments && !IsDeletedDefault(e)
    ensures |MigratedExperiments(experiments)| <= |experiments|
    ensures (forall e :: e in experiments ==> !IsDeletedDefault(e)) ==> MigratedExperiments(experiments) == experiments
  {
    if experiments != [] {
      MigratedExperimentsExactly(experiments[1..]);
      assert experiments == [experiments[0]] + experiments[1..];
    }
  }

  /** Every experiment a listing returns is a stored one. */
  lemma ListedExperimentsStored(experiments: seq<Experiment>)
    ensures forall k :: 0 <= k < |ActiveOnly(experiments)| ==> ActiveOnly(experiments)[k] in experiments
  {
    ActiveOnlyExactly(experiments);
  }

  /**
   * The deleted-"Default" exclusion never removes anything from an
   * experiment listing that holds active experiments only.
   */
  lemma DeletedDefaultNeverListed(experiments: seq<Experiment>)
    ensures MigratedExperiments(ActiveOnly(experiments)) == ActiveOnly(experiments)
  {
    ActiveOnlyExactly(experiments);
    MigratedExperimentsExactly(ActiveOnly(experiments));
  }

  /** The process exit status: 1 iff the run crashed or some run failed to copy. */
  function ExitCode(result: Outcome<Summary>): (code: int)
    ensures code == 0 || code == 1
    ensures code == 0 <==> result.Completed? && result.value.failed == 0
  {
    match result
    case Crashed => 1
    case Completed(s) => if s.failed > 0 then 1 else 0
  }

  /** Skipped runs never change the exit status. */
  lemma {:induction false} SkipsDoNotAffectExit(s: Summary, extra: nat)
    ensures ExitCode(Completed(s)) == ExitCode(Completed(s.(skipped := s.skipped + extra)))
  {
  }

  /** The command-line options of the migration script. */
  datatype Args = Args(
    source: string,
    target: Option<string>,
    experiment: Option<string>,
    noArtifacts: bool,
    includeFailed: bool,
    useConfig: bool)

  datatype TargetError = ConfigRaised(reason: MlflowConfig.ConfigError) | NoTarget

  /** `--use-config` wins over `--target`; with neither the script stops with status 1. */
  function ResolveTarget(args: Args, env: MlflowConfig.Env, root: string): (r: Result<string, TargetError>)
    ensures args.useConfig ==>
      (r.Ok? <==> MlflowConfig.GetMlflowConfig(env, root).Ok?)
      && (r.Ok? ==> r.value == MlflowConfig.GetMlflowConfig(env, root).value.trackingUri)
    ensures !args.useConfig ==>
      (r.Ok? <==> args.target.Some? && args.target.value != "")
      && (r.Ok? ==> r.value == args.target.value)
    ensures r.Err? && !args.useConfig ==> r.error == NoTarget
  {
    if args.useConfig then
      match MlflowConfig.GetMlflowConfig(env, root)
      case Ok(config) => Ok(config.trackingUri)
      case Err(e) => Err(ConfigRaised(e))
    else if args.target.Some? && args.target.value != "" then Ok(args.target.value)
    else Err(NoTarget)
  }

  /** Whether the script runs in single-experiment mode (a non-empty `--experiment`). */
  predicate SingleExperiment(args: Args) {
    args.experiment.Some? && args.experiment.value != ""
  }

  // ---------------------------------------------------------------------
  // The copier's writes into the open run
  // ---------------------------------------------------------------------

  /** Logs every param into the (fresh) open run, one key at a time. */
  method LogParams(writer: Store, ghost base: seq<Run>, params: map<string, string>) returns (ok: bool)
    requires OpenAfter(writer, base) && writer.ActiveRun().params == map[]
    modifies writer
    ensures OpenAfter(writer, base)
    ensures writer.experiments == old(writer.experiments) && writer.artifacts == old(writer.artifacts)
    ensures writer.ActiveRun() == old(writer.ActiveRun()).(params := writer.ActiveRun().params)
    ensures SubMap(writer.ActiveRun().params, params)
    ensures ok ==> writer.ActiveRun().params == params
    ensures NoFaultsButUploads(writer) ==> ok
  {
    ghost var start := writer.ActiveRun();
    var todo := params.Keys;
    while todo != {}
      invariant OpenAfter(writer, base)
      invariant writer.experiments == old(writer.experiments) && writer.artifacts == old(writer.artifacts)
      invariant todo <= params.Keys
      invariant writer.ActiveRun() == start.(params := writer.ActiveRun().params)
      invariant writer.ActiveRun().params == map k | k in params.Keys - todo :: params[k]
      decreases todo
    {
      var k :| k in todo;
      var logged := writer.LogParam(k, params[k]);
      if !logged {
        return false;
      }
      todo := todo - {k};
    }
    ok := true;
  }

  /** Logs every metric's latest value into the open run. */
  method LogMetrics(writer: Store, ghost base: seq<Run>, metrics: map<string, real>) returns (ok: bool)
    requires OpenAfter(writer, base) && writer.ActiveRun().metrics == map[]
    modifies writer
    ensures OpenAfter(writer, base)
    ensures writer.experiments == old(writer.experiments) && writer.artifacts == old(writer.artifacts)
    ensures writer.ActiveRun() == old(writer.ActiveRun()).(metrics := writer.ActiveRun().metrics)
    ensures SubMap(writer.ActiveRun().metrics, metrics)
    ensures ok ==> writer.ActiveRun().metrics == metrics
    ensures NoFaultsButUploads(writer) ==> ok
  {
    ghost var start := writer.ActiveRun();
    var todo := metrics.Keys;
    while todo != {}
      invariant OpenAfter(writer, base)
      invariant writer.experiments == old(writer.experiments) && writer.artifacts == old(writer.artifacts)
      invariant todo <= metrics.Keys
      invariant writer.ActiveRun() == start.(metrics := writer.ActiveRun().metrics)
      invariant writer.ActiveRun().metrics == map k | k in metrics.Keys - todo :: metrics[k]
      decreases todo
    {
      var k :| k in todo;
      var logged := writer.LogMetric(k, metrics[k]);
      if !logged {
        return false;
      }
      todo := todo - {k};
    }
    ok := true;
  }

  /** Sets every source tag outside the reserved namespace on the open run. */
  method SetUserTags(writer: Store, ghost base: seq<Run>, tags: map<string, string>) returns (ok: bool)
    requires OpenAfter(writer, base) && writer.ActiveRun().tags == map[]
    modifies writer
    ensures OpenAfter(writer, base)
    ensures writer.experiments == old(writer.experiments) && writer.artifacts == old(writer.artifacts)
    ensures writer.ActiveRun() == old(writer.ActiveRun()).(tags := writer.ActiveRun().tags)
    ensures SubMap(writer.ActiveRun().tags, UserTags(tags))
    ensures ok ==> writer.ActiveRun().tags == UserTags(tags)
    ensures NoFaultsButUploads(writer) ==> ok
  {
    ghost var start := writer.ActiveRun();
    var todo := tags.Keys;
    while todo != {}
      invariant OpenAfter(writer, base)
      invariant writer.experiments == old(writer.experiments) && writer.artifacts == old(writer.artifacts)
      invariant todo <= tags.Keys
      invariant writer.ActiveRun() == start.(tags := writer.ActiveRun().tags)
      invariant writer.ActiveRun().tags == map k | k in tags.Keys - todo && !IsSystemKey(k) :: tags[k]
      decreases todo
    {
      var k :| k in todo;
      if !IsSystemKey(k) {
        var logged := writer.SetTag(k, tags[k]);
        if !logged {
          return false;
        }
      }
      todo := todo - {k};
    }
    ok := true;
  }

  /** Whatever part of the user tags was written lies within the tags of a complete copy. */
  lemma UserTagsWithinCopied(partial: map<string, string>, tags: map<string, string>,
                             sourceRunId: string, sourceUri: string, stamp: string)
    requires SubMap(partial, UserTags(tags))
    ensures SubMap(partial, CopiedTags(tags, sourceRunId, sourceUri, stamp))
  {
    ProvenanceKeysAreSystemKeys();
  }

  /**
   * Records on the open run, in three tags, which run it copies, when, and
   * from which store; stops at the first write that raises.
   */
  method SetProvenanceTags(writer: Store, ghost base: seq<Run>, run: Run, stamp: string,
                           sourceUri: string) returns (ok: bool)
    requires OpenAfter(writer, base) && SubMap(writer.ActiveRun().tags, UserTags(run.tags))
    modifies writer
    ensures OpenAfter(writer, base)
    ensures writer.experiments == old(writer.experiments) && writer.artifacts == old(writer.artifacts)
    ensures writer.ActiveRun() == old(writer.ActiveRun()).(tags := writer.ActiveRun().tags)
    ensures SubMap(writer.ActiveRun().tags, CopiedTags(run.tags, run.id, sourceUri, stamp))
    ensures ok ==> writer.ActiveRun().tags == old(writer.ActiveRun().tags)
                     [SourceRunIdTag := run.id][TimestampTag := stamp][SourceUriTag := sourceUri]
    ensures NoFaultsButUploads(writer) ==> ok
  {
    ghost var copied := CopiedTags(run.tags, run.id, sourceUri, stamp);
    assert |SourceRunIdTag| == 30 && |TimestampTag| == 26 && |SourceUriTag| == 27;
    UserTagsWithinCopied(writer.ActiveRun().tags, run.tags, run.id, sourceUri, stamp);
    ok := writer.SetTag(SourceRunIdTag, run.id);
    if !ok {
      return;
    }
    UserTagsWithinCopied(old(writer.ActiveRun().tags), run.tags, run.id, sourceUri, stamp);
    assert SubMap(writer.ActiveRun().tags, copied);
    ok := writer.SetTag(TimestampTag, stamp);
    if !ok {
      return;
    }
    assert SubMap(writer.ActiveRun().tags, copied);
    ok := writer.SetTag(SourceUriTag, sourceUri);
  }

  lemma PrefixKeepsMembers(before: seq<Run>, after: seq<Run>)
    requires before <= after
    ensures forall x :: x in before ==> x in after
  {
    forall x | x in before ensures x in after {
      var j :| 0 <= j < |before| && before[j] == x;
      assert after[j] == x;
    }
  }

  // ---------------------------------------------------------------------
  // The migrator
  // ---------------------------------------------------------------------

  class Migrator {
    const sourceUri: string
    const targetUri: string
    const source: Store
    const target: Store

    constructor (sourceUri: string, targetUri: string, source: Store, target: Store)
      ensures this.sourceUri == sourceUri && this.targetUri == targetUri
      ensures this.source == source && this.target == target
    {
      this.sourceUri := sourceUri;
      this.targetUri := targetUri;
      this.source := source;
      this.target := target;
    }

    /**
     * The id of the target experiment with this name, created when the lookup
     * finds nothing or raises. Creation may raise too, and that is not caught.
     */
    method CreateExperimentIfNotExists(name: string) returns (ok: bool, id: string)
      requires target.Valid()
      modifies target
      ensures target.Valid()
      ensures target.runs == old(target.runs) && target.artifacts == old(target.artifacts)
      ensures target.active == old(target.active)
      ensures (!target.fails(Call.GetExperimentByName(name))
               && old(FindByName(target.experiments, name)).Some?)
              ==> (ok && id == old(FindByName(target.experiments, name)).value.id
                   && target.experiments == old(target.experiments))
      ensures ok ==> (target.experiments == old(target.experiments)
                      || (target.experiments == old(target.experiments) + [Experiment(id, name, Active)]
                          && id !in old(target.ExperimentIds())))
      ensures ok ==> FindByName(target.experiments, name).Some?
                     && FindByName(target.experiments, name).value.id == id
      ensures !ok ==> target.experiments == old(target.experiments)
      // with no faults the experiment is always found or created
      ensures NoFaultsButUploads(target) ==> ok
      // runs can be started in it unless the name led to a deleted experiment
      ensures ok && NameOpen(old(target.experiments), name) ==> id in target.ActiveExperimentIds()
      ensures NoneDeleted(old(target.experiments)) ==> NoneDeleted(target.experiments)
    {
      var looked, existing := target.GetExperimentByName(name);
      if looked && existing.Some? {
        return true, existing.value.id;
      }
      ok, id := target.CreateExperiment(name);
      if ok {
        FindByNameAppend(old(target.experiments), Experiment(id, name, Active));
      }
    }

    /**
     * Whether copying `run`'s artifacts into the run `runId` uploads them:
     * the download goes through, the local directory it gives exists, and
     * the upload goes through.
     */
    ghost predicate ArtifactsUploaded(run: Run, writer: Store, runId: string, pathExists: string -> bool) {
      && !source.fails(Call.DownloadArtifacts(run.id))
      && pathExists(ScratchPath(run.id))
      && !writer.fails(Call.LogArtifacts(runId))
    }

    /**
     * Transfers the source run's artifact tree into the open run; an
     * exception on the way is caught, so this never raises.
     */
    method CopyArtifacts(run: Run, writer: Store, pathExists: string -> bool)
      requires writer.Valid() && writer.active.Some?
      modifies writer
      ensures writer.Valid() && writer.active == old(writer.active)
      ensures writer.experiments == old(writer.experiments) && writer.runs == old(writer.runs)
      ensures writer.artifacts == if ArtifactsUploaded(run, writer, old(writer.ActiveRun().id), pathExists)
                                  then old(writer.artifacts)[old(writer.ActiveRun().id) :=
                                         old(writer.ArtifactsOf(writer.ActiveRun().id)) + old(source.ArtifactsOf(run.id))]
                                  else old(writer.artifacts)
    {
      var downloaded, copy := source.DownloadArtifacts(run.id);
      if downloaded && pathExists(copy.path) {
        var uploaded := writer.LogArtifacts(copy.files);
      }
    }

    /**
     * The copier's writes into the run it opened: params, metrics, user tags,
     * then provenance tags, stopping at the first write that raises.
     */
    method LogRunData(run: Run, writer: Store, ghost base: seq<Run>, stamp: string) returns (ok: bool)
      requires OpenAfter(writer, base)
      requires writer.ActiveRun().params == map[] && writer.ActiveRun().metrics == map[]
      requires writer.ActiveRun().tags == map[]
      modifies writer
      ensures OpenAfter(writer, base)
      ensures writer.experiments == old(writer.experiments) && writer.artifacts == old(writer.artifacts)
      ensures writer.ActiveRun().id == old(writer.ActiveRun()).id
      ensures writer.ActiveRun().experimentId == old(writer.ActiveRun()).experimentId
      ensures writer.ActiveRun().name == old(writer.ActiveRun()).name
      ensures writer.ActiveRun().status == old(writer.ActiveRun()).status
      ensures SubMap(writer.ActiveRun().params, run.params) && SubMap(writer.ActiveRun().metrics, run.metrics)
      ensures SubMap(writer.ActiveRun().tags, CopiedTags(run.tags, run.id, sourceUri, stamp))
      ensures ok ==> writer.ActiveRun().params == run.params && writer.ActiveRun().metrics == run.metrics
      ensures ok ==> writer.ActiveRun().tags == CopiedTags(run.tags, run.id, sourceUri, stamp)
      ensures NoFaultsButUploads(writer) ==> ok
    {
      ok := LogParams(writer, base, run.params);
      if ok {
        ok := LogMetrics(writer, base, run.metrics);
      }
      if ok {
        ok := SetUserTags(writer, base, run.tags);
      }
      if ok {
        ok := SetProvenanceTags(writer, base, run, stamp, sourceUri);
      } else {
        UserTagsWithinCopied(writer.ActiveRun().tags, run.tags, run.id, sourceUri, stamp);
      }
    }

    /**
     * Everything the copier does with the run it opened: the writes of
     * `LogRunData`, then the artifacts; then it closes the run, as failed
     * when a write raised.
     */
    method FillAndEnd(run: Run, writer: Store, ghost base: seq<Run>, ghost id: string,
                      targetExperimentId: string, copyArtifacts: bool, stamp: string,
                      pathExists: string -> bool) returns (ok: bool)
      requires OpenAfter(writer, base)
      requires writer.ActiveRun() == Run(id, targetExperimentId, RunName(run), Running, map[], map[], map[])
      requires id !in writer.artifacts
      modifies writer
      ensures writer.Valid() && writer.active.None? && writer.experiments == old(writer.experiments)
      ensures |writer.runs| == |base| + 1 && writer.runs[..|base|] == base
      ensures ok ==> writer.runs[|base|] == MigratedRun(run, id, targetExperimentId, sourceUri, stamp)
      ensures ok ==> writer.artifacts == if copyArtifacts && ArtifactsUploaded(run, writer, id, pathExists)
                                         then old(writer.artifacts)[id := old(source.ArtifactsOf(run.id))]
                                         else old(writer.artifacts)
      ensures !ok ==> writer.artifacts == old(writer.artifacts)
      ensures !ok ==> PartialCopy(writer.runs[|base|], run, targetExperimentId, sourceUri, stamp)
      ensures NoFaultsButUploads(writer) ==> ok
    {
      ghost var sourceFiles := source.ArtifactsOf(run.id);
      ok := LogRunData(run, writer, base, stamp);
      if ok && copyArtifacts {
        assert writer.ArtifactsOf(id) == {} && {} + sourceFiles == sourceFiles;
        CopyArtifacts(run, writer, pathExists);
      }
      writer.EndRun(if ok then Finished else Failed);
    }

    /**
     * Copies one run into `writer` under the given experiment id. Returns
     * whether the copy completed; when it did not, an exception escaped and
     * the run opened for it, if any, is left behind holding a prefix of the
     * writes and closed as failed.
     */
    method CopyRun(run: Run, targetExperimentId: string, copyArtifacts: bool, writer: Store,
                   stamp: string, pathExists: string -> bool) returns (ok: bool, newId: string)
      requires writer.Valid() && writer.active.None?
      modifies writer
      ensures writer.Valid() && writer.active.None?
      ensures writer.experiments == old(writer.experiments)
      ensures old(writer.runs) <= writer.runs && |writer.runs| <= |old(writer.runs)| + 1
      ensures ok ==> newId !in old(writer.RunIds())
      ensures ok ==> writer.runs == old(writer.runs)
                                    + [MigratedRun(run, newId, targetExperimentId, sourceUri, stamp)]
      ensures ok ==> writer.artifacts == if copyArtifacts && ArtifactsUploaded(run, writer, newId, pathExists)
                                         then old(writer.artifacts)[newId := old(source.ArtifactsOf(run.id))]
                                         else old(writer.artifacts)
      ensures !ok ==> writer.artifacts == old(writer.artifacts)
      ensures !ok && |writer.runs| > |old(writer.runs)| ==>
                PartialCopy(writer.runs[|old(writer.runs)|], run, targetExperimentId, sourceUri, stamp)
      // with no faults, except perhaps in the artifact upload, a copy into an active experiment completes
      ensures NoFaultsButUploads(writer) && targetExperimentId in old(writer.ActiveExperimentIds()) ==> ok
      // a copy into an unknown or deleted experiment raises at once and writes nothing
      ensures targetExperimentId !in old(writer.ActiveExperimentIds()) ==>
                !ok && writer.runs == old(writer.runs) && writer.artifacts == old(writer.artifacts)
    {
      ghost var base := writer.runs;
      var started, id := writer.StartRun(targetExperimentId, RunName(run));
      if !started {
        return false, "";
      }
      assert OpenAfter(writer, base);
      ok := FillAndEnd(run, writer, base, id, targetExperimentId, copyArtifacts, stamp, pathExists);
      assert writer.runs == base + [writer.runs[|base|]];
      newId := if ok then id else "";
    }

    /** Copying the same run twice leaves two distinct copies: migration is not idempotent. */
    method CopyRunTwice(run: Run, targetExperimentId: string, writer: Store,
                        firstStamp: string, secondStamp: string, pathExists: string -> bool)
      returns (first: Option<string>, second: Option<string>)
      requires writer.Valid() && writer.active.None?
      modifies writer
      ensures first.Some? && second.Some? ==>
                first.value != second.value
                && writer.runs == old(writer.runs)
                   + [MigratedRun(run, first.value, targetExperimentId, sourceUri, firstStamp),
                      MigratedRun(run, second.value, targetExperimentId, sourceUri, secondStamp)]
    {
      var ok1, id1 := CopyRun(run, targetExperimentId, false, writer, firstStamp, pathExists);
      if ok1 {
        assert writer.runs[|writer.runs| - 1].id == id1;
        assert id1 in writer.RunIds();
      }
      var ok2, id2 := CopyRun(run, targetExperimentId, false, writer, secondStamp, pathExists);
      first := if ok1 then Some(id1) else None;
      second := if ok2 then Some(id2) else None;
    }

    /**
     * The loop over one experiment's listed runs: skip unfinished ones when
     * asked to, copy the rest, and count each outcome. A copy that raises is
     * counted as failed and the loop goes on. `clock(name, j)` is the time at
     * which the j-th run is stamped.
     */
    method CopyListedRuns(name: string, runs: seq<Run>, targetId: string, copyArtifacts: bool,
                          skipFailed: bool, writer: Store, clock: (string, nat) -> string,
                          pathExists: string -> bool)
      returns (stats: Stats, ghost outcomes: seq<RunOutcome>)
      requires writer.Valid() && writer.active.None?
      modifies writer
      ensures writer.Valid() && writer.active.None?
      ensures writer.experiments == old(writer.experiments)
      ensures old(writer.runs) <= writer.runs
      ensures TalliedRuns(stats, runs, outcomes, skipFailed)
      // every completed copy added one run, a failed one at most one, a skipped one none
      ensures |old(writer.runs)| + stats.success <= |writer.runs|
                <= |old(writer.runs)| + stats.success + stats.failed
      // with no faults but perhaps in uploads, and an active target experiment, nothing fails and each copy adds one run
      ensures NoFaultsButUploads(writer) && targetId in old(writer.ActiveExperimentIds()) ==>
                stats.failed == 0 && |writer.runs| == |old(writer.runs)| + stats.success
      // into an unknown or deleted experiment every copy fails and nothing is written
      ensures targetId !in old(writer.ActiveExperimentIds()) ==>
                stats.success == 0 && writer.runs == old(writer.runs)
      ensures CopiesPresent(writer.runs, name, runs, outcomes, targetId, clock)
    {
      stats, outcomes := Stats(0, 0, 0), [];
      var i := 0;
      while i < |runs|
        invariant 0 <= i <= |runs| && |outcomes| == i
        invariant writer.Valid() && writer.active.None?
        invariant writer.experiments == old(writer.experiments)
        invariant old(writer.runs) <= writer.runs
        invariant TalliedRuns(stats, runs[..i], outcomes, skipFailed)
        invariant |old(writer.runs)| + stats.success <= |writer.runs|
                    <= |old(writer.runs)| + stats.success + stats.failed
        invariant NoFaultsButUploads(writer) && targetId in old(writer.ActiveExperimentIds()) ==> stats.failed == 0
        invariant targetId !in old(writer.ActiveExperimentIds()) ==>
                    stats.success == 0 && writer.runs == old(writer.runs)
        invariant CopiesPresent(writer.runs, name, runs, outcomes, targetId, clock)
      {
        ghost var before := writer.runs;
        var outcome := CopyOrSkip(runs[i], targetId, copyArtifacts, skipFailed, writer, clock(name, i),
                                  pathExists);
        CopiesPresentStep(before, writer.runs, name, runs, outcomes, outcome, targetId, clock);
        TalliedRunsStep(stats, runs[..i], outcomes, skipFailed, runs[i], outcome);
        assert runs[..i + 1] == runs[..i] + [runs[i]];
        stats := AddOutcome(stats, outcome);
        outcomes := outcomes + [outcome];
        i := i + 1;
      }
      assert runs[..i] == runs;
    }

    /** One turn of the per-run loop: skip the run, or copy it and record how that went. */
    method CopyOrSkip(run: Run, targetId: string, copyArtifacts: bool, skipFailed: bool, writer: Store,
                      stamp: string, pathExists: string -> bool) returns (outcome: RunOutcome)
      requires writer.Valid() && writer.active.None?
      modifies writer
      ensures writer.Valid() && writer.active.None?
      ensures writer.experiments == old(writer.experiments)
      ensures old(writer.runs) <= writer.runs
      ensures outcome == Skipped <==> skipFailed && run.status != Finished
      ensures outcome == Skipped ==> writer.runs == old(writer.runs) && writer.artifacts == old(writer.artifacts)
      ensures outcome.Copied? ==> AppendedCopy(old(writer.runs), writer.runs, run, outcome.newId, targetId, stamp)
      ensures outcome.Copied? ==> |writer.runs| == |old(writer.runs)| + 1
      ensures outcome == CopyFailed ==> |writer.runs| <= |old(writer.runs)| + 1
      ensures NoFaultsButUploads(writer) && targetId in old(writer.ActiveExperimentIds()) ==> outcome != CopyFailed
      ensures targetId !in old(writer.ActiveExperimentIds()) ==>
                !outcome.Copied? && writer.runs == old(writer.runs)
      ensures outcome.Copied? ==> MigratedRun(run, outcome.newId, targetId, sourceUri, stamp) in writer.runs
    {
      if skipFailed && run.status != Finished {
        return Skipped;
      }
      var copied, newId := CopyRun(run, targetId, copyArtifacts, writer, stamp, pathExists);
      if copied {
        assert writer.runs[|writer.runs| - 1] in writer.runs;
        outcome := Copied(newId);
      } else {
        outcome := CopyFailed;
      }
    }

    /**
     * Each completed copy of a listed run is among `stored`, as the run's
     * migrated form stamped with the time of its turn.
     */
    ghost predicate CopiesPresent(stored: seq<Run>, name: string, listed: seq<Run>, outcomes: seq<RunOutcome>,
                                  targetId: string, clock: (string, nat) -> string) {
      forall j :: 0 <= j < |listed| && j < |outcomes| && outcomes[j].Copied? ==>
        MigratedRun(listed[j], outcomes[j].newId, targetId, sourceUri, clock(name, j)) in stored
    }

    /** `after` is `before` with the migrated form of `run` appended. */
    ghost predicate AppendedCopy(before: seq<Run>, after: seq<Run>, run: Run, newId: string, targetId: string,
                                 stamp: string) {
      after == before + [MigratedRun(run, newId, targetId, sourceUri, stamp)]
    }

    lemma CopiesPresentStep(before: seq<Run>, after: seq<Run>, name: string, listed: seq<Run>,
                            outcomes: seq<RunOutcome>, o: RunOutcome, targetId: string,
                            clock: (string, nat) -> string)
      requires CopiesPresent(before, name, listed, outcomes, targetId, clock) && before <= after
      requires |outcomes| < |listed|
      requires o.Copied? ==>
                 MigratedRun(listed[|outcomes|], o.newId, targetId, sourceUri, clock(name, |outcomes|)) in after
      ensures CopiesPresent(after, name, listed, outcomes + [o], targetId, clock)
    {
      PrefixKeepsMembers(before, after);
    }

    /**
     * Migrates every run of the named source experiment into a same-named
     * target experiment. Alongside the result: the runs listed, each one's
     * outcome, and the target experiment's id.
     */
    method MigrateExperiment(name: string, copyArtifacts: bool, skipFailed: bool, writer: Store,
                             clock: (string, nat) -> string, pathExists: string -> bool)
      returns (result: Outcome<Stats>, ghost listed: seq<Run>, ghost outcomes: seq<RunOutcome>,
               ghost targetId: string)
      requires target.Valid() && writer.Valid() && writer.active.None?
      modifies target, writer
      ensures target.Valid() && writer.Valid() && writer.active.None?
      ensures old(writer.runs) <= writer.runs
      // an experiment missing from the source is reported with a zero tally and no writes
      ensures (!source.fails(Call.GetExperimentByName(name))
               && old(FindByName(source.experiments, name)).None?)
              ==> (result == Completed(Stats(0, 0, 0)) && unchanged(target) && unchanged(writer))
      ensures result.Completed? ==> TalliedRuns(result.value, listed, outcomes, skipFailed)
      ensures result.Completed? ==> |old(writer.runs)| + result.value.success <= |writer.runs|
                                      <= |old(writer.runs)| + result.value.success + result.value.failed
      ensures result.Completed? && old(FindByName(source.experiments, name)).Some? ==>
                listed == RunsIn(old(source.runs), old(FindByName(source.experiments, name)).value.id)
                && FindByName(target.experiments, name).Some?
                && FindByName(target.experiments, name).value.id == targetId
      ensures result.Completed? ==> CopiesPresent(writer.runs, name, listed, outcomes, targetId, clock)
      // with no faults, the runs written into the target itself, and the name not
      // leading to a deleted target experiment, every copy goes through
      ensures NoFaults(source) && NoFaultsButUploads(target) && writer == target && NameOpen(old(target.experiments), name) ==>
                result.Completed? && result.value.failed == 0
      // a target experiment runs cannot be started in gets no copy
      ensures result.Completed? && writer == target && targetId !in target.ActiveExperimentIds() ==>
                result.value.success == 0
      ensures NoneDeleted(old(target.experiments)) ==> NoneDeleted(target.experiments)
    {
      listed, outcomes, targetId := [], [], "";
      var looked, sourceExperiment := source.GetExperimentByName(name);
      if !looked {
        return Crashed, listed, outcomes, targetId;
      }
      if sourceExperiment.None? {
        return Completed(Stats(0, 0, 0)), listed, outcomes, targetId;
      }
      var created, tid := CreateExperimentIfNotExists(name);
      if !created {
        return Crashed, listed, outcomes, targetId;
      }
      targetId := tid;
      var searched, runs := source.SearchRuns(sourceExperiment.value.id);
      if !searched {
        return Crashed, listed, outcomes, targetId;
      }
      listed := runs;
      var stats;
      stats, outcomes := CopyListedRuns(name, runs, tid, copyArtifacts, skipFailed, writer, clock, pathExists);
      result := Completed(stats);
    }

    /**
     * One turn of the experiment loop for an experiment the listing
     * returned: `MigrateExperiment` on its name, with the promises the loop
     * carries forward.
     */
    method MigrateListed(experiment: Experiment, copyArtifacts: bool, skipFailed: bool, writer: Store,
                         clock: (string, nat) -> string, pathExists: string -> bool)
      returns (result: Outcome<Stats>, ghost runs: seq<Run>, ghost outcomes: seq<RunOutcome>)
      requires target.Valid() && writer.Valid() && writer.active.None?
      modifies target, writer
      ensures target.Valid() && writer.Valid() && writer.active.None?
      ensures old(writer.runs) <= writer.runs
      ensures result.Completed? ==> TalliedRuns(result.value, runs, outcomes, skipFailed)
      ensures result.Completed? ==> |old(writer.runs)| + result.value.success <= |writer.runs|
                                      <= |old(writer.runs)| + result.value.success + result.value.failed
      ensures result.Completed? && experiment in old(source.experiments) ==>
                ListedFor(old(source.experiments), old(source.runs), experiment, runs)
      ensures source != target && source != writer ==>
                source.experiments == old(source.experiments) && source.runs == old(source.runs)
      ensures NoFaults(source) && NoFaultsButUploads(target) && writer == target
              && NameOpen(old(target.experiments), experiment.name) ==>
                result.Completed? && result.value.failed == 0
      ensures NoneDeleted(old(target.experiments)) ==> NoneDeleted(target.experiments)
    {
      ghost var found := FindByName(source.experiments, experiment.name);
      assert experiment in source.experiments ==> found.Some?;
      ghost var targetId;
      result, runs, outcomes, targetId := MigrateExperiment(experiment.name, copyArtifacts, skipFailed, writer,
                                                     clock, pathExists);
    }

    /**
     * One step of the whole-store loop: pass over a deleted "Default", or
     * migrate one listed experiment and fold its tally and its listed runs
     * into what the earlier experiments gave.
     */
    method MigrateNext(experiments: seq<Experiment>, i: nat, copyArtifacts: bool, skipFailed: bool, writer: Store,
                       clock: (string, nat) -> string, pathExists: string -> bool, overall: Summary,
                       ghost migrated: seq<Experiment>, ghost tallies: seq<Stats>,
                       ghost listed: seq<seq<Run>>, ghost outcomes: seq<seq<RunOutcome>>,
                       ghost base: seq<Run>, ghost separate: bool,
                       ghost sourceExperiments: seq<Experiment>, ghost sourceRuns: seq<Run>)
      returns (next: Outcome<Summary>, ghost migrated': seq<Experiment>, ghost tallies': seq<Stats>,
               ghost listed': seq<seq<Run>>, ghost outcomes': seq<seq<RunOutcome>>)
      requires target.Valid() && writer.Valid() && writer.active.None?
      requires i < |experiments| && MigratedUpTo(experiments, i, migrated)
      requires base <= writer.runs
      requires MigratedSoFar(overall, migrated, tallies, listed, outcomes, skipFailed, |writer.runs| - |base|)
      requires separate ==> source != target && source != writer && experiments[i] in sourceExperiments
                            && source.experiments == sourceExperiments && source.runs == sourceRuns
                            && ListedFrom(sourceExperiments, sourceRuns, migrated, listed)
      modifies target, writer
      ensures target.Valid() && writer.Valid() && writer.active.None?
      ensures base <= writer.runs
      ensures migrated' == migrated + (if IsDeletedDefault(experiments[i]) then [] else [experiments[i]])
      ensures MigratedUpTo(experiments, i + 1, migrated')
      ensures IsDeletedDefault(experiments[i]) ==> next == Completed(overall) && writer.runs == old(writer.runs)
      ensures next.Completed? ==>
                MigratedSoFar(next.value, migrated', tallies', listed', outcomes', skipFailed, |writer.runs| - |base|)
      ensures next.Completed? && separate ==>
                source.experiments == sourceExperiments && source.runs == sourceRuns
                && ListedFrom(sourceExperiments, sourceRuns, migrated', listed')
      ensures NoFaults(source) && NoFaultsButUploads(target) && writer == target && NoneDeleted(old(target.experiments)) ==>
                next.Completed? && next.value.failed == overall.failed
      ensures NoneDeleted(old(target.experiments)) ==> NoneDeleted(target.experiments)
    {
      var experiment := experiments[i];
      MigratedUpToStep(experiments, i, migrated, migrated + (if IsDeletedDefault(experiment) then [] else [experiment]));
      if IsDeletedDefault(experiment) {
        return Completed(overall), migrated, tallies, listed, outcomes;
      }
      ghost var before := writer.runs;
      var stats, runs, kinds := MigrateListed(experiment, copyArtifacts, skipFailed, writer, clock, pathExists);
      migrated', tallies', listed', outcomes' := migrated + [experiment], tallies, listed, outcomes;
      if stats.Crashed? {
        return Crashed, migrated', tallies', listed', outcomes';
      }
      if separate {
        ListedFromSnoc(sourceExperiments, sourceRuns, migrated, listed, experiment, runs);
      }
      MigratedSoFarStep(overall, migrated, tallies, listed, outcomes, skipFailed,
                        |before| - |base|, experiment, stats.value, runs, kinds, |writer.runs| - |before|);
      next := Completed(AddStats(overall, stats.value));
      tallies', listed', outcomes' := tallies + [stats.value], listed + [runs], outcomes + [kinds];
    }

    /**
     * Migrates every listed experiment except a deleted "Default" one. Any
     * uncaught exception inside stops the whole invocation. Alongside the
     * result: the experiments migrated and, per experiment, its tally, the
     * runs listed and each run's outcome.
     */
    method MigrateAll(copyArtifacts: bool, skipFailed: bool, writer: Store,
                      clock: (string, nat) -> string, pathExists: string -> bool)
      returns (result: Outcome<Summary>, ghost migrated: seq<Experiment>, ghost tallies: seq<Stats>,
               ghost listed: seq<seq<Run>>, ghost outcomes: seq<seq<RunOutcome>>)
      requires target.Valid() && writer.Valid() && writer.active.None?
      modifies target, writer
      ensures target.Valid() && writer.Valid() && writer.active.None?
      ensures old(writer.runs) <= writer.runs
      ensures result.Completed? ==> migrated == MigratedExperiments(ActiveOnly(old(source.experiments)))
      ensures result.Completed? ==> |tallies| == |migrated| && result.value == Aggregate(tallies)
      ensures result.Completed? ==> result.value.experiments == |migrated|
      ensures result.Completed? ==> TalliedExperiments(tallies, listed, outcomes, skipFailed)
      ensures result.Completed? ==> |old(writer.runs)| + result.value.success <= |writer.runs|
                                      <= |old(writer.runs)| + result.value.success + result.value.failed
      // when the source is a store of its own, each experiment's runs are read from it as it was
      ensures result.Completed? && source != target && source != writer ==>
                ListedFrom(old(source.experiments), old(source.runs), migrated, listed)
      // with no faults, the runs written into the target itself, and no deleted
      // experiment in the target, nothing fails
      ensures NoFaults(source) && NoFaultsButUploads(target) && writer == target && NoneDeleted(old(target.experiments)) ==>
                result.Completed? && result.value.failed == 0
    {
      migrated, tallies, listed, outcomes := [], [], [], [];
      var searched, experiments := source.SearchExperiments();
      if !searched {
        return Crashed, migrated, tallies, listed, outcomes;
      }
      ghost var sourceRuns, sourceExperiments := source.runs, source.experiments;
      ghost var separate := source != target && source != writer;
      ghost var quiet := NoFaults(source) && NoFaultsButUploads(target) && writer == target && NoneDeleted(target.experiments);
      ListedExperimentsStored(sourceExperiments);
      var overall := Summary(0, 0, 0, 0);
      var i := 0;
      while i < |experiments|
        invariant 0 <= i <= |experiments|
        invariant target.Valid() && writer.Valid() && writer.active.None?
        invariant old(writer.runs) <= writer.runs
        invariant MigratedUpTo(experiments, i, migrated)
        invariant MigratedSoFar(overall, migrated, tallies, listed, outcomes, skipFailed,
                                |writer.runs| - |old(writer.runs)|)
        invariant separate ==>
                    source.experiments == sourceExperiments && source.runs == sourceRuns
                    && ListedFrom(sourceExperiments, sourceRuns, migrated, listed)
        invariant quiet ==> overall.failed == 0 && NoneDeleted(target.experiments)
      {
        assert separate ==> experiments[i] in sourceExperiments;
        var next;
        next, migrated, tallies, listed, outcomes :=
          MigrateNext(experiments, i, copyArtifacts, skipFailed, writer, clock, pathExists, overall,
                      migrated, tallies, listed, outcomes, old(writer.runs), separate,
                      sourceExperiments, sourceRuns);
        if next.Crashed? {
          return Crashed, migrated, tallies, listed, outcomes;
        }
        overall := next.value;
        i := i + 1;
      }
      assert experiments[..i] == experiments;
      AggregateExperiments(tallies);
      result := Completed(overall);
    }
  }

  /**
   * The runs listed for each migrated experiment are the stored runs of the
   * experiment its name resolves to.
   */
  ghost predicate ListedFrom(experiments: seq<Experiment>, runs: seq<Run>, migrated: seq<Experiment>,
                             listed: seq<seq<Run>>) {
    && |listed| == |migrated|
    && forall j :: 0 <= j < |migrated| ==> ListedFor(experiments, runs, migrated[j], listed[j])
  }

  ghost predicate ListedFor(experiments: seq<Experiment>, runs: seq<Run>, e: Experiment, listed: seq<Run>) {
    && FindByName(experiments, e.name).Some?
    && listed == RunsIn(runs, FindByName(experiments, e.name).value.id)
  }

  lemma ListedFromSnoc(experiments: seq<Experiment>, runs: seq<Run>, migrated: seq<Experiment>,
                       listed: seq<seq<Run>>, e: Experiment, l: seq<Run>)
    requires ListedFrom(experiments, runs, migrated, listed) && ListedFor(experiments, runs, e, l)
    ensures ListedFrom(experiments, runs, migrated + [e], listed + [l])
  {
  }

  /**
   * The script's entry point once the options are parsed: resolve the target,
   * migrate one experiment or all of them, and return the exit status.
   * `source` and `target` are the stores the two URIs address.
   */
  method RunMigration(args: Args, env: MlflowConfig.Env, root: string, source: Store, target: Store,
                      writer: Store, clock: (string, nat) -> string, pathExists: string -> bool)
    returns (code: int, summary: Outcome<Summary>, ghost outcomes: seq<seq<RunOutcome>>)
    requires target.Valid() && writer.Valid() && writer.active.None?
    modifies target, writer
    ensures ResolveTarget(args, env, root).Err? ==> code == 1 && unchanged(target) && unchanged(writer)
    ensures ResolveTarget(args, env, root).Ok? ==> code == ExitCode(summary)
    // a completed invocation exits with 1 exactly when some run failed to copy
    ensures ResolveTarget(args, env, root).Ok? && summary.Completed? ==> (code == 1 <==> AnyCopyFailed(outcomes))
    ensures summary.Completed? && SingleExperiment(args) ==> summary.value.experiments == 1
    ensures summary.Completed? && !SingleExperiment(args) ==>
              summary.value.experiments == |ActiveOnly(old(source.experiments))|
    // a usable target, no faults, the runs written into the target itself, and no
    // deleted experiment there: exit status 0
    ensures && ResolveTarget(args, env, root).Ok? && NoFaults(source) && NoFaultsButUploads(target) && writer == target
            && NoneDeleted(old(target.experiments))
            ==> code == 0
  {
    outcomes := [];
    var resolved := ResolveTarget(args, env, root);
    if resolved.Err? {
      return 1, Crashed, outcomes;
    }
    var migrator := new Migrator(args.source, resolved.value, source, target);
    if SingleExperiment(args) {
      var stats, _, kinds, _ := migrator.MigrateExperiment(args.experiment.value, !args.noArtifacts,
                                                           !args.includeFailed, writer, clock, pathExists);
      summary := match stats
        case Crashed => Crashed
        case Completed(s) => Completed(Summary(1, s.success, s.failed, s.skipped));
      if stats.Completed? {
        outcomes := [kinds];
        assert Aggregate([stats.value]) == summary.value;
        FailedIffCopyFailed([stats.value], outcomes);
      }
    } else {
      var migratedAll, _, tallies, _, kinds := migrator.MigrateAll(!args.noArtifacts, !args.includeFailed,
                                                                   writer, clock, pathExists);
      summary := migratedAll;
      if migratedAll.Completed? {
        outcomes := kinds;
        DeletedDefaultNeverListed(old(source.experiments));
        FailedIffCopyFailed(tallies, outcomes);
      }
    }
    code := ExitCode(summary);
  }


  lemma FindByNameAppend(experiments: seq<Experiment>, e: Experiment)
    requires FindByName(experiments, e.name).None?
    ensures FindByName(experiments + [e], e.name) == Some(e)
  {
    if experiments != [] {
      assert (experiments + [e])[1..] == experiments[1..] + [e];
      FindByNameAppend(experiments[1..], e);
    }
  }

  /** The experiments migrated from the first `i` listed ones. */
  ghost predicate MigratedUpTo(experiments: seq<Experiment>, i: nat, migrated: seq<Experiment>) {
    i <= |experiments| && migrated == MigratedExperiments(experiments[..i])
  }

  /** One more listed experiment extends the migrated prefix by itself, unless it is a deleted "Default". */
  lemma MigratedUpToStep(experiments: seq<Experiment>, i: nat, migrated: seq<Experiment>, next: seq<Experiment>)
    requires i < |experiments| && MigratedUpTo(experiments, i, migrated)
    requires next == migrated + (if IsDeletedDefault(experiments[i]) then [] else [experiments[i]])
    ensures MigratedUpTo(experiments, i + 1, next)
  {
    assert experiments[..i + 1] == experiments[..i] + [experiments[i]];
    MigratedExperimentsSnoc(experiments[..i], experiments[i]);
  }

  lemma {:induction false} MigratedExperimentsSnoc(experiments: seq<Experiment>, e: Experiment)
    ensures MigratedExperiments(experiments + [e])
         == MigratedExperiments(experiments) + (if IsDeletedDefault(e) then [] else [e])
  {
    if experiments == [] {
      assert [] + [e] == [e] && [e][1..] == [];
    } else {
      var xs := experiments + [e];
      assert xs[0] == experiments[0] && xs[1..] == experiments[1..] + [e];
      MigratedExperimentsSnoc(experiments[1..], e);
    }
  }
}

=== FILE: mlflow_config.dfy ===
/**
 * Environment-driven tracking configuration: which environment is selected,
 * the tracking and backend-store URIs of each environment, where artifacts
 * go, and the database URI built from its parts. The process environment is
 * a map from variable name to value; the project root is a parameter.
 */
module MlflowConfig {
  import opened Wrappers
  import opened Strings

  type Env = map<string, string>

  const DefaultExperimentName := "heart-disease-prediction"

  /** Python's `os.getenv(key)`. */
  function GetEnv(env: Env, key: string): Option<string> {
    if key in env then Some(env[key]) else None
  }

  /** Python's `os.getenv(key, default)`: the default applies only to an unset variable. */
  function GetEnvOr(env: Env, key: string, default: string): string {
    if key in env then env[key] else default
  }

  /** Python truthiness of an optional string: set and non-empty. */
  predicate Truthy(v: Option<string>) {
    v.Some? && v.value != ""
  }

  datatype Config = Config(
    environment: string,
    experimentName: string,
    trackingUri: string,
    artifactLocation: string,
    backendStoreUri: Option<string>)

  /** The environment-specific part of a configuration. */
  datatype Settings = Settings(trackingUri: string, artifactLocation: string, backendStoreUri: Option<string>)

  datatype ConfigError = NoProductionTrackingUri
  datatype DbError = MissingPassword | UnsupportedDbType(dbType: string)

  /** The selected environment: `MLFLOW_ENV` lower-cased, `development` when unset. */
  function GetEnvironment(env: Env): (r: string)
    ensures "MLFLOW_ENV" !in env ==> r == "development"
    ensures "MLFLOW_ENV" in env ==> |r| == |env["MLFLOW_ENV"]|
    ensures Lower(r) == r
  {
    var raw := GetEnvOr(env, "MLFLOW_ENV", "development");
    LowerIdempotent(raw);
    Lower(raw)
  }

  lemma LowerIdempotent(s: string)
    ensures Lower(Lower(s)) == Lower(s)
  {
  }

  /** Two spellings of `MLFLOW_ENV` that differ only in case select the same environment. */
  lemma EnvironmentIgnoresCase(env: Env, v: string, w: string)
    requires Lower(v) == Lower(w)
    ensures GetEnvironment(env["MLFLOW_ENV" := v]) == GetEnvironment(env["MLFLOW_ENV" := w])
  {
  }

  /** A lower-case `MLFLOW_ENV` is the environment itself. */
  lemma EnvironmentKeepsLowerCase(env: Env, v: string)
    requires Lower(v) == v
    ensures GetEnvironment(env["MLFLOW_ENV" := v]) == v
  {
  }

  function DevelopmentConfig(root: string): Settings {
    Settings("file://" + root + "/mlruns", root + "/mlruns", None)
  }

  function StagingConfig(env: Env, root: string): Settings {
    var trackingUri := GetEnv(env, "MLFLOW_TRACKING_URI");
    if Truthy(trackingUri) then
      Settings(trackingUri.value, ArtifactLocation(env, root), GetEnv(env, "MLFLOW_DB_URI"))
    else
      var dbUri := GetEnvOr(env, "MLFLOW_DB_URI", "sqlite:///" + root + "/mlflow.db");
      Settings(dbUri, root + "/mlruns", Some(dbUri))
  }

  function ProductionConfig(env: Env, root: string): Result<Settings, ConfigError> {
    var trackingUri := GetEnv(env, "MLFLOW_TRACKING_URI");
    var dbUri := GetEnv(env, "MLFLOW_DB_URI");
    if !Truthy(trackingUri) && !Truthy(dbUri) then Err(NoProductionTrackingUri)
    else
      var uri := if Truthy(trackingUri) then trackingUri.value else dbUri.value;
      Ok(Settings(uri, ArtifactLocation(env, root), dbUri))
  }

  /** `value` with `scheme` in front, unless it already starts with it. */
  function WithScheme(value: string, scheme: string): (r: string)
    ensures StartsWith(r, scheme)
    ensures StartsWith(value, scheme) ==> r == value
    ensures !StartsWith(value, scheme) ==> r == scheme + value
  {
    StartsWithAppend(scheme, value);
    if StartsWith(value, scheme) then value else scheme + value
  }

  /** Artifact storage: S3, then Azure, then GCS, then the local `mlruns` directory. */
  function ArtifactLocation(env: Env, root: string): (r: string)
    ensures Truthy(GetEnv(env, "MLFLOW_S3_BUCKET")) ==> r == WithScheme(env["MLFLOW_S3_BUCKET"], "s3://")
    ensures (!Truthy(GetEnv(env, "MLFLOW_S3_BUCKET")) && Truthy(GetEnv(env, "MLFLOW_AZURE_CONTAINER")))
              ==> r == env["MLFLOW_AZURE_CONTAINER"]
    ensures (!Truthy(GetEnv(env, "MLFLOW_S3_BUCKET")) && !Truthy(GetEnv(env, "MLFLOW_AZURE_CONTAINER"))
             && Truthy(GetEnv(env, "MLFLOW_GCS_BUCKET")))
              ==> r == WithScheme(env["MLFLOW_GCS_BUCKET"], "gs://")
    ensures (!Truthy(GetEnv(env, "MLFLOW_S3_BUCKET")) && !Truthy(GetEnv(env, "MLFLOW_AZURE_CONTAINER"))
             && !Truthy(GetEnv(env, "MLFLOW_GCS_BUCKET")))
              ==> r == root + "/mlruns"
  {
    var s3 := GetEnv(env, "MLFLOW_S3_BUCKET");
    var azure := GetEnv(env, "MLFLOW_AZURE_CONTAINER");
    var gcs := GetEnv(env, "MLFLOW_GCS_BUCKET");
    if Truthy(s3) then WithScheme(s3.value, "s3://")
    else if Truthy(azure) then azure.value
    else if Truthy(gcs) then WithScheme(gcs.value, "gs://")
    else root + "/mlruns"
  }

  /**
   * Feeding a resolved S3 location back in as the bucket changes nothing:
   * the scheme is added exactly once.
   */
  lemma {:induction false} S3LocationIsStable(env: Env, root: string)
    requires Truthy(GetEnv(env, "MLFLOW_S3_BUCKET"))
    ensures ArtifactLocation(env["MLFLOW_S3_BUCKET" := ArtifactLocation(env, root)], root)
         == ArtifactLocation(env, root)
  {
    var loc := ArtifactLocation(env, root);
    var env' := env["MLFLOW_S3_BUCKET" := loc];
    assert StartsWith(loc, "s3://");
    assert GetEnv(env', "MLFLOW_S3_BUCKET") == Some(loc);
  }

  /** The whole configuration for the selected environment. */
  function GetMlflowConfig(env: Env, root: string): (r: Result<Config, ConfigError>)
    ensures r.Ok? ==> r.value.environment == GetEnvironment(env)
    ensures r.Ok? ==> r.value.experimentName == GetEnvOr(env, "MLFLOW_EXPERIMENT_NAME", DefaultExperimentName)
    ensures r.Err? <==> GetEnvironment(env) == "production"
                        && !Truthy(GetEnv(env, "MLFLOW_TRACKING_URI")) && !Truthy(GetEnv(env, "MLFLOW_DB_URI"))
  {
    var environment := GetEnvironment(env);
    var name := GetEnvOr(env, "MLFLOW_EXPERIMENT_NAME", DefaultExperimentName);
    var settings :=
      if environment == "production" then ProductionConfig(env, root)
      else if environment == "staging" then Ok(StagingConfig(env, root))
      else Ok(DevelopmentConfig(root));
    match settings
    case Ok(s) => Ok(Config(environment, name, s.trackingUri, s.artifactLocation, s.backendStoreUri))
    case Err(e) => Err(e)
  }

  /** Every environment other than production and staging gets the local development setup. */
  lemma {:induction false} OtherEnvironmentsAreDevelopment(env: Env, root: string)
    requires GetEnvironment(env) != "production" && GetEnvironment(env) != "staging"
    ensures GetMlflowConfig(env, root).Ok?
    ensures var c := GetMlflowConfig(env, root).value;
      c.trackingUri == "file://" + root + "/mlruns" && c.artifactLocation == root + "/mlruns"
      && c.backendStoreUri.None?
  {
  }

  /** Staging without a tracking server tracks into its database and uses it as backend store. */
  lemma StagingWithoutServer(env: Env, root: string)
    requires GetEnvironment(env) == "staging" && !Truthy(GetEnv(env, "MLFLOW_TRACKING_URI"))
    ensures GetMlflowConfig(env, root).Ok?
    ensures var c := GetMlflowConfig(env, root).value;
      c.trackingUri == GetEnvOr(env, "MLFLOW_DB_URI", "sqlite:///" + root + "/mlflow.db")
      && c.backendStoreUri == Some(c.trackingUri) && c.artifactLocation == root + "/mlruns"
  {
  }

  /** Staging with a tracking server uses it, with the cloud artifact location. */
  lemma StagingWithServer(env: Env, root: string)
    requires GetEnvironment(env) == "staging" && Truthy(GetEnv(env, "MLFLOW_TRACKING_URI"))
    ensures GetMlflowConfig(env, root).Ok?
    ensures var c := GetMlflowConfig(env, root).value;
      c.trackingUri == env["MLFLOW_TRACKING_URI"] && c.artifactLocation == ArtifactLocation(env, root)
      && c.backendStoreUri == GetEnv(env, "MLFLOW_DB_URI")
  {
  }

  /**
   * Production tracks into `MLFLOW_TRACKING_URI`, else `MLFLOW_DB_URI`; the
   * backend store is always `MLFLOW_DB_URI`, set or not.
   */
  lemma ProductionChoice(env: Env, root: string)
    requires GetEnvironment(env) == "production"
    requires Truthy(GetEnv(env, "MLFLOW_TRACKING_URI")) || Truthy(GetEnv(env, "MLFLOW_DB_URI"))
    ensures GetMlflowConfig(env, root).Ok?
    ensures var c := GetMlflowConfig(env, root).value;
      && (Truthy(GetEnv(env, "MLFLOW_TRACKING_URI")) ==> c.trackingUri == env["MLFLOW_TRACKING_URI"])
      && (!Truthy(GetEnv(env, "MLFLOW_TRACKING_URI")) ==> c.trackingUri == env["MLFLOW_DB_URI"])
      && c.backendStoreUri == GetEnv(env, "MLFLOW_DB_URI")
      && c.artifactLocation == ArtifactLocation(env, root)
  {
  }

  function DefaultPort(dbType: string): string {
    if dbType == "postgresql" then "5432" else "3306"
  }

  /**
   * The backend database URI from its parts. `quote` stands for the URL
   * encoding applied to the password.
   */
  function GetDatabaseUri(env: Env, dbType: string, quote: string -> string): (r: Result<string, DbError>)
    ensures GetEnvOr(env, "MLFLOW_DB_PASSWORD", "") == "" ==> r == Err(MissingPassword)
    ensures GetEnvOr(env, "MLFLOW_DB_PASSWORD", "") != "" ==>
              (r.Ok? <==> dbType == "postgresql" || dbType == "mysql")
    ensures r.Err? && GetEnvOr(env, "MLFLOW_DB_PASSWORD", "") != "" ==> r.error == UnsupportedDbType(dbType)
    ensures r.Ok? && dbType == "postgresql" ==> StartsWith(r.value, "postgresql://")
    ensures r.Ok? && dbType == "mysql" ==> StartsWith(r.value, "mysql+pymysql://")
  {
    var host := GetEnvOr(env, "MLFLOW_DB_HOST", "localhost");
    var port := GetEnvOr(env, "MLFLOW_DB_PORT", DefaultPort(dbType));
    var name := GetEnvOr(env, "MLFLOW_DB_NAME", "mlflow");
    var user := GetEnvOr(env, "MLFLOW_DB_USER", "mlflow");
    var password := GetEnvOr(env, "MLFLOW_DB_PASSWORD", "");
    if password == "" then Err(MissingPassword)
    else
      var rest := user + ":" + quote(password) + "@" + host + ":" + port + "/" + name;
      StartsWithAppend("postgresql://", rest);
      StartsWithAppend("mysql+pymysql://", rest);
      if dbType == "postgresql" then Ok("postgresql://" + rest)
      else if dbType == "mysql" then Ok("mysql+pymysql://" + rest)
      else Err(UnsupportedDbType(dbType))
  }

  /**
   * Once a password is set, the URI is `user:password@host:port/name` behind
   * the scheme of its type, each part from its variable or its default: user
   * and database "mlflow", host "localhost", port 5432 for PostgreSQL and
   * 3306 for MySQL. The password appears only as encoded by `quote`.
   */
  lemma DatabaseUriParts(env: Env, quote: string -> string)
    requires GetEnvOr(env, "MLFLOW_DB_PASSWORD", "") != ""
    ensures var login := GetEnvOr(env, "MLFLOW_DB_USER", "mlflow") + ":" + quote(env["MLFLOW_DB_PASSWORD"])
                         + "@" + GetEnvOr(env, "MLFLOW_DB_HOST", "localhost") + ":";
            var name := "/" + GetEnvOr(env, "MLFLOW_DB_NAME", "mlflow");
      && GetDatabaseUri(env, "postgresql", quote)
         == Ok("postgresql://" + login + GetEnvOr(env, "MLFLOW_DB_PORT", "5432") + name)
      && GetDatabaseUri(env, "mysql", quote)
         == Ok("mysql+pymysql://" + login + GetEnvOr(env, "MLFLOW_DB_PORT", "3306") + name)
  {
    var u, q := GetEnvOr(env, "MLFLOW_DB_USER", "mlflow"), quote(env["MLFLOW_DB_PASSWORD"]);
    var h, n := GetEnvOr(env, "MLFLOW_DB_HOST", "localhost"), GetEnvOr(env, "MLFLOW_DB_NAME", "mlflow");
    var login := u + ":" + q + "@" + h + ":";
    forall scheme: string, port: string
      ensures scheme + (u + ":" + q + "@" + h + ":" + port + "/" + n) == scheme + login + port + ("/" + n)
    {
      assert u + ":" + q + "@" + h + ":" + port + "/" + n == login + port + ("/" + n);
    }
  }

  /** With nothing but a password set, every other part takes its default. */
  lemma OnlyPasswordSet(password: string)
    ensures var env := map["MLFLOW_DB_PASSWORD" := password];
      && GetEnvOr(env, "MLFLOW_DB_HOST", "localhost") == "localhost"
      && (forall d :: GetEnvOr(env, "MLFLOW_DB_PORT", d) == d)
      && GetEnvOr(env, "MLFLOW_DB_NAME", "mlflow") == "mlflow"
      && GetEnvOr(env, "MLFLOW_DB_USER", "mlflow") == "mlflow"
      && GetEnvOr(env, "MLFLOW_DB_PASSWORD", "") == password
  {
    assert |"MLFLOW_DB_HOST"| != |"MLFLOW_DB_PASSWORD"| && |"MLFLOW_DB_PORT"| != |"MLFLOW_DB_PASSWORD"|;
    assert |"MLFLOW_DB_NAME"| != |"MLFLOW_DB_PASSWORD"| && |"MLFLOW_DB_USER"| != |"MLFLOW_DB_PASSWORD"|;
  }

  /** With nothing but a password set, a PostgreSQL URI points at the local default database. */
  lemma PostgresUriDefaults(password: string, quote: string -> string)
    requires password != ""
    ensures GetDatabaseUri(map["MLFLOW_DB_PASSWORD" := password], "postgresql", quote)
         == Ok("postgresql://mlflow:" + quote(password) + "@localhost:5432/mlflow")
  {
    OnlyPasswordSet(password);
    var q := quote(password);
    assert "postgresql://" + ("mlflow" + ":" + q + "@" + "localhost" + ":" + "5432" + "/" + "mlflow")
        == "postgresql://mlflow:" + q + "@localhost:5432/mlflow";
  }

  /** With nothing but a password set, a MySQL URI points at the local default database. */
  lemma MysqlUriDefaults(password: string, quote: string -> string)
    requires password != ""
    ensures GetDatabaseUri(map["MLFLOW_DB_PASSWORD" := password], "mysql", quote)
         == Ok("mysql+pymysql://mlflow:" + quote(password) + "@localhost:3306/mlflow")
  {
    OnlyPasswordSet(password);
    var q := quote(password);
    assert "mysql+pymysql://" + ("mlflow" + ":" + q + "@" + "localhost" + ":" + "3306" + "/" + "mlflow")
        == "mysql+pymysql://mlflow:" + q + "@localhost:3306/mlflow";
  }
}

=== FILE: register_models.dfy ===
/**
 * Registration of trained models: for each of the latest runs of the
 * training experiment that has a model artifact, register a new version
 * under a name derived from the run's model type, tag it, and move it to
 * Production or Staging by its test ROC-AUC.
 *
 * The runs are read from a tracking store; the versions are written to a
 * model registry, modelled as a map from registered-model name to its
 * versions in order, version n being at position n - 1.
 */
module RegisterModels {
  import opened Wrappers
  import opened Strings
  import opened TrackingStore

  const ExperimentName := "heart-disease-prediction"
  const MaxRuns := 10
  const ProductionThreshold: real := 0.95

  // ---------------------------------------------------------------------
  // The search result as a table
  // ---------------------------------------------------------------------

  /**
   * One cell of the search result's table: the column does not exist (no
   * listed run has the key), the run has no value in it (`None` in a param
   * column, NaN in a metric column), or a value.
   */
  datatype Cell<T> = Absent | Missing | Value(value: T)

  datatype Row = Row(runId: string, modelType: Cell<string>, testRocAuc: Cell<real>)

  function ParamCell(runs: seq<Run>, run: Run, key: string): (c: Cell<string>)
    ensures c.Absent? <==> forall r :: r in runs ==> key !in r.params
    ensures c.Value? <==> key in run.params && !c.Absent?
    ensures c.Value? ==> c.value == run.params[key]
  {
    if forall r :: r in runs ==> key !in r.params then Absent
    else if key in run.params then Value(run.params[key])
    else Missing
  }

  function MetricCell(runs: seq<Run>, run: Run, key: string): (c: Cell<real>)
    ensures c.Absent? <==> forall r :: r in runs ==> key !in r.metrics
    ensures c.Value? <==> key in run.metrics && !c.Absent?
    ensures c.Value? ==> c.value == run.metrics[key]
  {
    if forall r :: r in runs ==> key !in r.metrics then Absent
    else if key in run.metrics then Value(run.metrics[key])
    else Missing
  }

  /** The table the run search returns: one row per run, in order. */
  function Frame(runs: seq<Run>): (rows: seq<Row>)
    ensures |rows| == |runs|
    ensures forall i :: 0 <= i < |runs| ==>
              rows[i] == Row(runs[i].id, ParamCell(runs, runs[i], "model_type"),
                             MetricCell(runs, runs[i], "test_roc_auc"))
  {
    seq(|runs|, i requires 0 <= i < |runs| =>
      Row(runs[i].id, ParamCell(runs, runs[i], "model_type"), MetricCell(runs, runs[i], "test_roc_auc")))
  }

  /**
   * `row.get('params.model_type', 'unknown')`: the default applies only when
   * the column is absent; a missing param is `None`, not a string, and
   * lower-casing it raises, which is `None` here too.
   */
  function ModelTypeOf(cell: Cell<string>): (r: Option<string>)
    ensures cell.Absent? ==> r == Some("unknown")
    ensures cell.Value? ==> r == Some(cell.value)
    ensures r.None? <==> cell.Missing?
  {
    match cell
    case Absent => Some("unknown")
    case Missing => None
    case Value(t) => Some(t)
  }

  /** `str(roc_auc)`: "0" for the default, "nan" for a missing (NaN) metric, else the float's text. */
  function RocText(cell: Cell<real>, floatText: real -> string): (r: string)
    ensures cell.Absent? ==> r == "0"
    ensures cell.Missing? ==> r == "nan"
    ensures cell.Value? ==> r == floatText(cell.value)
  {
    match cell
    case Absent => "0"
    case Missing => "nan"
    case Value(v) => floatText(v)
  }

  // ---------------------------------------------------------------------
  // Naming and staging
  // ---------------------------------------------------------------------

  /** The registered-model name of a model type. */
  function ModelName(modelType: string): (r: string)
    ensures StartsWith(r, "heart-disease-")
    ensures modelType == "LogisticRegression" ==> r == "heart-disease-logistic-regression"
    ensures modelType == "RandomForest" ==> r == "heart-disease-random-forest"
    ensures modelType != "LogisticRegression" && modelType != "RandomForest" ==>
              r == "heart-disease-" + Lower(modelType)
  {
    StartsWithAppend("heart-disease-", Lower(modelType));
    StartsWithAppend("heart-disease-", "logistic-regression");
    StartsWithAppend("heart-disease-", "random-forest");
    if modelType == "LogisticRegression" then "heart-disease-logistic-regression"
    else if modelType == "RandomForest" then "heart-disease-random-forest"
    else "heart-disease-" + Lower(modelType)
  }

  /** Two different model types can land in the same registered model. */
  lemma ModelNameNotInjective()
    ensures ModelName("LogisticRegression") == ModelName("logistic-regression")
  {
    LowerKeepsLowerCase("logistic-regression");
    assert "heart-disease-" + "logistic-regression" == "heart-disease-logistic-regression";
  }

  lemma LowerKeepsLowerCase(s: string)
    requires forall i :: 0 <= i < |s| ==> 'a' <= s[i] <= 'z' || s[i] == '-'
    ensures Lower(s) == s
  {
  }

  datatype Stage = NoStage | Staging | Production

  /** Production exactly when the test ROC-AUC is above the threshold; a missing value never is. */
  function StageFor(roc: Cell<real>): (s: Stage)
    ensures s == Production <==> roc.Value? && roc.value > ProductionThreshold
    ensures s != Production ==> s == Staging
  {
    if roc.Value? && roc.value > ProductionThreshold then Production else Staging
  }

  function ModelUri(runId: string): (r: string)
    ensures StartsWith(r, "runs:/") && |r| == |runId| + 12
    ensures r[6..|r| - 6] == runId && r[|r| - 6..] == "/model"
  {
    StartsWithAppend("runs:/", runId + "/model");
    "runs:/" + runId + "/model"
  }

  function VersionTags(modelType: string, rocText: string, runId: string): map<string, string> {
    map["model_type" := modelType, "test_roc_auc" := rocText, "run_id" := runId]
  }

  /** Whether any artifact path contains "model" as a substring. */
  predicate HasModel(paths: set<string>) {
    exists p :: p in paths && Contains(p, "model")
  }

  // ---------------------------------------------------------------------
  // The model registry
  // ---------------------------------------------------------------------

  datatype ModelVersion = ModelVersion(source: string, tags: map<string, string>, stage: Stage)

  datatype RegistryCall =
    | RegisterModel(name: string, source: string)
    | TransitionStage(name: string, version: nat, stage: Stage)

  function Versions(models: map<string, seq<ModelVersion>>, name: string): seq<ModelVersion> {
    if name in models then models[name] else []
  }

  class Registry {
    /** Each registered model's versions; version n is at position n - 1. */
    var models: map<string, seq<ModelVersion>>
    const fails: RegistryCall -> bool

    constructor (models: map<string, seq<ModelVersion>>, fails: RegistryCall -> bool)
      ensures this.models == models && this.fails == fails
    {
      this.models := models;
      this.fails := fails;
    }

    /** Adds a new version, creating the registered model if need be. */
    method RegisterModel(source: string, name: string, tags: map<string, string>)
      returns (ok: bool, version: nat)
      modifies this
      ensures ok == !fails(RegistryCall.RegisterModel(name, source))
      ensures ok ==> version == |Versions(old(models), name)| + 1
      ensures ok ==> models == old(models)[name := Versions(old(models), name) + [ModelVersion(source, tags, NoStage)]]
      ensures !ok ==> models == old(models)
    {
      ok := !fails(RegistryCall.RegisterModel(name, source));
      if ok {
        version := |Versions(models, name)| + 1;
        models := models[name := Versions(models, name) + [ModelVersion(source, tags, NoStage)]];
      } else {
        version := 0;
      }
    }

    /** Moves one version to a stage, leaving every other version where it is. */
    method TransitionStage(name: string, version: nat, stage: Stage) returns (ok: bool)
      modifies this
      ensures ok == (!fails(RegistryCall.TransitionStage(name, version, stage))
                     && name in old(models) && 1 <= version <= |old(models)[name]|)
      ensures ok ==> models == old(models)[name := old(models)[name][version - 1 :=
                                             old(models)[name][version - 1].(stage := stage)]]
      ensures !ok ==> models == old(models)
    {
      if fails(RegistryCall.TransitionStage(name, version, stage)) || name !in models
         || !(1 <= version <= |models[name]|) {
        return false;
      }
      var vs := models[name];
      models := models[name := vs[version - 1 := vs[version - 1].(stage := stage)]];
      ok := true;
    }
  }

  /** A registry that accepts every request. */
  ghost predicate RegistryNoFaults(r: Registry) {
    forall c: RegistryCall :: !r.fails(c)
  }

  // ---------------------------------------------------------------------
  // The registration loop
  // ---------------------------------------------------------------------

  /** What happened to one row. */
  datatype RowOutcome =
    | NoModelArtifact
    | Registered(name: string, version: nat, info: ModelVersion)
    | Errored

  datatype Registration = NoExperiment | NoRuns | Done(registered: nat)

  /** How many rows were registered. */
  function Registrations(outcomes: seq<RowOutcome>): nat {
    if outcomes == [] then 0
    else Registrations(outcomes[..|outcomes| - 1]) + (if outcomes[|outcomes| - 1].Registered? then 1 else 0)
  }

  lemma RegistrationsSnoc(outcomes: seq<RowOutcome>, o: RowOutcome)
    ensures Registrations(outcomes + [o]) == Registrations(outcomes) + (if o.Registered? then 1 else 0)
  {
    assert (outcomes + [o])[..|outcomes|] == outcomes;
  }

  /** The counter never exceeds the number of rows, and counts every registered row. */
  lemma {:induction false} RegistrationsBound(outcomes: seq<RowOutcome>)
    ensures Registrations(outcomes) <= |outcomes|
    ensures (exists j :: 0 <= j < |outcomes| && outcomes[j].Registered?) ==> Registrations(outcomes) > 0
  {
    if outcomes != [] {
      var init := outcomes[..|outcomes| - 1];
      RegistrationsBound(init);
      if exists j :: 0 <= j < |outcomes| && outcomes[j].Registered? {
        var j :| 0 <= j < |outcomes| && outcomes[j].Registered?;
        if j < |init| {
          assert init[j] == outcomes[j];
        }
      }
    }
  }

  /** The version a registered row produced is still in the registry, as recorded. */
  ghost predicate Holds(models: map<string, seq<ModelVersion>>, o: RowOutcome)
    requires o.Registered?
  {
    o.name in models && 1 <= o.version <= |models[o.name]| && models[o.name][o.version - 1] == o.info
  }

  /** No version disappears or moves: every model's versions are a prefix of what they become. */
  ghost predicate Extends(before: map<string, seq<ModelVersion>>, after: map<string, seq<ModelVersion>>) {
    forall name :: name in before ==> name in after && before[name] <= after[name]
  }

  lemma ExtendsTransitive(a: map<string, seq<ModelVersion>>, b: map<string, seq<ModelVersion>>,
                          c: map<string, seq<ModelVersion>>)
    requires Extends(a, b) && Extends(b, c)
    ensures Extends(a, c)
  {
  }

  lemma HoldsExtends(a: map<string, seq<ModelVersion>>, b: map<string, seq<ModelVersion>>, o: RowOutcome)
    requires o.Registered? && Holds(a, o) && Extends(a, b)
    ensures Holds(b, o)
  {
  }

  /** What a registered row's version looks like. */
  ghost predicate RegisteredAsExpected(row: Row, o: RowOutcome, floatText: real -> string)
    requires o.Registered?
  {
    && ModelTypeOf(row.modelType).Some?
    && var modelType := ModelTypeOf(row.modelType).value;
    && o.name == ModelName(modelType)
    && o.info == ModelVersion(ModelUri(row.runId),
                              VersionTags(modelType, RocText(row.testRocAuc, floatText), row.runId),
                              StageFor(row.testRocAuc))
  }

  /**
   * What processing `row` left behind, given the registry `models` as it is
   * now: the row is skipped exactly when its artifacts were listed and none
   * is a model, and a registered row has a model artifact and a version as
   * expected, still in the registry.
   */
  ghost predicate RowDone(store: Store, models: map<string, seq<ModelVersion>>, row: Row, o: RowOutcome,
                          floatText: real -> string)
    reads store
  {
    && (o == NoModelArtifact <==>
          !store.fails(Call.ListArtifacts(row.runId)) && !HasModel(store.ArtifactsOf(row.runId)))
    && (o.Registered? ==>
          HasModel(store.ArtifactsOf(row.runId)) && RegisteredAsExpected(row, o, floatText) && Holds(models, o))
  }

  /** A row that is registered when nothing raises: it has a model artifact and a known type. */
  ghost predicate Registrable(store: Store, row: Row)
    reads store
  {
    HasModel(store.ArtifactsOf(row.runId)) && ModelTypeOf(row.modelType).Some?
  }

  /** How many of `rows` are registrable. */
  ghost function CountRegistrable(store: Store, rows: seq<Row>): nat
    reads store
  {
    if rows == [] then 0
    else CountRegistrable(store, rows[..|rows| - 1]) + (if Registrable(store, rows[|rows| - 1]) then 1 else 0)
  }

  lemma CountRegistrableSnoc(store: Store, rows: seq<Row>, row: Row)
    ensures CountRegistrable(store, rows + [row])
              == CountRegistrable(store, rows) + (if Registrable(store, row) then 1 else 0)
  {
    assert (rows + [row])[..|rows|] == rows;
  }

  /** Registering a version of `name` from `source`, or moving that version to `stage`, raises. */
  ghost predicate VersionRaises(fails: RegistryCall -> bool, models: map<string, seq<ModelVersion>>,
                                name: string, source: string, stage: Stage)
  {
    || fails(RegistryCall.RegisterModel(name, source))
    || fails(RegistryCall.TransitionStage(name, |Versions(models, name)| + 1, stage))
  }

  /**
   * The requests whose exception turns `row` into an error, given the
   * registry `models` before the row: listing its artifacts; or, for a row
   * with a model artifact, an unknown model type, registering the version or
   * moving that version to its stage.
   */
  ghost predicate RowRaises(store: Store, fails: RegistryCall -> bool, models: map<string, seq<ModelVersion>>,
                            row: Row)
    reads store
  {
    || store.fails(Call.ListArtifacts(row.runId))
    || (&& HasModel(store.ArtifactsOf(row.runId))
        && (|| ModelTypeOf(row.modelType).None?
            || VersionRaises(fails, models, ModelName(ModelTypeOf(row.modelType).value), ModelUri(row.runId),
                             StageFor(row.testRocAuc))))
  }

  lemma RowDoneExtends(store: Store, a: map<string, seq<ModelVersion>>, b: map<string, seq<ModelVersion>>,
                       row: Row, o: RowOutcome, floatText: real -> string)
    requires RowDone(store, a, row, o, floatText) && Extends(a, b)
    ensures RowDone(store, b, row, o, floatText)
  {
    if o.Registered? {
      HoldsExtends(a, b, o);
    }
  }

  /** Every row processed so far is done, against the registry as it is now. */
  ghost predicate RowsDone(store: Store, models: map<string, seq<ModelVersion>>, rows: seq<Row>,
                           outcomes: seq<RowOutcome>, floatText: real -> string)
    reads store
  {
    |outcomes| == |rows| && forall j :: 0 <= j < |rows| ==> RowDone(store, models, rows[j], outcomes[j], floatText)
  }

  lemma RowsDoneSnoc(store: Store, before: map<string, seq<ModelVersion>>, after: map<string, seq<ModelVersion>>,
                     rows: seq<Row>, outcomes: seq<RowOutcome>, row: Row, o: RowOutcome, floatText: real -> string)
    requires RowsDone(store, before, rows, outcomes, floatText) && Extends(before, after)
    requires RowDone(store, after, row, o, floatText)
    ensures RowsDone(store, after, rows + [row], outcomes + [o], floatText)
  {
    forall j | 0 <= j < |rows|
      ensures RowDone(store, after, rows[j], outcomes[j], floatText)
    {
      RowDoneExtends(store, before, after, rows[j], outcomes[j], floatText);
    }
  }

  /**
   * Registers a new version of `name` and moves that version to `stage`;
   * when the second request raises, the version stays registered without a
   * stage.
   */
  method RegisterVersion(registry: Registry, name: string, source: string, tags: map<string, string>, stage: Stage)
    returns (ok: bool, version: nat)
    modifies registry
    ensures ok == !VersionRaises(registry.fails, old(registry.models), name, source, stage)
    ensures Extends(old(registry.models), registry.models)
    ensures ok ==> version == |Versions(old(registry.models), name)| + 1
    ensures ok ==> registry.models == old(registry.models)[name := Versions(old(registry.models), name)
                                                                     + [ModelVersion(source, tags, stage)]]
  {
    ghost var before := Versions(registry.models, name);
    var registered;
    registered, version := registry.RegisterModel(source, name, tags);
    if !registered {
      return false, version;
    }
    assert before <= registry.models[name];
    ok := registry.TransitionStage(name, version, stage);
    if ok {
      assert registry.models[name] == before + [ModelVersion(source, tags, stage)];
      assert before <= registry.models[name];
    }
  }

  /**
   * Processes one row: skip it without a model artifact; otherwise register
   * a version and move it to its stage. Any exception on the way is caught
   * and the row counts as an error.
   */
  method RegisterRow(store: Store, registry: Registry, row: Row, floatText: real -> string)
    returns (o: RowOutcome)
    modifies registry
    ensures Extends(old(registry.models), registry.models)
    ensures RowDone(store, registry.models, row, o, floatText)
    ensures o.Registered? ==> o.version == |Versions(old(registry.models), o.name)| + 1
    ensures o == NoModelArtifact ==> registry.models == old(registry.models)
    ensures o == Errored <==> RowRaises(store, registry.fails, old(registry.models), row)
    ensures NoFaults(store) && RegistryNoFaults(registry) ==> (o.Registered? <==> Registrable(store, row))
  {
    var listed, paths := store.ListArtifacts(row.runId);
    if !listed {
      return Errored;
    }
    if !HasModel(paths) {
      return NoModelArtifact;
    }
    var modelType := ModelTypeOf(row.modelType);
    if modelType.None? {
      return Errored;
    }
    var name := ModelName(modelType.value);
    var uri := ModelUri(row.runId);
    var tags := VersionTags(modelType.value, RocText(row.testRocAuc, floatText), row.runId);
    var stage := StageFor(row.testRocAuc);
    var ok, version := RegisterVersion(registry, name, uri, tags, stage);
    if !ok {
      return Errored;
    }
    o := Registered(name, version, ModelVersion(uri, tags, stage));
  }

  /** The loop over the table's rows; the count is what the summary reports. */
  method RegisterRows(store: Store, registry: Registry, table: seq<Row>, floatText: real -> string)
    returns (registeredCount: nat, ghost outcomes: seq<RowOutcome>)
    modifies registry
    ensures Extends(old(registry.models), registry.models)
    ensures |outcomes| == |table| && registeredCount == Registrations(outcomes)
    ensures registeredCount <= |table|
    ensures forall j :: 0 <= j < |table| ==> RowDone(store, registry.models, table[j], outcomes[j], floatText)
    ensures NoFaults(store) && RegistryNoFaults(registry) ==> registeredCount == CountRegistrable(store, table)
  {
    ghost var quiet := NoFaults(store) && RegistryNoFaults(registry);
    outcomes := [];
    registeredCount := 0;
    var i := 0;
    while i < |table|
      invariant 0 <= i <= |table|
      invariant registeredCount == Registrations(outcomes)
      invariant Extends(old(registry.models), registry.models)
      invariant RowsDone(store, registry.models, table[..i], outcomes, floatText)
      invariant quiet ==> registeredCount == CountRegistrable(store, table[..i])
    {
      ghost var before := registry.models;
      var o := RegisterRow(store, registry, table[i], floatText);
      assert table[..i + 1] == table[..i] + [table[i]];
      RowsDoneSnoc(store, before, registry.models, table[..i], outcomes, table[i], o, floatText);
      CountRegistrableSnoc(store, table[..i], table[i]);
      ExtendsTransitive(old(registry.models), before, registry.models);
      RegistrationsSnoc(outcomes, o);
      if o.Registered? {
        registeredCount := registeredCount + 1;
      }
      outcomes := outcomes + [o];
      i := i + 1;
    }
    assert table[..i] == table;
    RegistrationsBound(outcomes);
  }

  /** The script: find the training experiment, take its latest runs, and process each row. */
  method RegisterAll(store: Store, registry: Registry, floatText: real -> string)
    returns (result: Outcome<Registration>, ghost rows: seq<Row>, ghost outcomes: seq<RowOutcome>)
    modifies registry
    ensures Extends(old(registry.models), registry.models)
    ensures result.Crashed? <==>
              || store.fails(Call.GetExperimentByName(ExperimentName))
              || (&& FindByName(store.experiments, ExperimentName).Some?
                  && store.fails(Call.SearchRuns(FindByName(store.experiments, ExperimentName).value.id)))
    ensures result == Completed(NoRuns) <==>
              && !store.fails(Call.GetExperimentByName(ExperimentName))
              && FindByName(store.experiments, ExperimentName).Some?
              && !store.fails(Call.SearchRuns(FindByName(store.experiments, ExperimentName).value.id))
              && RunsIn(store.runs, FindByName(store.experiments, ExperimentName).value.id) == []
    ensures result == Completed(NoExperiment) <==>
              !store.fails(Call.GetExperimentByName(ExperimentName))
              && FindByName(store.experiments, ExperimentName).None?
    // nothing is registered without an experiment or without runs
    ensures result.Completed? && !result.value.Done? ==> registry.models == old(registry.models)
    ensures result.Completed? && result.value.Done? ==>
              && FindByName(store.experiments, ExperimentName).Some?
              && rows == Frame(Take(RunsIn(store.runs, FindByName(store.experiments, ExperimentName).value.id), MaxRuns))
              && |rows| > 0 && |outcomes| == |rows|
              && result.value.registered == Registrations(outcomes)
              && result.value.registered <= |rows|
    ensures result.Completed? && result.value.Done? ==>
              forall j :: 0 <= j < |rows| ==> RowDone(store, registry.models, rows[j], outcomes[j], floatText)
    // with no exception, a found experiment with runs gets every registrable row registered
    ensures && NoFaults(store) && RegistryNoFaults(registry)
            && FindByName(store.experiments, ExperimentName).Some?
            && RunsIn(store.runs, FindByName(store.experiments, ExperimentName).value.id) != [] ==>
              result == Completed(Done(CountRegistrable(store, rows)))
  {
    rows, outcomes := [], [];
    var looked, experiment := store.GetExperimentByName(ExperimentName);
    if !looked {
      return Crashed, rows, outcomes;
    }
    if experiment.None? {
      return Completed(NoExperiment), rows, outcomes;
    }
    var searched, runs := store.SearchRuns(experiment.value.id);
    if !searched {
      return Crashed, rows, outcomes;
    }
    var table := Frame(Take(runs, MaxRuns));
    rows := table;
    if |table| == 0 {
      return Completed(NoRuns), rows, outcomes;
    }
    var registeredCount;
    registeredCount, outcomes := RegisterRows(store, registry, table, floatText);
    result := Completed(Done(registeredCount));
  }
}

=== FILE: strings.dfy ===
/** The few Python string operations the scripts rely on. */
module Strings {

  /** Python's `s.startswith(p)`. */
  predicate StartsWith(s: string, p: string) {
    |p| <= |s| && s[..|p|] == p
  }

  /** Python's `p in s` on two strings: substring containment. */
  predicate Contains(s: string, p: string)
    decreases |s|
  {
    StartsWith(s, p) || (|s| > 0 && Contains(s[1..], p))
  }

  /** Python's slice `s[:n]`, which never fails on a short sequence. */
  function Take<T>(s: seq<T>, n: nat): (r: seq<T>)
    ensures |r| == if |s| <= n then |s| else n
    ensures r == s[..|r|]
  {
    if |s| <= n then s else s[..n]
  }

  /** Python's `str.lower()`, restricted to the ASCII letters. */
  function LowerChar(c: char): (r: char)
    ensures 'A' <= c <= 'Z' ==> 'a' <= r <= 'z'
    ensures !('A' <= c <= 'Z') ==> r == c
  {
    if 'A' <= c <= 'Z' then (c as int - 'A' as int + 'a' as int) as char else c
  }

  function Lower(s: string): (r: string)
    ensures |r| == |s|
    ensures forall i :: 0 <= i < |s| ==> r[i] == LowerChar(s[i])
  {
    seq(|s|, i requires 0 <= i < |s| => LowerChar(s[i]))
  }

  lemma {:induction false} StartsWithAppend(p: string, t: string)
    ensures StartsWith(p + t, p)
  {
    assert (p + t)[..|p|] == p;
  }
}

=== FILE: tracking_store.dfy ===
/**
 * A tracking store (an MLflow backend reached through a client) as seen by the
 * migration and registration scripts: experiments, runs with their params,
 * metrics and tags, artifact files per run, and the "active run" that the
 * fluent logging API writes into.
 *
 * Whether a request raises is decided by the store's fault oracle `fails`,
 * fixed when the store is created; callers see only the contracts below, in
 * which every request that may raise may also succeed.
 */
module TrackingStore {
  import opened Wrappers

  datatype RunStatus = Scheduled | Running | Finished | Failed | Killed
  datatype LifecycleStage = Active | Deleted

  datatype Experiment = Experiment(id: string, name: string, stage: LifecycleStage)

  /** A run's metadata; `metrics` holds the latest logged value of each metric. */
  datatype Run = Run(
    id: string,
    experimentId: string,
    name: string,
    status: RunStatus,
    params: map<string, string>,
    metrics: map<string, real>,
    tags: map<string, string>)

  /** One request to a store. */
  datatype Call =
    | GetExperimentByName(name: string)
    | CreateExperiment(name: string)
    | SearchExperiments
    | SearchRuns(experimentId: string)
    | StartRun(experimentId: string, runName: string)
    | LogParam(runId: string, key: string, value: string)
    | LogMetric(runId: string, key: string, metricValue: real)
    | SetTag(runId: string, key: string, value: string)
    | DownloadArtifacts(runId: string)
    | LogArtifacts(runId: string)
    | ListArtifacts(runId: string)

  /** The local directory an artifact download produced, and the files in it. */
  datatype LocalCopy = LocalCopy(path: string, files: set<string>)

  /** The local directory a run's artifact tree is downloaded into. */
  function ScratchPath(runId: string): string {
    "downloads/" + runId
  }

  /** The first experiment with the given name, as a name lookup returns it. */
  function FindByName(experiments: seq<Experiment>, name: string): (r: Option<Experiment>)
    ensures r.Some? ==> r.value in experiments && r.value.name == name
    ensures r.None? ==> forall e :: e in experiments ==> e.name != name
  {
    if experiments == [] then None
    else if experiments[0].name == name then Some(experiments[0])
    else FindByName(experiments[1..], name)
  }

  /** The runs of one experiment, in store order, as a run search returns them. */
  function RunsIn(runs: seq<Run>, experimentId: string): (r: seq<Run>)
    ensures forall x :: x in r <==> x in runs && x.experimentId == experimentId
    ensures |r| <= |runs|
  {
    if runs == [] then []
    else
      var rest := RunsIn(runs[1..], experimentId);
      if runs[0].experimentId == experimentId then [runs[0]] + rest else rest
  }

  /**
   * The experiments an experiment search with the default view returns: the
   * active ones, in store order.
   */
  function ActiveOnly(experiments: seq<Experiment>): seq<Experiment> {
    if experiments == [] then []
    else
      var rest := ActiveOnly(experiments[1..]);
      if experiments[0].stage == Active then [experiments[0]] + rest else rest
  }

  /** The listing keeps exactly the active experiments, and never grows. */
  lemma {:induction false} ActiveOnlyExactly(experiments: seq<Experiment>)
    ensures forall e :: e in ActiveOnly(experiments) <==> e in experiments && e.stage == Active
    ensures |ActiveOnly(experiments)| <= |experiments|
  {
    if experiments != [] {
      ActiveOnlyExactly(experiments[1..]);
      assert experiments == [experiments[0]] + experiments[1..];
    }
  }

  /** No request to `s` raises. */
  ghost predicate NoFaults(s: Store) {
    forall c: Call :: !s.fails(c)
  }

  /** No request to `s` raises, except perhaps an artifact upload. */
  ghost predicate NoFaultsButUploads(s: Store) {
    forall c: Call :: !c.LogArtifacts? ==> !s.fails(c)
  }

  ghost function MaxLength(used: set<string>): (n: nat)
    ensures forall s :: s in used ==> |s| <= n
    decreases used
  {
    if used == {} then 0
    else
      var s :| s in used;
      var m := MaxLength(used - {s});
      if |s| > m then |s| else m
  }

  /** A store can always hand out an identifier it has not used yet. */
  lemma FreshIdentifierExists(used: set<string>)
    ensures exists s: string :: s !in used
  {
    var s := seq(MaxLength(used) + 1, _ => 'x');
    assert s !in used;
  }

  /**
   * `writer` has one run open, appended after the runs in `base`. Each write
   * made through the fluent API keeps this shape and changes only the open run.
   */
  ghost predicate OpenAfter(writer: Store, base: seq<Run>)
    reads writer
  {
    && writer.Valid()
    && writer.active == Some(|base|) && |writer.runs| == |base| + 1 && writer.runs[..|base|] == base
  }

  class Store {
    var experiments: seq<Experiment>
    var runs: seq<Run>
    /** Artifact files of each run, by run id. */
    var artifacts: map<string, set<string>>
    /** Index in `runs` of the active run of the fluent API, if one is open. */
    var active: Option<nat>
    const fails: Call -> bool

    ghost predicate Valid()
      reads this
    {
      active.Some? ==> active.value < |runs|
    }

    function RunIds(): set<string>
      reads this
    {
      set r | r in runs :: r.id
    }

    function ExperimentIds(): set<string>
      reads this
    {
      set e | e in experiments :: e.id
    }

    /** The ids of the experiments a run can be started in: deleted ones are refused. */
    function ActiveExperimentIds(): set<string>
      reads this
    {
      set e | e in experiments && e.stage == Active :: e.id
    }

    function ArtifactsOf(runId: string): set<string>
      reads this
    {
      if runId in artifacts then artifacts[runId] else {}
    }

    function ActiveRun(): Run
      reads this
      requires Valid() && active.Some?
    {
      runs[active.value]
    }

    constructor (experiments: seq<Experiment>, runs: seq<Run>,
                 artifacts: map<string, set<string>>, fails: Call -> bool)
      ensures Valid() && active.None?
      ensures this.experiments == experiments && this.runs == runs
      ensures this.artifacts == artifacts && this.fails == fails
    {
      this.experiments := experiments;
      this.runs := runs;
      this.artifacts := artifacts;
      this.active := None;
      this.fails := fails;
    }

    method GetExperimentByName(name: string) returns (ok: bool, found: Option<Experiment>)
      ensures ok == !fails(Call.GetExperimentByName(name))
      ensures ok ==> found == FindByName(experiments, name)
    {
      ok := !fails(Call.GetExperimentByName(name));
      found := if ok then FindByName(experiments, name) else None;
    }

    /** Lists the active experiments only: the default view leaves deleted ones out. */
    method SearchExperiments() returns (ok: bool, listed: seq<Experiment>)
      ensures ok == !fails(Call.SearchExperiments)
      ensures ok ==> listed == ActiveOnly(experiments)
    {
      ok := !fails(Call.SearchExperiments);
      listed := if ok then ActiveOnly(experiments) else [];
    }

    method SearchRuns(experimentId: string) returns (ok: bool, listed: seq<Run>)
      ensures ok == !fails(Call.SearchRuns(experimentId))
      ensures ok ==> listed == RunsIn(runs, experimentId)
    {
      ok := !fails(Call.SearchRuns(experimentId));
      listed := if ok then RunsIn(runs, experimentId) else [];
    }

    /** Fails when asked to, and when the name is already taken. */
    method CreateExperiment(name: string) returns (ok: bool, id: string)
      requires Valid()
      modifies this
      ensures Valid()
      ensures ok == (!fails(Call.CreateExperiment(name)) && FindByName(old(experiments), name).None?)
      ensures ok ==> id !in old(ExperimentIds())
      ensures ok ==> experiments == old(experiments) + [Experiment(id, name, Active)]
      ensures !ok ==> experiments == old(experiments)
      ensures runs == old(runs) && artifacts == old(artifacts) && active == old(active)
    {
      if fails(Call.CreateExperiment(name)) || FindByName(experiments, name).Some? {
        ok, id := false, "";
      } else {
        FreshIdentifierExists(ExperimentIds());
        id :| id !in ExperimentIds();
        experiments := experiments + [Experiment(id, name, Active)];
        ok := true;
      }
    }

    /** Opens a new, empty run; fails when asked to and when the experiment is unknown or deleted. */
    method StartRun(experimentId: string, runName: string) returns (ok: bool, id: string)
      requires Valid() && active.None?
      modifies this
      ensures Valid() && experiments == old(experiments) && artifacts == old(artifacts)
      ensures ok == (!fails(Call.StartRun(experimentId, runName)) && experimentId in old(ActiveExperimentIds()))
      ensures ok ==> id !in old(RunIds()) && id !in old(artifacts)
      ensures ok ==> runs == old(runs) + [Run(id, experimentId, runName, Running, map[], map[], map[])]
      ensures ok ==> active == Some(|old(runs)|)
      ensures !ok ==> runs == old(runs) && active.None?
    {
      if fails(Call.StartRun(experimentId, runName)) || experimentId !in ActiveExperimentIds() {
        ok, id := false, "";
      } else {
        FreshIdentifierExists(RunIds() + artifacts.Keys);
        id :| id !in RunIds() + artifacts.Keys;
        active := Some(|runs|);
        runs := runs + [Run(id, experimentId, runName, Running, map[], map[], map[])];
        ok := true;
      }
    }

    /** Params are write-once: re-logging a key with a different value fails. */
    method LogParam(key: string, value: string) returns (ok: bool)
      requires Valid() && active.Some?
      modifies this
      ensures Valid() && active == old(active)
      ensures experiments == old(experiments) && artifacts == old(artifacts)
      ensures ok == (!fails(Call.LogParam(old(ActiveRun()).id, key, value))
                     && (key in old(ActiveRun()).params ==> old(ActiveRun()).params[key] == value))
      ensures ok ==> runs == old(runs)[active.value :=
                old(ActiveRun()).(params := old(ActiveRun()).params[key := value])]
      ensures !ok ==> runs == old(runs)
    {
      var i := active.value;
      var r := runs[i];
      if fails(Call.LogParam(r.id, key, value)) || (key in r.params && r.params[key] != value) {
        ok := false;
      } else {
        runs := runs[i := r.(params := r.params[key := value])];
        ok := true;
      }
    }

    method LogMetric(key: string, value: real) returns (ok: bool)
      requires Valid() && active.Some?
      modifies this
      ensures Valid() && active == old(active)
      ensures experiments == old(experiments) && artifacts == old(artifacts)
      ensures ok == !fails(Call.LogMetric(old(ActiveRun()).id, key, value))
      ensures ok ==> runs == old(runs)[active.value :=
                old(ActiveRun()).(metrics := old(ActiveRun()).metrics[key := value])]
      ensures !ok ==> runs == old(runs)
    {
      var i := active.value;
      var r := runs[i];
      if fails(Call.LogMetric(r.id, key, value)) {
        ok := false;
      } else {
        runs := runs[i := r.(metrics := r.metrics[key := value])];
        ok := true;
      }
    }

    method SetTag(key: string, value: string) returns (ok: bool)
      requires Valid() && active.Some?
      modifies this
      ensures Valid() && active == old(active)
      ensures experiments == old(experiments) && artifacts == old(artifacts)
      ensures ok == !fails(Call.SetTag(old(ActiveRun()).id, key, value))
      ensures ok ==> runs == old(runs)[active.value :=
                old(ActiveRun()).(tags := old(ActiveRun()).tags[key := value])]
      ensures !ok ==> runs == old(runs)
    {
      var i := active.value;
      var r := runs[i];
      if fails(Call.SetTag(r.id, key, value)) {
        ok := false;
      } else {
        runs := runs[i := r.(tags := r.tags[key := value])];
        ok := true;
      }
    }

    /** Uploads a local directory's files into the active run's artifacts. */
    method LogArtifacts(files: set<string>) returns (ok: bool)
      requires Valid() && active.Some?
      modifies this
      ensures Valid() && active == old(active)
      ensures experiments == old(experiments) && runs == old(runs)
      ensures ok == !fails(Call.LogArtifacts(old(ActiveRun()).id))
      ensures ok ==> artifacts == old(artifacts)[old(ActiveRun()).id :=
                old(ArtifactsOf(ActiveRun().id)) + files]
      ensures !ok ==> artifacts == old(artifacts)
    {
      var id := runs[active.value].id;
      if fails(Call.LogArtifacts(id)) {
        ok := false;
      } else {
        artifacts := artifacts[id := ArtifactsOf(id) + files];
        ok := true;
      }
    }

    /** Closes the active run with the given final status; never fails. */
    method EndRun(status: RunStatus)
      requires Valid() && active.Some?
      modifies this
      ensures Valid() && active.None?
      ensures experiments == old(experiments) && artifacts == old(artifacts)
      ensures runs == old(runs)[old(active).value := old(ActiveRun()).(status := status)]
    {
      var i := active.value;
      runs := runs[i := runs[i].(status := status)];
      active := None;
    }

    /** The artifact paths of a run. */
    method ListArtifacts(runId: string) returns (ok: bool, paths: set<string>)
      ensures ok == !fails(Call.ListArtifacts(runId))
      ensures ok ==> paths == ArtifactsOf(runId)
    {
      ok := !fails(Call.ListArtifacts(runId));
      paths := if ok then ArtifactsOf(runId) else {};
    }

    /** Downloads a run's whole artifact tree into a local scratch directory. */
    method DownloadArtifacts(runId: string) returns (ok: bool, copy: LocalCopy)
      ensures ok == !fails(Call.DownloadArtifacts(runId))
      ensures ok ==> copy.files == ArtifactsOf(runId)
      ensures copy.path == ScratchPath(runId)
    {
      ok := !fails(Call.DownloadArtifacts(runId));
      copy := LocalCopy(ScratchPath(runId), if ok then ArtifactsOf(runId) else {});
    }
  }
}

=== FILE: train.dfy ===
/**
 * The training pipeline: a logistic regression and a random forest, each
 * tuned, evaluated and tracked in its own run; the winner by test ROC-AUC;
 * and the pickled models with their metadata saved under the model
 * directory.
 *
 * Fitting, the grid search, cross-validation and the metric computations are
 * library numerics. Their results enter the model as a `Fitted` value: the
 * fitted estimator (an opaque handle), the best hyperparameters already
 * rendered as the text the tracking store keeps, the best cross-validation
 * score, and the five scores on each of the training split, the test split
 * and the cross-validation folds.
 */
module Train {
  import opened Wrappers
  import opened Strings
  import opened TrackingStore

  const LogisticRegression := "logistic_regression"
  const RandomForest := "random_forest"
  const BestModel := "best_model"
  /** The metadata timestamp, written as a fixed text. */
  const Timestamp := "2025-12-24 08:49:33"
  const BestPrefix := "best_"
  /** What `log_model(best_model, "model")` leaves among a run's artifacts. */
  const ModelArtifacts: set<string> := {"model"}

  /** An opaque handle for a fitted estimator. */
  type Estimator = nat

  /** The five scores computed on one split (or averaged over the folds). */
  datatype Scores = Scores(accuracy: real, precision: real, recall: real, f1: real, rocAuc: real)

  /** The scores on the training split, on the test split, and over the cross-validation folds. */
  datatype Evaluation = Evaluation(train: Scores, test: Scores, cv: Scores)

  /**
   * What the library hands back for one model: the fitted estimator, the
   * grid search's best params and score, and the two metric dictionaries
   * (the evaluation's and the cross-validation's).
   */
  datatype Fitted = Fitted(
    model: Estimator,
    bestParams: map<string, string>,
    bestCvScore: real,
    evaluation: map<string, real>,
    crossValidation: map<string, real>)

  /** What a training function returns: the best model, its metrics and its best params. */
  datatype Trained = Trained(model: Estimator, metrics: map<string, real>, params: map<string, string>)

  // ---------------------------------------------------------------------
  // Metric dictionaries
  // ---------------------------------------------------------------------

  const EvaluationKeys: set<string> := {
    "train_accuracy", "train_precision", "train_recall", "train_f1", "train_roc_auc",
    "test_accuracy", "test_precision", "test_recall", "test_f1", "test_roc_auc"}

  const CrossValidationKeys: set<string> := {
    "cv_accuracy", "cv_precision", "cv_recall", "cv_f1", "cv_roc_auc"}

  /** The dictionary the evaluation builds from the scores on the two splits. */
  function EvaluationMetrics(train: Scores, test: Scores): (m: map<string, real>)
    ensures m.Keys == EvaluationKeys
  {
    map["train_accuracy" := train.accuracy, "train_precision" := train.precision,
        "train_recall" := train.recall, "train_f1" := train.f1, "train_roc_auc" := train.rocAuc,
        "test_accuracy" := test.accuracy, "test_precision" := test.precision,
        "test_recall" := test.recall, "test_f1" := test.f1, "test_roc_auc" := test.rocAuc]
  }

  /** The dictionary the cross-validation builds from the mean fold scores. */
  function CrossValidationMetrics(cv: Scores): (m: map<string, real>)
    ensures m.Keys == CrossValidationKeys
  {
    map["cv_accuracy" := cv.accuracy, "cv_precision" := cv.precision, "cv_recall" := cv.recall,
        "cv_f1" := cv.f1, "cv_roc_auc" := cv.rocAuc]
  }

  /** The two dictionaries of `fit` are the ones the evaluation and the cross-validation build. */
  predicate Scored(fit: Fitted, e: Evaluation) {
    fit.evaluation == EvaluationMetrics(e.train, e.test) && fit.crossValidation == CrossValidationMetrics(e.cv)
  }

  /** The evaluation dictionary after `update` with the cross-validation one. */
  function Metrics(fit: Fitted): map<string, real> {
    fit.evaluation + fit.crossValidation
  }

  /** Every evaluation key starts with 't', every cross-validation key with 'c'. */
  lemma KeyInitials()
    ensures forall k :: k in EvaluationKeys ==> |k| > 0 && k[0] == 't'
    ensures forall k :: k in CrossValidationKeys ==> |k| > 0 && k[0] == 'c'
  {
  }

  lemma KeyCounts()
    ensures |EvaluationKeys| == 10 && |CrossValidationKeys| == 5
  {
  }

  /** The merged dictionary has exactly the evaluation keys and the cross-validation keys. */
  lemma MetricsKeys(fit: Fitted, e: Evaluation)
    requires Scored(fit, e)
    ensures Metrics(fit).Keys == EvaluationKeys + CrossValidationKeys
  {
  }

  /** No key is both an evaluation key and a cross-validation key. */
  lemma KeysDisjoint()
    ensures EvaluationKeys !! CrossValidationKeys
  {
    KeyInitials();
    assert EvaluationKeys * CrossValidationKeys == {};
  }

  /**
   * The merge overwrites nothing: the two key sets are disjoint, the result
   * has all fifteen keys, and each value is the one its own dictionary had.
   */
  lemma MetricsMerge(fit: Fitted, e: Evaluation)
    requires Scored(fit, e)
    ensures EvaluationKeys !! CrossValidationKeys
    ensures Metrics(fit).Keys == EvaluationKeys + CrossValidationKeys
    ensures |Metrics(fit).Keys| == 15
    ensures forall k :: k in EvaluationKeys ==> Metrics(fit)[k] == fit.evaluation[k]
    ensures forall k :: k in CrossValidationKeys ==> Metrics(fit)[k] == fit.crossValidation[k]
    ensures Metrics(fit)["test_roc_auc"] == e.test.rocAuc
  {
    MetricsKeys(fit, e);
    KeysDisjoint();
    KeyCounts();
    TestRocAuc(fit, e);
  }

  /** Everything a training run logs as a metric. */
  function LoggedMetrics(fit: Fitted): map<string, real> {
    map["best_cv_score" := fit.bestCvScore] + Metrics(fit)
  }

  /** The best cross-validation score is kept beside the fifteen metrics, not over one of them. */
  lemma LoggedMetricsKeepBestScore(fit: Fitted, e: Evaluation)
    requires Scored(fit, e)
    ensures "best_cv_score" !in Metrics(fit)
    ensures LoggedMetrics(fit).Keys == Metrics(fit).Keys + {"best_cv_score"}
    ensures LoggedMetrics(fit)["best_cv_score"] == fit.bestCvScore
    ensures forall k :: k in Metrics(fit) ==> LoggedMetrics(fit)[k] == Metrics(fit)[k]
  {
    MetricsKeys(fit, e);
    NotAMetricKey("best_cv_score");
    var m := Metrics(fit);
    assert "best_cv_score" !in m;
  }

  /** A key starting with neither 't' nor 'c' is none of the fifteen metric keys. */
  lemma NotAMetricKey(key: string)
    requires |key| > 0 && key[0] != 't' && key[0] != 'c'
    ensures key !in EvaluationKeys + CrossValidationKeys
  {
    KeyInitials();
  }

  // ---------------------------------------------------------------------
  // Logged params
  // ---------------------------------------------------------------------

  /** The param name a best hyperparameter is logged under. */
  function BestParamName(param: string): (r: string)
    ensures StartsWith(r, BestPrefix) && r[|BestPrefix|..] == param
  {
    StartsWithAppend(BestPrefix, param);
    BestPrefix + param
  }

  /** Different hyperparameters are logged under different names. */
  lemma BestParamNameInjective()
    ensures forall p, q {:trigger BestParamName(p), BestParamName(q)} ::
              BestParamName(p) == BestParamName(q) ==> p == q
  {
  }

  /** The best hyperparameters under their logged names. */
  function BestParamMap(best: map<string, string>): map<string, string> {
    BestParamNameInjective();
    map p | p in best :: BestParamName(p) := best[p]
  }

  /** Every best param is in the map under its `best_` name, and nothing else is. */
  lemma BestParamMapEntries(best: map<string, string>)
    ensures forall p :: p in best ==> BestParamName(p) in BestParamMap(best)
                                      && BestParamMap(best)[BestParamName(p)] == best[p]
    ensures forall k :: k in BestParamMap(best) ==>
              StartsWith(k, BestPrefix) && k[|BestPrefix|..] in best
              && BestParamMap(best)[k] == best[k[|BestPrefix|..]]
  {
  }

  /** Everything a training run logs as a param. */
  function LoggedParams(modelType: string, best: map<string, string>, topFeatures: Option<string>)
    : map<string, string>
  {
    var params := map["model_type" := modelType] + BestParamMap(best);
    if topFeatures.Some? then params["top_10_features" := topFeatures.value] else params
  }

  /**
   * Each best hyperparameter is logged once, under its `best_` name and with
   * its value unchanged; besides them there are only the model type and, for
   * the forest, the top features, and neither of those is overwritten.
   */
  lemma LoggedParamsExactly(modelType: string, best: map<string, string>, topFeatures: Option<string>)
    ensures LoggedParams(modelType, best, topFeatures)["model_type"] == modelType
    ensures topFeatures.Some? ==> LoggedParams(modelType, best, topFeatures)["top_10_features"] == topFeatures.value
    ensures forall p :: p in best ==>
              LoggedParams(modelType, best, topFeatures)[BestParamName(p)] == best[p]
    ensures forall k :: k in LoggedParams(modelType, best, topFeatures) ==>
              k == "model_type" || (k == "top_10_features" && topFeatures.Some?)
              || (StartsWith(k, BestPrefix) && k[|BestPrefix|..] in best)
  {
    BestParamMapEntries(best);
    NotBestParamName("model_type");
    NotBestParamName("top_10_features");
  }

  /** The top-feature param never collides with a param logged before it. */
  lemma TopFeaturesUnused(modelType: string, best: map<string, string>)
    ensures "top_10_features" !in map["model_type" := modelType] + BestParamMap(best)
  {
    NotBestParamName("top_10_features");
    BestParamMapEntries(best);
  }

  /** A name not starting with 'b' is no `best_` name. */
  lemma NotBestParamName(key: string)
    requires |key| > 0 && key[0] != 'b'
    ensures !StartsWith(key, BestPrefix)
  {
    assert BestPrefix[0] == 'b';
  }

  // ---------------------------------------------------------------------
  // Logging into the open run
  // ---------------------------------------------------------------------

  /** The loop over the grid search's best params: one `best_` param each. */
  method LogBestParams(writer: Store, ghost base: seq<Run>, best: map<string, string>) returns (ok: bool)
    requires OpenAfter(writer, base)
    modifies writer
    ensures OpenAfter(writer, base)
    ensures writer.experiments == old(writer.experiments) && writer.artifacts == old(writer.artifacts)
    ensures writer.ActiveRun() == old(writer.ActiveRun()).(params := writer.ActiveRun().params)
    ensures ok ==> writer.ActiveRun().params == old(writer.ActiveRun().params) + BestParamMap(best)
    // with no faults and no `best_` name already taken, every write goes through
    ensures NoFaults(writer) && (forall p :: p in best ==> BestParamName(p) !in old(writer.ActiveRun().params))
            ==> ok
  {
    ghost var start := writer.ActiveRun();
    var todo := best.Keys;
    while todo != {}
      invariant OpenAfter(writer, base)
      invariant writer.experiments == old(writer.experiments) && writer.artifacts == old(writer.artifacts)
      invariant todo <= best.Keys
      invariant writer.ActiveRun() == start.(params := writer.ActiveRun().params)
      invariant writer.ActiveRun().params == start.params + BestParamMap(best - todo)
      decreases todo
    {
      var p :| p in todo;
      ghost var unused := BestParamName(p) !in start.params;
      var logged := LogOneParam(writer, base, BestParamName(p), best[p]);
      if !logged {
        if unused {
          BestParamMapEntries(best - todo);
          assert BestParamName(p) !in writer.ActiveRun().params;
        }
        return false;
      }
      BestParamMapAdd(start.params, best, todo, p);
      todo := todo - {p};
    }
    assert best - todo == best;
    ok := true;
  }

  lemma BestParamMapAdd(start: map<string, string>, best: map<string, string>, todo: set<string>, p: string)
    requires p in todo && p in best
    ensures start + BestParamMap(best - (todo - {p}))
         == (start + BestParamMap(best - todo))[BestParamName(p) := best[p]]
  {
    BestParamMapInsert(best, todo, p);
  }

  /** Taking one more hyperparameter out of `todo` adds exactly its entry. */
  lemma BestParamMapInsert(best: map<string, string>, todo: set<string>, p: string)
    requires p in todo && p in best
    ensures BestParamMap(best - (todo - {p})) == BestParamMap(best - todo)[BestParamName(p) := best[p]]
  {
    var before, after := BestParamMap(best - todo), BestParamMap(best - (todo - {p}));
    BestParamMapEntries(best - todo);
    BestParamMapEntries(best - (todo - {p}));
    forall k | k in after
      ensures k in before[BestParamName(p) := best[p]]
    {
      if k != BestParamName(p) {
        var q := k[|BestPrefix|..];
        assert BestParamName(q) == k;
      }
    }
  }

  /** The loop over the metrics dictionary: one metric each. */
  method LogMetricMap(writer: Store, ghost base: seq<Run>, metrics: map<string, real>) returns (ok: bool)
    requires OpenAfter(writer, base)
    modifies writer
    ensures OpenAfter(writer, base)
    ensures writer.experiments == old(writer.experiments) && writer.artifacts == old(writer.artifacts)
    ensures writer.ActiveRun() == old(writer.ActiveRun()).(metrics := writer.ActiveRun().metrics)
    ensures ok ==> writer.ActiveRun().metrics == old(writer.ActiveRun().metrics) + metrics
    ensures NoFaults(writer) ==> ok
  {
    ghost var start := writer.ActiveRun();
    var todo := metrics.Keys;
    while todo != {}
      invariant OpenAfter(writer, base)
      invariant writer.experiments == old(writer.experiments) && writer.artifacts == old(writer.artifacts)
      invariant todo <= metrics.Keys
      invariant writer.ActiveRun() == start.(metrics := writer.ActiveRun().metrics)
      invariant writer.ActiveRun().metrics == start.metrics + (metrics - todo)
      decreases todo
    {
      var k :| k in todo;
      var logged := writer.LogMetric(k, metrics[k]);
      if !logged {
        return false;
      }
      assert metrics - (todo - {k}) == (metrics - todo)[k := metrics[k]];
      todo := todo - {k};
    }
    assert metrics - todo == metrics;
    ok := true;
  }

  /** One param into the open run. */
  method LogOneParam(writer: Store, ghost base: seq<Run>, key: string, value: string) returns (ok: bool)
    requires OpenAfter(writer, base)
    modifies writer
    ensures OpenAfter(writer, base)
    ensures writer.experiments == old(writer.experiments) && writer.artifacts == old(writer.artifacts)
    ensures ok ==> writer.ActiveRun() == old(writer.ActiveRun()).(params := old(writer.ActiveRun()).params[key := value])
    ensures !ok ==> writer.ActiveRun() == old(writer.ActiveRun())
    ensures ok == (!writer.fails(Call.LogParam(old(writer.ActiveRun()).id, key, value))
                   && (key in old(writer.ActiveRun()).params ==> old(writer.ActiveRun()).params[key] == value))
  {
    ok := writer.LogParam(key, value);
  }

  /** One metric into the open run. */
  method LogOneMetric(writer: Store, ghost base: seq<Run>, key: string, value: real) returns (ok: bool)
    requires OpenAfter(writer, base)
    modifies writer
    ensures OpenAfter(writer, base)
    ensures writer.experiments == old(writer.experiments) && writer.artifacts == old(writer.artifacts)
    ensures ok ==> writer.ActiveRun() == old(writer.ActiveRun()).(metrics := old(writer.ActiveRun()).metrics[key := value])
    ensures !ok ==> writer.ActiveRun() == old(writer.ActiveRun())
    ensures ok == !writer.fails(Call.LogMetric(old(writer.ActiveRun()).id, key, value))
  {
    ok := writer.LogMetric(key, value);
  }

  /** The model type, then the grid search's best params. */
  method LogSearchParams(writer: Store, ghost base: seq<Run>, modelType: string, best: map<string, string>)
    returns (ok: bool)
    requires OpenAfter(writer, base) && writer.ActiveRun().params == map[]
    modifies writer
    ensures OpenAfter(writer, base)
    ensures writer.experiments == old(writer.experiments) && writer.artifacts == old(writer.artifacts)
    ensures writer.ActiveRun() == old(writer.ActiveRun()).(params := writer.ActiveRun().params)
    ensures ok ==> writer.ActiveRun().params == map["model_type" := modelType] + BestParamMap(best)
    ensures NoFaults(writer) ==> ok
  {
    ok := LogOneParam(writer, base, "model_type", modelType);
    if ok {
      assert writer.ActiveRun().params == map["model_type" := modelType];
      NotBestParamName("model_type");
      ok := LogBestParams(writer, base, best);
    }
  }

  /** The best cross-validation score, then every merged metric. */
  method LogScores(writer: Store, ghost base: seq<Run>, bestCvScore: real, metrics: map<string, real>)
    returns (ok: bool)
    requires OpenAfter(writer, base) && writer.ActiveRun().metrics == map[]
    modifies writer
    ensures OpenAfter(writer, base)
    ensures writer.experiments == old(writer.experiments) && writer.artifacts == old(writer.artifacts)
    ensures writer.ActiveRun() == old(writer.ActiveRun()).(metrics := writer.ActiveRun().metrics)
    ensures ok ==> writer.ActiveRun().metrics == map["best_cv_score" := bestCvScore] + metrics
    ensures NoFaults(writer) ==> ok
  {
    ok := LogOneMetric(writer, base, "best_cv_score", bestCvScore);
    if ok {
      assert writer.ActiveRun().metrics == map["best_cv_score" := bestCvScore];
      ok := LogMetricMap(writer, base, metrics);
    }
  }

  /**
   * The body of a training run's `with` block, as far as the store sees it:
   * the model type, the best params, the best cross-validation score, the
   * merged metrics, for the forest the top features, and the model itself.
   * Returns whether every write went through.
   */
  method LogTraining(writer: Store, ghost base: seq<Run>, modelType: string, best: map<string, string>,
                     bestCvScore: real, metrics: map<string, real>, topFeatures: Option<string>)
    returns (ok: bool)
    requires OpenAfter(writer, base)
    requires writer.ActiveRun().params == map[] && writer.ActiveRun().metrics == map[]
    modifies writer
    ensures OpenAfter(writer, base)
    ensures writer.experiments == old(writer.experiments)
    ensures writer.ActiveRun() == old(writer.ActiveRun()).(params := writer.ActiveRun().params,
                                                           metrics := writer.ActiveRun().metrics)
    ensures ok ==> writer.ActiveRun().params == LoggedParams(modelType, best, topFeatures)
    ensures ok ==> writer.ActiveRun().metrics == map["best_cv_score" := bestCvScore] + metrics
    ensures ok ==> writer.artifacts == old(writer.artifacts)[writer.ActiveRun().id :=
                     old(writer.ArtifactsOf(writer.ActiveRun().id)) + ModelArtifacts]
    ensures !ok ==> writer.artifacts == old(writer.artifacts)
    ensures NoFaults(writer) ==> ok
  {
    ok := LogSearchParams(writer, base, modelType, best);
    if !ok {
      return;
    }
    ok := LogScores(writer, base, bestCvScore, metrics);
    if !ok {
      return;
    }
    TopFeaturesUnused(modelType, best);
    ok := LogFeaturesAndModel(writer, base, topFeatures);
  }

  /** The end of the `with` block: for the forest the top features, then the model. */
  method LogFeaturesAndModel(writer: Store, ghost base: seq<Run>, topFeatures: Option<string>)
    returns (ok: bool)
    requires OpenAfter(writer, base) && "top_10_features" !in writer.ActiveRun().params
    modifies writer
    ensures OpenAfter(writer, base)
    ensures writer.experiments == old(writer.experiments)
    ensures writer.ActiveRun() == old(writer.ActiveRun()).(params := writer.ActiveRun().params)
    ensures ok ==> writer.ActiveRun().params == if topFeatures.Some?
                                                 then old(writer.ActiveRun().params)["top_10_features" := topFeatures.value]
                                                 else old(writer.ActiveRun().params)
    ensures ok ==> writer.artifacts == old(writer.artifacts)[writer.ActiveRun().id :=
                     old(writer.ArtifactsOf(writer.ActiveRun().id)) + ModelArtifacts]
    ensures !ok ==> writer.artifacts == old(writer.artifacts)
    ensures NoFaults(writer) ==> ok
  {
    if topFeatures.Some? {
      ok := LogOneParam(writer, base, "top_10_features", topFeatures.value);
      if !ok {
        return;
      }
    }
    ok := writer.LogArtifacts(ModelArtifacts);
  }

  /**
   * From the freshly opened run to its end: log into it, then close it as
   * finished, or as failed when a write raised.
   */
  method LogAndEnd(writer: Store, ghost base: seq<Run>, ghost blank: Run, modelType: string, fit: Fitted,
                   topFeatures: Option<string>) returns (ok: bool)
    requires OpenAfter(writer, base) && writer.ActiveRun() == blank
    requires blank.params == map[] && blank.metrics == map[] && blank.tags == map[]
    requires writer.ArtifactsOf(blank.id) == {}
    modifies writer
    ensures writer.Valid() && writer.active.None? && writer.experiments == old(writer.experiments)
    ensures ok ==> writer.runs == base + [Run(blank.id, blank.experimentId, blank.name, Finished,
                                                 LoggedParams(modelType, fit.bestParams, topFeatures),
                                                 LoggedMetrics(fit), map[])]
    ensures ok ==> writer.artifacts == old(writer.artifacts)[blank.id := ModelArtifacts]
    ensures !ok ==> |writer.runs| == |base| + 1 && writer.runs[..|base|] == base
                    && writer.runs[|base|].status == Failed
    ensures NoFaults(writer) ==> ok
  {
    ok := LogTraining(writer, base, modelType, fit.bestParams, fit.bestCvScore, Metrics(fit), topFeatures);
    ghost var logged := writer.ActiveRun();
    if ok {
      assert {} + ModelArtifacts == ModelArtifacts;
    }
    writer.EndRun(if ok then Finished else Failed);
    assert writer.runs == base + [logged.(status := if ok then Finished else Failed)];
  }

  /**
   * One training function: open a run under the given name, log into it,
   * and close it. An exception from any write ends the run as failed and
   * propagates. `runId` is the id of the run opened, if any.
   */
  method TrainingRun(writer: Store, experimentId: string, runName: string, modelType: string,
                     fit: Fitted, topFeatures: Option<string>)
    returns (result: Outcome<Trained>, ghost runId: string)
    requires writer.Valid() && writer.active.None?
    modifies writer
    ensures writer.Valid() && writer.active.None?
    ensures writer.experiments == old(writer.experiments)
    ensures old(writer.runs) <= writer.runs && |writer.runs| <= |old(writer.runs)| + 1
    ensures result.Completed? ==> result.value == TrainedFrom(fit)
    ensures result.Completed? ==>
              && runId !in old(writer.RunIds())
              && writer.runs == old(writer.runs) + [Run(runId, experimentId, runName, Finished,
                                   LoggedParams(modelType, fit.bestParams, topFeatures),
                                   LoggedMetrics(fit), map[])]
              && writer.artifacts == old(writer.artifacts)[runId := ModelArtifacts]
    ensures result.Crashed? && |writer.runs| > |old(writer.runs)| ==>
              writer.runs[|old(writer.runs)|].status == Failed
    // with no faults the run only needs an active experiment to go through
    ensures NoFaults(writer) && experimentId in old(writer.ActiveExperimentIds()) ==> result.Completed?
  {
    ghost var base := writer.runs;
    var started, id := writer.StartRun(experimentId, runName);
    runId := id;
    if !started {
      return Crashed, runId;
    }
    ghost var blank := Run(id, experimentId, runName, Running, map[], map[], map[]);
    assert OpenAfter(writer, base) && writer.ActiveRun() == blank;
    var logged := LogAndEnd(writer, base, blank, modelType, fit, topFeatures);
    result := if logged then Completed(Trained(fit.model, Metrics(fit), fit.bestParams)) else Crashed;
  }

  // ---------------------------------------------------------------------
  // Choosing the winner
  // ---------------------------------------------------------------------

  /** The keys the comparison table reads from each model's metrics, in order. */
  const ComparedKeys: seq<string> := [
    "train_accuracy", "train_roc_auc", "test_accuracy", "test_roc_auc",
    "test_precision", "test_recall", "test_f1", "cv_roc_auc"]

  /** The first of `keys` missing from `m`: the key a lookup raises `KeyError` on. */
  function FirstMissing(m: map<string, real>, keys: seq<string>): (r: Option<string>)
    ensures r.None? <==> forall k :: k in keys ==> k in m
    ensures r.Some? ==> r.value in keys && r.value !in m
  {
    if keys == [] then None
    else if keys[0] !in m then Some(keys[0])
    else FirstMissing(m, keys[1..])
  }

  /**
   * The comparison: the forest wins only with a strictly greater test
   * ROC-AUC, so a tie goes to the logistic regression. A metric the table
   * needs that is missing raises `KeyError`, reported as `Err(key)`.
   */
  function CompareModels(lrMetrics: map<string, real>, rfMetrics: map<string, real>)
    : (r: Result<string, string>)
    ensures r.Err? <==> exists k :: k in ComparedKeys && (k !in lrMetrics || k !in rfMetrics)
    ensures r.Err? ==> r.error in ComparedKeys
    ensures r.Ok? ==> r.value == LogisticRegression || r.value == RandomForest
    ensures r.Ok? ==> (r.value == RandomForest <==> rfMetrics["test_roc_auc"] > lrMetrics["test_roc_auc"])
  {
    match FirstMissing(lrMetrics, ComparedKeys)
    case Some(k) => Err(k)
    case None =>
      match FirstMissing(rfMetrics, ComparedKeys)
      case Some(k) => Err(k)
      case None =>
        assert "test_roc_auc" in ComparedKeys;
        if rfMetrics["test_roc_auc"] > lrMetrics["test_roc_auc"] then Ok(RandomForest)
        else Ok(LogisticRegression)
  }

  /**
   * On the metrics the training functions produce the comparison never
   * raises, and the winner's test ROC-AUC is at least the loser's.
   */
  lemma CompareTrainedModels(lr: Fitted, lrScores: Evaluation, rf: Fitted, rfScores: Evaluation)
    requires Scored(lr, lrScores) && Scored(rf, rfScores)
    ensures CompareModels(Metrics(lr), Metrics(rf)).Ok?
    ensures CompareModels(Metrics(lr), Metrics(rf)) == Ok(RandomForest)
            <==> rfScores.test.rocAuc > lrScores.test.rocAuc
    ensures lrScores.test.rocAuc == rfScores.test.rocAuc ==>
              CompareModels(Metrics(lr), Metrics(rf)) == Ok(LogisticRegression)
  {
    MetricsKeys(lr, lrScores);
    MetricsKeys(rf, rfScores);
    ComparedKeysPresent(Metrics(lr));
    ComparedKeysPresent(Metrics(rf));
    TestRocAuc(lr, lrScores);
    TestRocAuc(rf, rfScores);
  }

  /** What logging the comparison table leaves among its run's artifacts. */
  const ComparisonArtifacts: set<string> := {"model_comparison.json"}

  /**
   * Logging the comparison table through the fluent API once both training
   * runs are closed. With no run active, the call opens a fresh run in the
   * current experiment under a generated name (`runName`) and stores the
   * table as that run's artifact; an exception from either step is caught
   * and reported, and the pipeline goes on. The script never ends that run:
   * the tracking library ends it as finished when the process exits. Nothing
   * else writes to the store after this call, so the model ends it here.
   * `runId` is the id of the run opened, if any.
   */
  method LogComparisonTable(writer: Store, experimentId: string, runName: string) returns (ghost runId: string)
    requires writer.Valid() && writer.active.None?
    modifies writer
    ensures writer.Valid() && writer.active.None?
    ensures writer.experiments == old(writer.experiments)
    ensures old(writer.runs) <= writer.runs && |writer.runs| <= |old(writer.runs)| + 1
    // the run opens exactly when the experiment exists and the store accepts the request
    ensures |writer.runs| == |old(writer.runs)| + 1
            <==> experimentId in old(writer.ActiveExperimentIds()) && !writer.fails(Call.StartRun(experimentId, runName))
    ensures |writer.runs| == |old(writer.runs)| ==> writer.runs == old(writer.runs)
                                                      && writer.artifacts == old(writer.artifacts)
    ensures |writer.runs| == |old(writer.runs)| + 1 ==>
              && runId !in old(writer.RunIds())
              && writer.runs == old(writer.runs) + [Run(runId, experimentId, runName, Finished, map[], map[], map[])]
              && (writer.artifacts == old(writer.artifacts)
                  || writer.artifacts == old(writer.artifacts)[runId := ComparisonArtifacts])
    ensures NoFaults(writer) && experimentId in old(writer.ActiveExperimentIds()) ==>
              writer.artifacts == old(writer.artifacts)[runId := ComparisonArtifacts]
  {
    ghost var base := writer.runs;
    var started, id := writer.StartRun(experimentId, runName);
    runId := id;
    if !started {
      return;
    }
    assert writer.ArtifactsOf(id) == {} && {} + ComparisonArtifacts == ComparisonArtifacts;
    var logged := writer.LogArtifacts(ComparisonArtifacts);
    writer.EndRun(Finished);
  }

  /** A dictionary with every metric key has every key the comparison reads. */
  lemma ComparedKeysPresent(m: map<string, real>)
    requires m.Keys == EvaluationKeys + CrossValidationKeys
    ensures forall k :: k in ComparedKeys ==> k in m
  {
    ComparedKeysAreMetrics();
  }

  lemma ComparedKeysAreMetrics()
    ensures forall k :: k in ComparedKeys ==> k in EvaluationKeys + CrossValidationKeys
  {
  }

  /** The merge keeps the test ROC-AUC the evaluation computed. */
  lemma TestRocAuc(fit: Fitted, e: Evaluation)
    requires Scored(fit, e)
    ensures "test_roc_auc" in Metrics(fit) && Metrics(fit)["test_roc_auc"] == e.test.rocAuc
  {
    KeyInitials();
    assert "test_roc_auc" in fit.evaluation && fit.evaluation["test_roc_auc"] == e.test.rocAuc;
    assert "test_roc_auc"[0] == 't';
    assert "test_roc_auc" !in fit.crossValidation;
  }

  // ---------------------------------------------------------------------
  // The model directory
  // ---------------------------------------------------------------------

  /** The two files a save writes; the metadata document has exactly these four keys. */
  datatype SavedFile =
    | Pickle(model: Estimator)
    | MetadataJson(modelName: string, metrics: map<string, real>, parameters: map<string, string>,
                   timestamp: string)

  function ModelPath(name: string): string {
    name + ".pkl"
  }

  function MetadataPath(name: string): string {
    name + "_metadata.json"
  }

  /** A save never writes over another save's file, whatever the two names. */
  lemma SavedPathsDistinct(a: string, b: string)
    ensures ModelPath(a) != MetadataPath(b)
    ensures ModelPath(a) == ModelPath(b) ==> a == b
    ensures MetadataPath(a) == MetadataPath(b) ==> a == b
  {
    var m, d := ModelPath(a), MetadataPath(b);
    assert m[|m| - 1] == 'l' && d[|d| - 1] == 'n';
    if ModelPath(a) == ModelPath(b) {
      assert a == ModelPath(a)[..|a|] && b == ModelPath(b)[..|b|];
    }
    if MetadataPath(a) == MetadataPath(b) {
      assert a == MetadataPath(a)[..|a|] && b == MetadataPath(b)[..|b|];
    }
  }

  /** The three names the pipeline saves under are different, so are their six files. */
  lemma PipelineNamesDistinct()
    ensures LogisticRegression != RandomForest && LogisticRegression != BestModel && RandomForest != BestModel
  {
    assert LogisticRegression[0] == 'l' && RandomForest[0] == 'r' && BestModel[0] == 'b';
  }

  /** The two files `SaveBestModel` leaves for a name and a trained model. */
  ghost predicate SavedIn(files: map<string, SavedFile>, name: string, t: Trained) {
    && ModelPath(name) in files && files[ModelPath(name)] == Pickle(t.model)
    && MetadataPath(name) in files
    && files[MetadataPath(name)] == MetadataJson(name, t.metrics, t.params, Timestamp)
  }

  /** The directory after the two writes of a complete save. */
  function AfterSave(files: map<string, SavedFile>, name: string, t: Trained): map<string, SavedFile> {
    files[ModelPath(name) := Pickle(t.model)][MetadataPath(name) := MetadataJson(name, t.metrics, t.params, Timestamp)]
  }

  /** A complete save leaves its own two files, and keeps those of every other name. */
  lemma AfterSaveSaved(files: map<string, SavedFile>, name: string, t: Trained, other: string, u: Trained)
    ensures SavedIn(AfterSave(files, name, t), name, t)
    ensures other != name && SavedIn(files, other, u) ==> SavedIn(AfterSave(files, name, t), other, u)
  {
    SavedPathsDistinct(name, name);
    SavedPathsDistinct(name, other);
    SavedPathsDistinct(other, name);
  }

  /** The files under the model directory, by file name. */
  class ModelDir {
    var files: map<string, SavedFile>
    /** File names whose `open` for writing raises. */
    const unwritable: set<string>

    constructor (files: map<string, SavedFile>, unwritable: set<string>)
      ensures this.files == files && this.unwritable == unwritable
    {
      this.files := files;
      this.unwritable := unwritable;
    }

    /**
     * Pickles the model to `<name>.pkl`, then writes `<name>_metadata.json`.
     * A failing `open` raises; the pickle may then already be written.
     */
    method SaveBestModel(model: Estimator, name: string, metrics: map<string, real>,
                         params: map<string, string>) returns (ok: bool)
      modifies this
      ensures ok <==> ModelPath(name) !in unwritable && MetadataPath(name) !in unwritable
      ensures ok ==> files == AfterSave(old(files), name, Trained(model, metrics, params))
      ensures !ok ==> files == old(files) || files == old(files)[ModelPath(name) := Pickle(model)]
    {
      if ModelPath(name) in unwritable {
        return false;
      }
      files := files[ModelPath(name) := Pickle(model)];
      if MetadataPath(name) in unwritable {
        return false;
      }
      files := files[MetadataPath(name) := MetadataJson(name, metrics, params, Timestamp)];
      ok := true;
    }

    ghost predicate Saved(name: string, t: Trained)
      reads this
    {
      SavedIn(files, name, t)
    }
  }

  // ---------------------------------------------------------------------
  // The pipeline
  // ---------------------------------------------------------------------

  lemma PrefixTransitive(a: seq<Run>, b: seq<Run>, c: seq<Run>)
    requires a <= b && b <= c
    ensures a <= c
  {
    assert c[..|a|] == b[..|a|];
  }

  /** What a training function returns for a fit whose run went through. */
  function TrainedFrom(fit: Fitted): Trained {
    Trained(fit.model, Metrics(fit), fit.bestParams)
  }

  /** The three saves at the end of the pipeline: both models, then the winner as "best_model". */
  method SaveModels(dir: ModelDir, lr: Trained, rf: Trained, bestName: string) returns (ok: bool)
    modifies dir
    ensures ok <==> forall name :: name in {LogisticRegression, RandomForest, BestModel} ==>
                      ModelPath(name) !in dir.unwritable && MetadataPath(name) !in dir.unwritable
    ensures ok ==> dir.Saved(LogisticRegression, lr) && dir.Saved(RandomForest, rf)
    ensures ok ==> dir.Saved(BestModel, if bestName == RandomForest then rf else lr)
  {
    PipelineNamesDistinct();
    var best := if bestName == RandomForest then rf else lr;
    ghost var start := dir.files;
    ok := dir.SaveBestModel(lr.model, LogisticRegression, lr.metrics, lr.params);
    if !ok {
      return;
    }
    ghost var first := dir.files;
    AfterSaveSaved(start, LogisticRegression, lr, LogisticRegression, lr);
    ok := dir.SaveBestModel(rf.model, RandomForest, rf.metrics, rf.params);
    if !ok {
      return;
    }
    ghost var second := dir.files;
    AfterSaveSaved(first, RandomForest, rf, LogisticRegression, lr);
    ok := dir.SaveBestModel(best.model, BestModel, best.metrics, best.params);
    if ok {
      AfterSaveSaved(second, BestModel, best, LogisticRegression, lr);
      AfterSaveSaved(second, BestModel, best, RandomForest, rf);
    }
  }

  /**
   * The two training functions in turn; an exception from the first means
   * the second never runs.
   */
  method TrainBoth(writer: Store, experimentId: string, lr: Fitted, rf: Fitted, topFeatures: string)
    returns (result: Outcome<(Trained, Trained)>)
    requires writer.Valid() && writer.active.None?
    modifies writer
    ensures writer.Valid() && writer.active.None?
    ensures writer.experiments == old(writer.experiments)
    ensures old(writer.runs) <= writer.runs
    ensures result.Completed? ==> result.value == (TrainedFrom(lr), TrainedFrom(rf))
    ensures result.Completed? ==>
              && |writer.runs| == |old(writer.runs)| + 2
              && writer.runs[|old(writer.runs)|].name == LogisticRegression
              && writer.runs[|old(writer.runs)| + 1].name == RandomForest
    ensures NoFaults(writer) && experimentId in old(writer.ActiveExperimentIds()) ==> result.Completed?
  {
    var lrRun, _ := TrainingRun(writer, experimentId, LogisticRegression, "LogisticRegression", lr, None);
    if lrRun.Crashed? {
      return Crashed;
    }
    ghost var first := writer.runs;
    var rfRun, _ := TrainingRun(writer, experimentId, RandomForest, "RandomForest", rf, Some(topFeatures));
    PrefixTransitive(old(writer.runs), first, writer.runs);
    if rfRun.Crashed? {
      return Crashed;
    }
    assert writer.runs[|old(writer.runs)|] == first[|old(writer.runs)|];
    result := Completed((lrRun.value, rfRun.value));
  }

  /**
   * The entry point after the tracking setup and the data load: train both
   * models in runs of the given experiment, compare them (logging the
   * comparison table into a run of its own), save both, and save the winner
   * once more as "best_model". Any uncaught exception ends the pipeline. The
   * forest's top-feature list is passed in as its logged text, and the
   * generated name of the comparison table's run as `tableRunName`.
   */
  method RunTraining(writer: Store, experimentId: string, dir: ModelDir, lr: Fitted, rf: Fitted,
                     topFeatures: string, tableRunName: string)
    returns (result: Outcome<string>)
    requires writer.Valid() && writer.active.None?
    modifies writer, dir
    ensures writer.Valid() && writer.active.None?
    ensures old(writer.runs) <= writer.runs
    ensures result.Completed? ==> CompareModels(Metrics(lr), Metrics(rf)) == Ok(result.value)
    // the two training runs, then the comparison table's run when it could be opened
    ensures result.Completed? ==> |old(writer.runs)| + 2 <= |writer.runs| <= |old(writer.runs)| + 3
    ensures result.Completed? ==>
              && writer.runs[|old(writer.runs)|].name == LogisticRegression
              && writer.runs[|old(writer.runs)| + 1].name == RandomForest
    ensures result.Completed? && |writer.runs| == |old(writer.runs)| + 3 ==>
              writer.runs[|old(writer.runs)| + 2]
              == writer.runs[|old(writer.runs)| + 2].(experimentId := experimentId, name := tableRunName,
                                                       status := Finished, params := map[], metrics := map[],
                                                       tags := map[])
    ensures result.Completed? ==>
              dir.Saved(LogisticRegression, TrainedFrom(lr)) && dir.Saved(RandomForest, TrainedFrom(rf))
    ensures result.Completed? ==>
              dir.Saved(BestModel, TrainedFrom(if result.value == RandomForest then rf else lr))
    // with no store faults, an active experiment, comparable metrics and writable files, it completes
    ensures && NoFaults(writer) && experimentId in old(writer.ActiveExperimentIds())
            && CompareModels(Metrics(lr), Metrics(rf)).Ok?
            && (forall name :: name in {LogisticRegression, RandomForest, BestModel} ==>
                  ModelPath(name) !in dir.unwritable && MetadataPath(name) !in dir.unwritable)
            ==> result.Completed? && |writer.runs| == |old(writer.runs)| + 3
  {
    var both := TrainBoth(writer, experimentId, lr, rf, topFeatures);
    if both.Crashed? {
      return Crashed;
    }
    var (lrTrained, rfTrained) := both.value;
    var compared := CompareModels(lrTrained.metrics, rfTrained.metrics);
    if compared.Err? {
      return Crashed;
    }
    ghost var trained := writer.runs;
    ghost var tableRunId := LogComparisonTable(writer, experimentId, tableRunName);
    PrefixTransitive(old(writer.runs), trained, writer.runs);
    assert writer.runs[|old(writer.runs)|] == trained[|old(writer.runs)|];
    assert writer.runs[|old(writer.runs)| + 1] == trained[|old(writer.runs)| + 1];
    var saved := SaveModels(dir, lrTrained, rfTrained, compared.value);
    if !saved {
      return Crashed;
    }
    result := Completed(compared.value);
  }
}

=== FILE: wrappers.dfy ===
/** Option, Result and Outcome, the failure-carrying types used throughout the model. */
module Wrappers {

  datatype Option<+T> = None | Some(value: T)

  datatype Result<+R, +E> = Ok(value: R) | Err(error: E)

  /** A step either completes or raises an exception nobody catches. */
  datatype Outcome<+T> = Completed(value: T) | Crashed
}
